=== FILE: README.md ===
# KALX-libbms core, modelled in Dafny

KALX-libbms is a 2013 C++ library for quantitative finance. This project
models the parts of it whose behaviour can be stated exactly once
floating point is set aside. Every numeric type is a Dafny `real`, an
`ensure(...)` failure is a `Failure` of `Result`, and undefined behaviour
(a division by zero, a `size_t` that underflows) becomes a precondition.

- **Piecewise-flat forward curve** (`PwFlat`, `Bootstrap`, `YieldCurve`):
  `forward::value` looks up the rate with `lower_bound` and uses an
  extrapolated rate past the last knot. `forward::integral` is the area
  under that step function. `bootstrap` checks its precondition,
  dispatches a deposit, an FRA or a general instrument, and splits the
  cash flows at the last knot with `upper_bound`. `yield_curve` is an
  append-only pair of knot and rate vectors. The rate that `add`
  computes with `log`, `exp` and a Newton solve is a `Solver` parameter:
  any function of the curve and the calibration plan.
- **Cyclic ranges and rows** (`Range`, `Mask`, `Grade`, `Rows`):
  - cyclic `index`, `take` and `drop` with signed counts, `stride`,
    `mask`, `grade` and `sequence`;
  - the row-major `wrapper2`;
  - `row`, a view of one row of a flat array, with its offset arithmetic,
    row difference, `==`, `<` and `swap`.
- **Multiply-with-carry generator** (`Srng`): the 32-bit state, its `==`
  and `<`, `seed`, and `uint()`.
- **Grassmann algebra** (`Grassmann`): the permutation signs `sign(i, B)`
  and `sign(A, B)` of extensors, which are bit sets. An element is a
  sparse map from extensors to coefficients, with `element(A)`,
  `operator[]`, `+=` and `-=`.
- **Polynomials and splines** (`Series`, `Polynomial`, `BasisSpline`,
  `SplineStruct`, `PiecewisePolynomial`, `Functional`, `Constant`):
  - the two `horner`s and `taylor`;
  - the Cox-de Boor basis splines, as `basis_spline::value`/`derivative`/
    `integral`, as `basis_spline_func`, and as `basis_spline_struct`;
  - the localised sums of `piecewise_polynomial`;
  - `extrapolate` and the fixed-step trapezoid sum `integral`;
  - `constant`.

Each operation is paired with an independent description of what it
computes, or with an invariant it keeps. Examples:
- `horner` and `taylor` equal the power sum and the factorial series;
- the struct splines agree with `basis_spline_func`;
- `take` followed by `drop` gives back the range;
- row difference inverts `+`;
- `-=` undoes `+=`;
- every `add` keeps the knots increasing.

The checks in the library's own tests appear as example lemmas.

## Model

| member | source | states |
|---|---|---|
| PwFlat.LowerBound | curves/bootstrap.h:51-53 | the position `std::lower_bound` returns: every knot before it is below u, the knot at it is not, and it is the length of t when all knots are below u |
| PwFlat.LowerBoundSearch | curves/bootstrap.h:53 | binary search on sorted knots returns the same position as the linear characterisation |
| PwFlat.LowerBoundUnique | curves/bootstrap.h:53 | only one position has both defining properties of the lower bound |
| PwFlat.LowerBoundAtKnot | curves/bootstrap.h:5-18 | on strictly increasing knots the lower bound of t[k] is k |
| PwFlat.LowerBoundOnPiece | curves/bootstrap.h:5-18 | a point in (t[k-1], t[k]], or at or below t[0] for k = 0, has lower bound k |
| PwFlat.KnotAttainment | curves/bootstrap.h:51-59 | value(t[k]) is f[k] at every knot |
| PwFlat.ValueOnPiece | curves/bootstrap.h:5-18 | value is f[0] up to t[0] and f[k] on (t[k-1], t[k]] |
| PwFlat.ValueBeyondLastKnot | curves/bootstrap.h:51-59 | beyond the last knot, and everywhere on an empty curve, value is the extrapolated rate |
| PwFlat.ValueExtrapolatedOnlyBeyond | curves/bootstrap.h:51-59 | at or before the last knot value is one of the knot rates, so it is the extrapolated rate only when some knot rate equals it |
| PwFlat.IntegralLoop | curves/bootstrap.h:64-78 | the accumulation loop of `integral` computes the closed form, knot areas plus the partial last piece |
| PwFlat.IntegralAtZero | curves/bootstrap.h:64-78 | the integral at 0 is 0 when no knot is negative |
| PwFlat.IntegralAtKnot | curves/bootstrap.h:64-78 | integral(t[k]) is the sum over i <= k of f[i] (t[i] - t[i-1]), with t[-1] = 0 |
| PwFlat.IntegralAt | curves/bootstrap.h:64-78 | with lower bound i, the integral is the area up to t[i-1] plus f[i] times the rest |
| PwFlat.IntegralOnPiece | curves/bootstrap.h:69-75 | on (t[k-1], t[k]] the integral is integral(t[k-1]) + f[k] (u - t[k-1]) |
| PwFlat.IntegralBeyondLastKnot | curves/bootstrap.h:75 | beyond the last knot the integral grows at the extrapolated rate from the total area |
| PwFlat.IntegralIncrementOnPiece | curves/bootstrap.h:64-78 | within one piece the integral increases by the piece's rate times the length |
| PwFlat.WithExtrapolation | curves/bootstrap.h:45-50 | `extrapolate(_f)` replaces only the extrapolated rate |
| PwFlat.ExtrapolationOnlyMovesTail | curves/bootstrap.h:45-59 | a different extrapolated rate leaves value and integral unchanged up to the last knot |
| Bootstrap.LastKnot | curves/bootstrap.h:173 | t0 is the last knot, or 0 on an empty curve |
| Bootstrap.UpperBound | curves/bootstrap.h:174 | the position `std::upper_bound` returns: flows before it are at or before x, the one at it is beyond x |
| Bootstrap.DepositPlan | curves/bootstrap.h:126-136 | the deposit path succeeds exactly when u > 0 and c > 0, with t0 the last knot |
| Bootstrap.FraPlan | curves/bootstrap.h:139-156 | the FRA path checks nothing, and its overlap case is taken exactly when u0 < t0 |
| Bootstrap.InitialGuess | curves/bootstrap.h:191-192 | the Newton start is the given rate, else the last rate, else 0.01 |
| Bootstrap.Rate | curves/bootstrap.h:158-195 | `bootstrap` yields a rate exactly when its plan succeeds, and the rate is the solver's on that plan |
| Bootstrap.PlanRejects | curves/bootstrap.h:126-161 | no flows, a last flow not beyond the last knot, a deposit with u <= 0 or c <= 0, or general flows all at or before t0 are rejected |
| Bootstrap.PlanAccepts | curves/bootstrap.h:161-180 | with a last flow beyond the last knot, every non-deposit plan succeeds, and a deposit succeeds exactly when u > 0 and c > 0 |
| Bootstrap.PlanDispatch | curves/bootstrap.h:164-171 | one flow is a deposit, two flows at price 0 an FRA, anything else general, each as an if-and-only-if |
| Bootstrap.GeneralPartition | curves/bootstrap.h:173-180 | the known flows are exactly those at or before t0, and the unknown ones are non-empty and all beyond t0 |
| Bootstrap.PlanGeneralValue | curves/bootstrap.h:173-180 | the general plan splits the flows at the upper bound of t0, and the two parts rejoin to the input |
| Bootstrap.PlanNewKnotBeyondLast | curves/bootstrap.h:161 | the last flow time of a successful plan lies beyond the last knot |
| YieldCurve.Make | curves/yield_curve.h:41-43 | the constructor holds copies of the first n knots and rates, so both have length n |
| YieldCurve.View | curves/yield_curve.h:45-48 | `forward()` views exactly the committed knots and rates, and is empty when there are none |
| YieldCurve.ViewWellFormed | curves/yield_curve.h:45-48 | the view of an ordered curve is a well-formed forward curve |
| YieldCurve.AddDepositAsWritten | curves/yield_curve.h:50-56 | as written, a deposit is appended whenever u > 0 and c > 0, whatever the last knot |
| YieldCurve.AddFraAsWritten | curves/yield_curve.h:58-64 | as written, every FRA is appended |
| YieldCurve.AsWrittenDepositBreaksOrder | curves/yield_curve.h:50-56 | a deposit maturing before the last knot is accepted as written and leaves the knots out of order |
| YieldCurve.AsWrittenFraBreaksOrder | curves/yield_curve.h:58-64 | an FRA ending before the last knot is accepted as written and leaves the knots out of order |
| YieldCurve.AddFlows | curves/yield_curve.h:66-72 | a general `add` succeeds exactly when `bootstrap` does, appends u[m-1] and the computed rate, and keeps every earlier knot and rate |
| YieldCurve.AddDeposit | curves/yield_curve.h:50-56 | a deposit `add` succeeds exactly when t > 0, c > 0 and t lies beyond the last knot; it then appends t and the solver's rate and keeps every earlier knot and rate |
| YieldCurve.AddFra | curves/yield_curve.h:58-64 | an FRA `add` succeeds exactly when t1 lies beyond the last knot; it then appends t1 and the solver's rate and keeps every earlier knot and rate |
| YieldCurve.MakeOrdered | curves/yield_curve.h:41-43 | a curve built from increasing knots is ordered |
| YieldCurve.AppendOrdered | curves/yield_curve.h:52-53 | appending a knot beyond the last keeps the knots strictly increasing |
| YieldCurve.AddFlowsKeepsOrder | curves/yield_curve.h:66-72 | every successful general `add` keeps the knots strictly increasing and the vectors of equal length |
| YieldCurve.AddDepositKeepsOrder | curves/yield_curve.h:50-56 | every successful deposit `add` keeps the knots strictly increasing |
| YieldCurve.AddFraKeepsOrder | curves/yield_curve.h:58-64 | every successful FRA `add` keeps the knots strictly increasing |
| YieldCurve.BuildScenarioKnots | curves/curves_test/yield_curve_test.cpp:19-24 | the test's deposit, FRA and two general instruments build knots 1, 2, 3, 4 |
| Range.TruncDiv | functional/range.h:239 | C++ integer division truncates toward zero: the magnitude of q is that of a divided by that of b, and q is negative only when the signs of a and b differ |
| Range.Index | functional/range.h:12-16 | `index(i, n)` lies in [0, n) for every integer i |
| Range.IndexIsMod | functional/range.h:12-16 | `index` is the Euclidean remainder for every integer, negatives included |
| Range.IndexPeriodic | functional/range.h:12-16 | `index` is n-periodic |
| Range.IndexInRange | functional/range.h:12-16 | `index` is the identity on [0, n) and n + i for -n <= i < 0 |
| Range.IndexExamples | functional/range.h:316-320 | the test values of `index` on a three-element range |
| Range.At | functional/range.h:79-87 | `operator[]` reads the element at the cyclic index |
| Range.AtInRange | functional/range.h:79-87 | inside [0, size) element access is plain offsetting |
| Range.Take | functional/range.h:246-253 | `take` fails unless abs(n) <= size; it views the first n elements, or the last -n for n < 0 |
| Range.Drop | functional/range.h:260-264 | `drop` leaves size - abs(n) elements, starting n in for n >= 0 and at the start for n < 0 |
| Range.TakeContents | functional/range.h:246-253 | the contents of `take` are a prefix for n >= 0 and a suffix for n < 0 |
| Range.DropContents | functional/range.h:260-264 | the contents of `drop` are the complementary suffix or prefix |
| Range.TakeDropSplit | functional/range.h:246-264 | `take(k)` then `drop(k)` rebuild the view, and so do `drop(-k)` then `take(-k)` |
| Range.TakeThenDrop | functional/range.h:246-264 | `take(k)` followed by `drop(k)` is the whole view |
| Range.DropThenTake | functional/range.h:246-264 | `drop(-k)` followed by `take(-k)` is the whole view |
| Range.TakeDropExamples | functional/range.h:336-361 | the checks of the `take` and `drop` tests on {1, 2, 3} |
| Range.Stride | functional/range.h:266-269 | `stride(s, o)(i)` is o at 0 and moves by s per step |
| Range.StrideSteps | functional/range.h:266-269 | consecutive stride positions are s apart |
| Range.StrideExample | functional/range.h:370-371 | stride 2 over {1, 2, 3} picks the first and third elements |
| Range.Sequence | functional/range.h:234-244 | `sequence` has 1 + (stop - start)/step elements, truncating, and element i is start + i step |
| Range.SequenceCoversAscending | functional/range.h:234-244 | with a positive step every element lies in [start, stop] and the next one would pass stop |
| Range.SequenceCoversDescending | functional/range.h:234-244 | with a negative step every element lies in [stop, start] and the next one would pass stop |
| Range.SequenceAsWritten | functional/range.h:238-243 | as the header computes it, element i is the value in [0, 2^64) congruent to start + i step, because `i` is a `size_t` |
| Range.SequenceAsWrittenAgrees | functional/range.h:238-243 | an element as written equals the intended start + i step exactly when that lies in [0, 2^64) |
| Range.SequenceSignedReading | functional/range.h:238-243 | for a signed 64-bit T the conversion back gives the intended element whenever it fits |
| Range.SequenceWrapExample | functional/range.h:238-243 | `sequence(0, -2, -1)` as written is 0, 2^64 - 1, 2^64 - 2, where 0, -1, -2 is meant |
| Range.FromFlat | functional/range.h:100-104 | `wrapper2(n1, a)` succeeds exactly when n1 divides the size, with a.size / n1 columns over the same storage |
| Range.Row | functional/range.h:158-161 | row i has cols elements, and for 0 <= i < rows starts i cols elements in |
| Range.RowInside | functional/range.h:158-161 | every row, for any integer i, lies inside the whole view's storage |
| Range.RowMajor | functional/range.h:158-161 | a[i][j] is element i cols + j of the flat view |
| Range.RowAsWrittenAgrees | functional/range.h:158-161 | for 0 <= i < rows the written row is the intended one |
| Range.RowAsWrittenOutside | functional/range.h:158-161 | as written, row -1 of a 2 x 3 view starts 15 elements in, outside the 6 elements |
| Range.Wrapper2Examples | functional/range.h:413-430 | the `wrapper2` test's rows of {1..6} as 2 x 3, built directly and from the flat view |
| Mask.MaskSpec | functional/range.h:271-282 | `mask(m)(i)` is the position of the set flag preceded by exactly i set flags, and the sentinel exactly when fewer than i + 1 flags are set |
| Mask.Scan | functional/range.h:274-280 | the decrementing loop returns the position the specification names |
| Mask.MaskExamples | functional/range.h:380-382 | the `mask` test on {true, false, true} |
| Grade.IotaIsSequence | functional/range.h:237-243 | `sequence(0, n - 1)` with the default step 1 has 1 + (n - 1) = n elements, namely 0 .. n-1, the start index vector of `grade` |
| Grade.SelectFirst | functional/range.h:295-298 | the selected position holds an element no later element precedes |
| Grade.SwapExtends | functional/range.h:295-298 | moving the selected index to position p extends the ordered prefix by one |
| Grade.GradeOf | functional/range.h:284-301 | `grade` returns a permutation of 0 .. size-1 whose first abs(n) (all for n = 0, -1) positions are in order and ahead of every later one, ascending for n >= 0 and descending for n < 0 |
| Grade.GradeExamples | functional/range.h:385-408 | the checks of the `grade` test on {3, 1, 4, 2}: the full ascending and descending grades and the two smallest and two largest select 1, 2, 3, 4; 1, 2; 4, 3, 2, 1 and 4, 3 |
| Rows.Make | functional/row_iterator.h:18-20 | `row(r, c)` starts at r with width c and r's length |
| Rows.Get | functional/row_iterator.h:52-59 | for 0 <= i < length, element i is the storage at the start plus i |
| Rows.Inc | functional/row_iterator.h:61-66 | prefix `++` moves the start c elements on |
| Rows.Dec | functional/row_iterator.h:75-80 | prefix `--` moves the start c elements back |
| Rows.PostInc | functional/row_iterator.h:67-74 | postfix `++` returns the row before the step and leaves the stepped row |
| Rows.PostDec | functional/row_iterator.h:81-88 | postfix `--` returns the row before the step and leaves the row one step back |
| Rows.Plus | functional/row_iterator.h:89-103 | `+= n` and `+ n` move the start n c elements on and shrink the length by n c modulo 2^64 |
| Rows.Minus | functional/row_iterator.h:104-118 | `-= n` and `- n` move the start n c elements back and shrink the length by n c modulo 2^64 |
| Rows.PlusIsRepeatedInc | functional/row_iterator.h:61-95 | n prefix increments reach the same start as one `+= n` |
| Rows.StepsUndo | functional/row_iterator.h:61-118 | `--` undoes `++` and `-` undoes `+` on the start |
| Rows.DiffAsWritten | functional/row_iterator.h:119-124 | as written, the offset is reduced modulo 2^64 before the division by c, and unequal widths fail |
| Rows.Diff | functional/row_iterator.h:119-124 | unequal widths fail, and otherwise the result is the signed number of rows between the starts |
| Rows.DiffOfOffset | functional/row_iterator.h:119-124 | rows n c elements apart are n rows apart, either way round |
| Rows.DiffInvertsPlus | functional/row_iterator.h:89-124 | `(x + n) - x` is n and `x - (x + n)` is -n |
| Rows.DiffAsWrittenNegative | functional/row_iterator.h:119-124 | as written, rows 0 and 2 of width 2 are 2^63 - 2 rows apart, not -2 |
| Rows.LexLessTrichotomy | functional/row_iterator.h:47-50 | on sequences of one length exactly one of a < b, a == b, b < a holds |
| Rows.LessTotal | functional/row_iterator.h:43-50 | row `<` is irreflexive, transitive and total up to row `==` |
| Rows.Swap | functional/row_iterator.h:138-144 | `swap` fails for unequal widths, and otherwise exchanges the two rows' elements, or leaves the storage alone for the same row |
| Rows.SwapExchanges | functional/row_iterator.h:138-144 | after the exchange each row holds the other's former elements and every other position is unchanged |
| Rows.SwapTwice | functional/row_iterator.h:138-144 | exchanging twice restores the storage |
| Rows.RowScenario | functional/functional_test/row_test.cpp:9-26 | the row test over {1, ..., 6} with width 2, including (r0 + 2)[1] == 6 and the `++` checks |
| Srng.Seed | numerical/srng.h:100-106 | `seed(s0, s1)` sets exactly that state |
| Srng.SeedArray | numerical/srng.h:107-113 | `seed(s[2])` sets exactly that state |
| Srng.OrderConsistent | numerical/srng.h:57-64 | `==` is equality of both words, and `<` is a strict total order consistent with it |
| Srng.SeedScenario | numerical/tnumerical.cpp:12-33 | the seed test's checks: r1 and r2 are loaded with the same outside state g and compare equal; their 1000 `uint()` outputs agree and leave equal states; r3 differs from the stepped r2 exactly when that state is not (12345678, 87654321); after `r2 = r3` and the copy `r4(r3)` all three are equal |
| Srng.Next | numerical/srng.h:119-127 | `uint()` steps both halves by multiply-with-carry; the output's low 16 bits are those of the new s0, and its high 16 bits are the new s1 plus the carry out of s0, modulo 2^16 |
| Srng.MwcFits | numerical/srng.h:123-124 | with a multiplier below 2^16 the step never exceeds 2^32 - 1 |
| Srng.OutputHalves | numerical/srng.h:126 | the output's low half is the new s0's low half, and its high half is the new s1 plus the carry from s0, modulo 2^16 |
| Srng.Deterministic | numerical/srng.h:121-127 | generators with equal state give the same outputs and stay equal |
| Srng.StreamSplits | numerical/srng.h:121-127 | k steps then j steps are k + j steps, and their outputs concatenate |
| Grassmann.Point | grassmann/grassmann.h:157-162 | the point extensor P_i has bit i set and no other |
| Grassmann.SignOfPoint | grassmann/grassmann.h:165-177 | `sign(i, B)` is 0 when bit i of B is set, and otherwise (-1) to the number of set bits of B below i |
| Grassmann.Sign | grassmann/grassmann.h:179-193 | `sign(A, B)` is 0 when A and B share a set bit, and otherwise the product of `sign(i, B)` over A's set bits |
| Grassmann.SignProductSpec | grassmann/grassmann.h:179-193 | that product is 0 exactly when A and B share a point, and otherwise (-1) to the number of inversions, so it is 1 or -1 |
| Grassmann.ZeroFactor | grassmann/grassmann.h:184-188 | once a shared bit makes a factor 0, every longer product is 0 |
| Grassmann.PointsAnticommute | grassmann/grassmann.h:179-193 | `sign(P_i, P_j)` is 1 for i < j and -1 for i > j |
| Grassmann.SignExamples | grassmann/tgrassmann.cpp:24-40 | the sign checks of the extensor test with N = 3 |
| Grassmann.FromExtensor | grassmann/grassmann.h:57-61 | `element(A)` has exactly the key A, with coefficient 1 |
| Grassmann.Touch | grassmann/grassmann.h:104-112 | non-const `operator[]` inserts an absent extensor with coefficient 0 and changes nothing else |
| Grassmann.AddAt | grassmann/grassmann.h:114-120 | `operator[](k) += v` raises k's coefficient by v, inserting it as 0 first, and leaves other keys alone |
| Grassmann.AddStep | grassmann/grassmann.h:114-120 | one pass of the `+=` loop adds one more of A's extensors to the running sum |
| Grassmann.SubStep | grassmann/grassmann.h:121-127 | one pass of the `-=` loop subtracts one more of A's extensors |
| Grassmann.AddAssign | grassmann/grassmann.h:114-120 | `+=` in any iteration order gives every extensor the sum of both coefficients, absent counting as 0, with keys the union |
| Grassmann.SubAssign | grassmann/grassmann.h:121-127 | `-=` gives every extensor the difference of the coefficients, with keys the union |
| Grassmann.PlusMinusSpec | grassmann/grassmann.h:114-127 | the key-wise sum and difference have the union of the keys and the added or subtracted coefficients |
| Grassmann.SubtractUndoesAdd | grassmann/grassmann.h:114-127 | subtracting what was added restores every coefficient |
| Grassmann.ElementScenario | grassmann/tgrassmann.cpp:63-72 | from empty, `A += element(P0)` then `A += A` gives coefficient 2 and leaves other extensors at 0 |
| Polynomial.CurvesHorner | curves/polynomial.h:14-22 | `horner` is 0 for n = 0 and p[0] for n = 1 or x = 0 |
| Polynomial.FunctionalHorner | functional/polynomial.h:9-16 | `horner` is 0 for n = 0 and p[0] for n = 1 |
| Polynomial.Taylor | curves/polynomial.h:24-33 | `taylor` is 0 for n = 0 and p[0] for n = 1 |
| Polynomial.HornerClosedForm | curves/polynomial.h:14-22 | both `horner`s equal the power sum p[0] + p[1] x + ... + p[n-1] x^(n-1) |
| Polynomial.HornerVariantsAgree | functional/polynomial.h:9-16 | the x = 0 shortcut of the curves version changes nothing: both agree everywhere |
| Polynomial.RisingSumShift | curves/polynomial.h:24-33 | the rising-factorial sum is p[0] plus x/f times the sum of the rest with f + 1 |
| Polynomial.TaylorRisingForm | functional/polynomial.h:18-25 | `taylor(n, p, f)(x)` is the sum of p[i] x^i / (f (f + 1) ... (f + i - 1)) |
| Polynomial.TaylorClosedForm | curves/polynomial.h:24-33 | with f = 1, `taylor` is the sum of p[i] x^i / i!, and p[0] at x = 0 |
| Polynomial.PolynomialExamples | curves/curves_test/polynomial_test.cpp:12-26 | the polynomial test's values of `horner` and `taylor` at 0, 1 and 2 |
| Series.RisingOneIsFact | curves/polynomial.h:24-33 | the rising factorial from 1 is the factorial |
| Series.RisingSumOneIsTaylor | curves/polynomial.h:24-33 | with f = 1 the rising-factorial sum is the Taylor sum |
| BasisSpline.B | curves/basis_spline.h:15-44 | the spline of every order is 0 outside [t[i], t[i+k+1]), whatever the knots |
| BasisSpline.Unfold | curves/basis_spline.h:34-42 | inside the support the Cox-de Boor recursion applies, each quotient with a zero gap being 0 |
| BasisSpline.Nonnegative | curves/basis_spline.h:11-44 | with knots that do not decrease every basis spline is nonnegative |
| BasisSpline.Value | curves/basis_spline.h:15-44 | `value` fails exactly when i + k + 1 >= n; at order 0 it is 1 exactly on [t[i], t[i+1]) and 0 elsewhere; it is 0 outside the support |
| BasisSpline.Hat | curves/basis_spline.h:15-44 | on increasing knots order 1 is the hat rising from t[i] to 1 at t[i+1] and falling to 0 at t[i+2] |
| BasisSpline.Derivative | curves/basis_spline.h:46-55 | `derivative` fails exactly when i + k + 1 >= n, with the order k - 1 range message, and with ordered knots is 0 outside the support |
| BasisSpline.DerivOutsideSupport | curves/basis_spline.h:46-55 | with ordered knots the derivative vanishes outside the support |
| BasisSpline.HatDerivIsSlope | curves/basis_spline.h:46-55 | between two points of one piece the order-1 spline changes by its derivative times the distance |
| BasisSpline.IntegralLoop | curves/basis_spline.h:57-71 | the loop computes (t[i+k+1] - t[i])/(k+1) times the sum of order k + 1 splines from i |
| BasisSpline.IntegralBeforeSupport | curves/basis_spline.h:57-71 | the integral is 0 left of t[i] |
| BasisSpline.IntegralOfLastSpline | curves/basis_spline.h:57-71 | the last spline of order k has no order k + 1 spline to sum, so its integral is 0 everywhere |
| BasisSpline.IntegralOrderZeroRising | curves/basis_spline.h:57-71 | on [t[i], t[i+1]) the integral of an order-0 spline is x - t[i] |
| BasisSpline.IntegralOrderZeroFull | curves/basis_spline.h:57-71 | on the next interval it has reached the full area t[i+1] - t[i] |
| SplineStruct.Value | functional/basis_spline.h:90-105 | the struct's `operator()` fails exactly when i + K + 1 >= n, and with ordered knots equals `basis_spline_func` |
| SplineStruct.Agrees | functional/basis_spline.h:90-105 | with ordered knots the recursion without the support test equals the one with it |
| SplineStruct.AgreementNeedsOrderedKnots | functional/basis_spline.h:90-105 | with knots 0, 2, 1 at 1.5 the two disagree, 0.75 against 0 |
| SplineStruct.Derivative | functional/basis_spline.h:106-112 | the struct's `derivative` fails exactly when i + K + 1 >= n, and with ordered knots equals the curves `derivative` |
| SplineStruct.SumAgrees | functional/basis_spline.h:113-122 | with ordered knots the struct's spline sums equal `basis_spline_func`'s |
| SplineStruct.Integral | functional/basis_spline.h:113-122 | with ordered knots the struct's `integral` equals the curves `integral` |
| SplineStruct.IntegralOrderZero | functional/basis_spline.h:171-180 | the order-0 `integral`, with factor t[i+1] - t[i], equals the general formula at K = 0 |
| SplineStruct.SumLoop | functional/basis_spline.h:113-122 | the accumulation loop computes the sum of splines from i |
| PiecewisePolynomial.EvalAsWritten | curves/piecewise_polynomial.h:32-79 | as written, value, derivative and integral are all 0 beyond every knot |
| PiecewisePolynomial.EvalLoop | curves/piecewise_polynomial.h:40-46 | the summation loop computes the window sum |
| PiecewisePolynomial.Eval | curves/piecewise_polynomial.h:37-39 | the intended localisation keeps the rule that all three members are 0 beyond every knot |
| PiecewisePolynomial.EvalIsFullSum | curves/piecewise_polynomial.h:32-79 | with ordered knots the localised sum equals the sum over every basis spline, for value, derivative and integral |
| PiecewisePolynomial.AsWrittenVanishesOffKnots | curves/piecewise_polynomial.h:32-47 | as written, the value is 0 at every x that is not a knot |
| PiecewisePolynomial.AsWrittenLocalisationExample | curves/piecewise_polynomial.h:32-47 | hats on knots 0, 1, 2, 3 with coefficients 1, 1: the code gives 0 at 0.5 where the spline is 0.5 |
| PiecewisePolynomial.EvalAsWrittenLinear | curves/piecewise_polynomial.h:43-44 | as written, all three members are additive and homogeneous in the coefficients |
| PiecewisePolynomial.EvalLinear | curves/piecewise_polynomial.h:43-44 | the intended localisation is additive and homogeneous in the coefficients |
| Functional.Extrapolate | functional/functional.h:24-28 | `extrapolate(f, x0, g)(x)` is f(x) for x <= x0 and g(x) beyond |
| Functional.ExtrapolateBySelf | functional/functional.h:24-28 | extrapolating a function by itself changes nothing |
| Functional.ExtrapolateTwice | functional/functional.h:24-28 | a second extrapolation at the same point replaces the first one's tail |
| Functional.TrapezoidLoop | functional/functional.h:36-47 | the loop, carrying the previous value, computes the sum of the n trapezoids |
| Functional.AsWrittenOnLines | functional/functional.h:30-47 | as written, a y + b gives a x/2 + b at every x, which is the integral from 0 to x only at x = 1 |
| Functional.TrapezoidExactOnLines | functional/functional.h:30-47 | with the step x restored the rule gives a x^2/2 + b x on every line |
| Functional.IdentityExample | functional/tfunctional.cpp:55-60 | the identity gives exactly 1/2 at x = 1 with the default 100 steps |
| Functional.AsWrittenConstantExample | functional/functional.h:42 | the constant 1 at x = 2 gives 1 as written, where the integral is 2 |
| Functional.AsWrittenOnSquares | functional/functional.h:30-47 | as written, y^2 gives x^2/3 + x^2/(6 n^2) (stated as 6 n^2 times the sum), the trapezoid overestimate without the factor x |
| Functional.SquareExample | functional/tfunctional.cpp:59 | the x^2 check at x = 1 with 1000 steps: the sum is 1/3 + 1/6000000, so its absolute value is not below 10^-6, while its distance from 1/3 is |
| Constant.ApplyIgnoresArgument | functional/constant.h:14-17 | `constant(c)(x)` is c at every x |
| Constant.Integral | functional/constant.h:19-23 | the integral at t is t times the value |
| Constant.IntegralAtZero | functional/constant.h:19-23 | the integral is 0 at 0 |
| Constant.IntegralAdditive | functional/constant.h:19-23 | the integral is additive in the upper limit |
| Constant.IntegralSlope | functional/constant.h:19-23 | the integral grows by c per unit of t |
| Constant.AgreesWithTrapezoid | functional/constant.h:19-23 | the closed form equals the trapezoid rule with the step restored, while the sum as written gives c |

## Left out

- The forward rate `add` computes: `log`, `exp`, the closed forms of
  `bootstrap1` and `bootstrap2` and the Newton solve are transcendental
  floating-point numerics. They are the `Solver` parameter, any function
  of curve and plan. The same applies to `forward::present_value` and
  `duration`.
- `curves/bootstrap.h:133` writes `forward(n,t,f)discount(t0)`, which
  does not compile. Nor do the three `add`s of `yield_curve`:
  `curves/yield_curve.h:52` calls `forward().bootstrap1(t, c)`, line 60
  calls `forward().bootstrap2(t0, c0, t1, c1)` and line 68 calls
  `forward().bootstrap(m, u, c, p)`, but `forward` has no such members;
  the free functions of `curves/bootstrap.h` also take the curve's knots
  and rates. The model follows what they evidently mean: the free
  `bootstrap` on the current curve. YieldCurve.AddFlows reads the fourth
  argument p as the instrument's price, with an initial guess of 0, not as
  the guess `_f` that the free function's seventh parameter is.
- `forward::extrapolate()` returns the undeclared `_f`. Only the setter
  `extrapolate(_f)` is modelled, as `PwFlat.WithExtrapolation`.
- Grade.GradeOf: requires a non-empty range. For an empty one
  `a.size() - 1` wraps around to 2^64 - 1, which is -1 as the signed
  stop `I`, so `sequence(0, -1)` has 1 + (-1 - 0)/1 = 0 elements. The
  `holder` constructor then takes `&u_[0]` of an empty vector
  (functional/range.h:171-175), which is undefined. It also requires |n| <= size, or n of 0 or
  -1, because `partial_sort` past the end is undefined. The order among
  equal elements is left open, as for `std::sort`.
- Mask.MaskSpec: the size is assumed to be below 2^64 - 1, so that the
  all-ones sentinel is never a position.
- Rows.Get: requires a row of nonzero length, because `index(i, 0)`
  divides by zero.
- Rows.PostDec: the source's postfix `--` has the statement
  `operator--;`, which names the member without calling it and so does
  nothing. The model takes the step back that the body evidently means.
- The `ensure` message strings of `row` and of the basis splines are not
  modelled. The source's message gives file, line, function and the
  failed expression. The model's failures carry a short tag naming the
  failed check instead (`BasisSpline.RangeMessage` for the splines).
- Polynomial.Taylor: requires f > 0. The source divides by f, and with
  the default f = 1 every divisor is positive.
- BasisSpline.Derivative: requires nonzero knot gaps, where the source
  divides by them. The floating-point infinity or NaN of a zero gap is
  not modelled.
- The order-0 `basis_spline_struct::derivative` returns plus or minus
  infinity, which is not a real number, so it is left out.
- SplineStruct.Value: the struct's `size()`, `knots()` and `knot(i)` are
  the length of t, t and t[i] of the knot sequence it holds. They have no separate
  members.
- PiecewisePolynomial.Eval: requires at least k + 1 more knots than
  coefficients, n >= k + 1, as the source's `n - k - 1` does in `size_t`.
- `piecewise_polynomial_struct` uses the undeclared `k` and `n_`, and is
  left out.
- Constant.Integral: its contract is the closed form t times the value.
  It is tied to an independent definition by
  `Constant.AgreesWithTrapezoid`.
- `functional::derivative` uses a step of the size of the machine
  epsilon, which is floating point only.
- `srng::real`, `between` and `uniform` are floating point. `save`,
  `load` and the default seeding from a file, the registry or the clock
  are I/O. Only the state and `uint()` are modelled.
- The copy constructor and assignment of `srng` copy both words, which in
  Dafny is plain value semantics. `Srng.SeedScenario` states their effect.
- Grassmann `element::operator*=` is an unfinished draft and is left out.
- Grassmann.Touch, Grassmann.AddAt, Grassmann.AddAssign and
  Grassmann.SubAssign model the intended key-wise map. In the source,
  `element` is a `std::map` ordered by `extensor::operator<`, which
  reduces to `!=` (grassmann/grassmann.h:43-53). That is not a strict
  weak ordering, so any element holding two keys is undefined behaviour.
- Grassmann.Get: the const `operator[]` is the total function `Get`, the
  stored coefficient or 0. It has no contract of its own;
  `Grassmann.GetPresent` and the `+=`/`-=` contracts state it.
- Range.Drop: requires abs(n) <= size. The source does not check this, and a
  larger n makes the `size_t` length wrap around.
- Range.Sequence: requires a non-negative count. A negative count makes
  the `holder`'s `size_t` size wrap around.
- Range.Sequence: the elements are start + i step as integers, which is
  what a signed T receives when they fit (`Range.SequenceSignedReading`).
  For a floating or unsigned T a negative element arrives as 2^64 plus it;
  `Range.SequenceAsWritten` models that, see Findings.
- Range.Sequence: a count of 0 gives the empty range. In the source the
  `holder` then takes `&u_[0]` of an empty vector
  (functional/range.h:171-175), which is undefined behaviour.
- Range: the `holder` memory management and the asymmetric
  `wrapper::operator==` are left out. So is the `wrapper2` overload of
  `take` (functional/range.h:254-258). Its n < 0 arm passes a `T*` as the
  second argument of `wrapper2<T>`, whose constructors take
  `(size_t, size_t, T*)`, `(size_t, const wrapper<T>&)` or another
  `wrapper2`, so it does not compile once instantiated.
- `functional/array_iterator.h` and `functional/apply_iterator.h` are
  iterator plumbing, and are not part of this model.
- The x^2 check of the `integral` test (functional/tfunctional.cpp:59)
  compares the absolute value of the sum at x = 1 with 1000 steps against
  10^-6, not its distance from 1/3. As written the sum is
  1/3 + 1/6000000, so that check fails. `Functional.SquareExample` states
  both facts; nothing in the model depends on the check.

## Findings

| source | as written | input that shows it | evidently intended | confidence | as-written member | corrected member |
|---|---|---|---|---|---|---|
| curves/yield_curve.h:50-64 | the deposit and FRA `add`s go to `bootstrap1`/`bootstrap2`, which do not check that the new knot lies beyond the last one | a curve with knot 2 and a deposit maturing at 1 | reject, as the general `bootstrap` does, so that the knots stay increasing | not executed | YieldCurve.AsWrittenDepositBreaksOrder, YieldCurve.AsWrittenFraBreaksOrder | YieldCurve.AddDepositKeepsOrder, YieldCurve.AddFraKeepsOrder |
| functional/range.h:158-161 | row `index(i, n_)` with n_ the element count rows * cols | row -1 of a 2 x 3 view starts at element 15 of 6 | the row index taken cyclically over the rows | not executed | Range.RowAsWrittenOutside | Range.RowInside |
| functional/row_iterator.h:119-124 | the signed element offset is divided by the unsigned width, so a negative offset is first taken modulo 2^64 | rows 0 and 2 of width 2: 2^63 - 2 instead of -2 | signed division, the number of rows between the starts | not executed | Rows.DiffAsWrittenNegative | Rows.DiffInvertsPlus |
| curves/piecewise_polynomial.h:37-46 | the sum starts at the lower bound i0 of x, but every spline from i0 on starts at or after x | hats on knots 0, 1, 2, 3 with coefficients 1, 1 at 0.5: 0 instead of 0.5 | start k + 1 splines below the first knot above x | not executed | PiecewisePolynomial.AsWrittenLocalisationExample | PiecewisePolynomial.EvalIsFullSum |
| functional/range.h:238-243 | `start + i*step` with `i` a `size_t` is computed modulo 2^64 before the conversion to T | `sequence<double>(0, -2, -1)`: 0, 2^64 - 1, 2^64 - 2 | 0, -1, -2, the elements from start down to stop | not executed | Range.SequenceWrapExample | Range.SequenceCoversDescending |
| functional/functional.h:42 | each trapezoid is (f0 + fi)/(2n), without the step length x | the constant 1 at x = 2: 1 instead of 2 | the trapezoid rule for the integral from 0 to x, the sum times x | not executed | Functional.AsWrittenConstantExample | Functional.TrapezoidExactOnLines |

=== FILE: basis_spline.dfy ===
/**
  Cox-de Boor basis splines: `value`, `derivative` and `integral` of
  curves/basis_spline.h. `basis_spline_func` in functional/basis_spline.h
  is the same recursion word for word, so both are `B` here. The knot
  array of n points is the sequence t, so n is |t|; an `ensure` that
  throws is a `Failure`.
*/
module BasisSpline {
  import opened Wrappers

  ghost predicate Nondecreasing(t: seq<real>)
  {
    forall i, j :: 0 <= i <= j < |t| ==> t[i] <= t[j]
  }

  ghost predicate StrictlyIncreasing(t: seq<real>)
  {
    forall i, j :: 0 <= i < j < |t| ==> t[i] < t[j]
  }

  /** b / d, taken as 0 when the knot gap d is 0 (`dt ? b/dt : 0`). */
  function Ratio(b: real, d: real): real
  {
    if d != 0.0 then b / d else 0.0
  }

  /** One Cox-de Boor term: the weight a times b / d. */
  function Term(a: real, b: real, d: real): real
  {
    a * Ratio(b, d)
  }

  /**
    The right-continuous i-th basis spline of order k at x. It vanishes
    outside [t[i], t[i+k+1]) whatever the knots.
  */
  function B(t: seq<real>, k: nat, i: nat, x: real): (r: real)
    requires i + k + 1 < |t|
    ensures r != 0.0 ==> t[i] <= x < t[i + k + 1]
    decreases k
  {
    if k == 0 then (if t[i] <= x < t[i + 1] then 1.0 else 0.0)
    else if x < t[i] || x >= t[i + k + 1] then 0.0
    else
      Term(x - t[i], B(t, k - 1, i, x), t[i + k] - t[i])
      + Term(t[i + k + 1] - x, B(t, k - 1, i + 1, x), t[i + k + 1] - t[i + 1])
  }

  /** A Cox-de Boor term with nonnegative factors is nonnegative. */
  lemma NonnegTerm(a: real, b: real, d: real)
    requires 0.0 <= a && 0.0 <= b && 0.0 <= d
    ensures 0.0 <= Term(a, b, d)
  {
    if d != 0.0 {
      assert 0.0 <= b / d;
    }
  }

  /** With knots that do not decrease every basis spline is nonnegative. */
  lemma {:induction false} Nonnegative(t: seq<real>, k: nat, i: nat, x: real)
    requires Nondecreasing(t)
    requires i + k + 1 < |t|
    ensures 0.0 <= B(t, k, i, x)
  {
    if k == 0 {
    } else if t[i] <= x < t[i + k + 1] {
      assert t[i] <= t[i + k] && t[i + 1] <= t[i + k + 1];
      Nonnegative(t, k - 1, i, x);
      Nonnegative(t, k - 1, i + 1, x);
      NonnegStep(t, k, i, x);
    }
  }

  /** One step of the recursion keeps nonnegativity across gaps that are not negative. */
  lemma NonnegStep(t: seq<real>, k: nat, i: nat, x: real)
    requires 0 < k && i + k + 1 < |t|
    requires t[i] <= x < t[i + k + 1]
    requires t[i] <= t[i + k] && t[i + 1] <= t[i + k + 1]
    requires 0.0 <= B(t, k - 1, i, x) && 0.0 <= B(t, k - 1, i + 1, x)
    ensures 0.0 <= B(t, k, i, x)
  {
    NonnegTerm(x - t[i], B(t, k - 1, i, x), t[i + k] - t[i]);
    NonnegTerm(t[i + k + 1] - x, B(t, k - 1, i + 1, x), t[i + k + 1] - t[i + 1]);
    Unfold(t, k, i, x);
  }

  /** Inside the support the Cox-de Boor recursion applies. */
  lemma Unfold(t: seq<real>, k: nat, i: nat, x: real)
    requires 0 < k && i + k + 1 < |t|
    requires t[i] <= x < t[i + k + 1]
    ensures B(t, k, i, x) == Term(x - t[i], B(t, k - 1, i, x), t[i + k] - t[i])
                           + Term(t[i + k + 1] - x, B(t, k - 1, i + 1, x), t[i + k + 1] - t[i + 1])
  {
  }

  /** A tag naming the failed range check that guards order k. */
  function RangeMessage(k: nat): string
  {
    if k == 0 then "ensure (i + 1 < n)" else "ensure (i + k + 1 < n)"
  }

  /** `value(k, n, t)(i, x)`: the basis spline, or the failed range check. */
  function Value(t: seq<real>, k: nat, i: nat, x: real): (r: Result<real>)
    ensures r.Success? <==> i + k + 1 < |t|
    ensures r.Success? && k == 0 ==> (r.value == 1.0 <==> t[i] <= x < t[i + 1])
    ensures r.Success? && k == 0 ==> (r.value == 0.0 || r.value == 1.0)
    ensures r.Success? && (x < t[i] || x >= t[i + k + 1]) ==> r.value == 0.0
    ensures r.Failure? ==> r.error == RangeMessage(k)
  {
    if i + k + 1 < |t| then Success(B(t, k, i, x)) else Failure(RangeMessage(k))
  }

  /** On strictly increasing knots the order-1 spline is the hat on t[i], t[i+1], t[i+2]. */
  lemma Hat(t: seq<real>, i: nat, x: real)
    requires StrictlyIncreasing(t)
    requires i + 2 < |t|
    ensures t[i] <= x < t[i + 1] ==> B(t, 1, i, x) == (x - t[i]) / (t[i + 1] - t[i])
    ensures t[i + 1] <= x < t[i + 2] ==> B(t, 1, i, x) == (t[i + 2] - x) / (t[i + 2] - t[i + 1])
  {
    assert t[i] < t[i + 1] < t[i + 2];
    if t[i] <= x < t[i + 1] {
      assert B(t, 0, i, x) == 1.0 && B(t, 0, i + 1, x) == 0.0;
    } else if t[i + 1] <= x < t[i + 2] {
      assert B(t, 0, i, x) == 0.0 && B(t, 0, i + 1, x) == 1.0;
    }
  }

  /** The nonzero knot gaps the unguarded quotients of `derivative` divide by. */
  predicate GapsNonzero(t: seq<real>, k: nat, i: nat)
    requires i + k + 1 < |t|
  {
    t[i + k] != t[i] && t[i + k + 1] != t[i + 1]
  }

  /** The derivative formula k lo / d0 - k hi / d1 shared by both spline headers. */
  function DerivFormula(k: real, lo: real, d0: real, hi: real, d1: real): real
    requires d0 != 0.0 && d1 != 0.0
  {
    k * lo / d0 - k * hi / d1
  }

  /** `derivative(k, n, t)(i, x)` once its range checks have passed. */
  function Deriv(t: seq<real>, k: nat, i: nat, x: real): real
    requires 1 <= k
    requires i + k + 1 < |t|
    requires GapsNonzero(t, k, i)
  {
    DerivFormula(k as real, B(t, k - 1, i, x), t[i + k] - t[i], B(t, k - 1, i + 1, x), t[i + k + 1] - t[i + 1])
  }

  /**
    `derivative(k, n, t)(i, x)`: it evaluates order k - 1 at i and i + 1,
    whose range checks together ask for i + k + 1 < n.
  */
  function Derivative(t: seq<real>, k: nat, i: nat, x: real): (r: Result<real>)
    requires 1 <= k
    requires i + k + 1 < |t| ==> GapsNonzero(t, k, i)
    ensures r.Success? <==> i + k + 1 < |t|
    ensures r.Failure? ==> r.error == RangeMessage(k - 1)
    ensures r.Success? && Nondecreasing(t) && (x < t[i] || x >= t[i + k + 1]) ==> r.value == 0.0
  {
    if i + k + 1 < |t| then
      DerivOutsideSupport(t, k, i, x);
      Success(Deriv(t, k, i, x))
    else Failure(RangeMessage(k - 1))
  }

  /** With ordered knots the derivative vanishes where the spline does. */
  lemma DerivOutsideSupport(t: seq<real>, k: nat, i: nat, x: real)
    requires 1 <= k
    requires i + k + 1 < |t|
    requires GapsNonzero(t, k, i)
    ensures Nondecreasing(t) && (x < t[i] || x >= t[i + k + 1]) ==> Deriv(t, k, i, x) == 0.0
  {
    if Nondecreasing(t) && (x < t[i] || x >= t[i + k + 1]) {
      assert t[i] <= t[i + 1] && t[i + k] <= t[i + k + 1];
      assert B(t, k - 1, i, x) == 0.0;
      assert B(t, k - 1, i + 1, x) == 0.0;
      FormulaOfZeros(k as real, t[i + k] - t[i], t[i + k + 1] - t[i + 1]);
    }
  }

  /** The derivative formula of two vanishing lower-order splines is 0. */
  lemma FormulaOfZeros(c: real, d0: real, d1: real)
    requires d0 != 0.0 && d1 != 0.0
    ensures DerivFormula(c, 0.0, d0, 0.0, d1) == 0.0
  {
  }

  /** The slope of the hat on each of its two pieces. */
  lemma HatSlope(t: seq<real>, i: nat, x: real)
    requires StrictlyIncreasing(t)
    requires i + 2 < |t|
    ensures GapsNonzero(t, 1, i)
    ensures t[i] <= x < t[i + 1] ==> Deriv(t, 1, i, x) == 1.0 / (t[i + 1] - t[i])
    ensures t[i + 1] <= x < t[i + 2] ==> Deriv(t, 1, i, x) == -1.0 / (t[i + 2] - t[i + 1])
  {
    assert t[i] < t[i + 1] < t[i + 2];
  }

  /**
    The derivative is the rate of change of the value: between two points
    of the same piece the order-1 spline changes by the derivative times
    the distance.
  */
  lemma HatDerivIsSlope(t: seq<real>, i: nat, j: nat, x: real, y: real)
    requires StrictlyIncreasing(t)
    requires i + 2 < |t|
    requires j == i || j == i + 1
    requires t[j] <= x < t[j + 1] && t[j] <= y < t[j + 1]
    ensures GapsNonzero(t, 1, i)
    ensures B(t, 1, i, y) - B(t, 1, i, x) == Deriv(t, 1, i, x) * (y - x)
  {
    assert t[i] < t[i + 1] < t[i + 2];
    if j == i {
      RisingSlope(t, i, x, y);
    } else {
      FallingSlope(t, i, x, y);
    }
  }

  /** On the rising piece of the hat the change is the slope times the distance. */
  lemma RisingSlope(t: seq<real>, i: nat, x: real, y: real)
    requires i + 2 < |t| && t[i] < t[i + 1] < t[i + 2]
    requires t[i] <= x < t[i + 1] && t[i] <= y < t[i + 1]
    ensures GapsNonzero(t, 1, i)
    ensures B(t, 1, i, y) - B(t, 1, i, x) == Deriv(t, 1, i, x) * (y - x)
  {
    var d := t[i + 1] - t[i];
    assert B(t, 0, i, x) == 1.0 && B(t, 0, i + 1, x) == 0.0;
    assert B(t, 0, i, y) == 1.0 && B(t, 0, i + 1, y) == 0.0;
    SlopeUp(t[i], d, x, y);
  }

  /** On the falling piece of the hat the change is the slope times the distance. */
  lemma FallingSlope(t: seq<real>, i: nat, x: real, y: real)
    requires i + 2 < |t| && t[i] < t[i + 1] < t[i + 2]
    requires t[i + 1] <= x < t[i + 2] && t[i + 1] <= y < t[i + 2]
    ensures GapsNonzero(t, 1, i)
    ensures B(t, 1, i, y) - B(t, 1, i, x) == Deriv(t, 1, i, x) * (y - x)
  {
    var d := t[i + 2] - t[i + 1];
    assert B(t, 0, i, x) == 0.0 && B(t, 0, i + 1, x) == 1.0;
    assert B(t, 0, i, y) == 0.0 && B(t, 0, i + 1, y) == 1.0;
    SlopeDown(t[i + 2], d, x, y);
  }

  /** The rising side of a hat is a line of slope 1/d. */
  lemma SlopeUp(a: real, d: real, x: real, y: real)
    requires d != 0.0
    ensures (y - a) / d - (x - a) / d == (1.0 / d) * (y - x)
  {
  }

  /** The falling side of a hat is a line of slope -1/d. */
  lemma SlopeDown(c: real, d: real, x: real, y: real)
    requires d != 0.0
    ensures (c - y) / d - (c - x) / d == (-1.0 / d) * (y - x)
  {
  }

  /** Sum of B(t, k, m, x) over m from j while m + k + 1 < n. */
  function BasisSum(t: seq<real>, k: nat, j: nat, x: real): real
    decreases |t| - j
  {
    if j + k + 1 < |t| then B(t, k, j, x) + BasisSum(t, k, j + 1, x) else 0.0
  }

  /** The factor (t[i+k+1] - t[i])/(k+1) of `integral`. */
  function Weight(t: seq<real>, k: nat, i: nat): real
    requires i + k + 1 < |t|
  {
    (t[i + k + 1] - t[i]) / ((k + 1) as real)
  }

  /**
    `integral(k, n, t)(i, x)`: (t[i+k+1] - t[i])/(k+1) times the sum of the
    order k + 1 splines from i on. Reading t[i+k+1] needs i + k + 1 < n.
  */
  function Integral(t: seq<real>, k: nat, i: nat, x: real): real
    requires i + k + 1 < |t|
  {
    BasisSum(t, k + 1, i, x) * Weight(t, k, i)
  }

  /** The accumulation loop of `integral`. */
  method IntegralLoop(t: seq<real>, k: nat, i: nat, x: real) returns (r: real)
    requires i + k + 1 < |t|
    ensures r == Integral(t, k, i, x)
  {
    var acc := 0.0;
    var j := i;
    while j + k + 2 < |t|
      invariant i <= j
      invariant acc + BasisSum(t, k + 1, j, x) == BasisSum(t, k + 1, i, x)
      decreases |t| - j
    {
      acc := acc + B(t, k + 1, j, x);
      j := j + 1;
    }
    r := acc * Weight(t, k, i);
  }

  /** With ordered knots every spline from j on vanishes left of t[j]. */
  lemma {:induction false} BasisSumBeforeSupport(t: seq<real>, k: nat, j: nat, x: real)
    requires Nondecreasing(t)
    requires j < |t| && x < t[j]
    ensures BasisSum(t, k, j, x) == 0.0
    decreases |t| - j
  {
    if j + k + 1 < |t| {
      assert B(t, k, j, x) == 0.0;
      assert t[j] <= t[j + 1];
      BasisSumBeforeSupport(t, k, j + 1, x);
    }
  }

  /** The integral is 0 left of the spline's support. */
  lemma IntegralBeforeSupport(t: seq<real>, k: nat, i: nat, x: real)
    requires Nondecreasing(t)
    requires i + k + 1 < |t|
    requires x < t[i]
    ensures Integral(t, k, i, x) == 0.0
  {
    BasisSumBeforeSupport(t, k + 1, i, x);
  }

  /**
    The last spline of order k, i = n - k - 2, has no order k + 1 spline
    to sum, so its integral is 0 everywhere.
  */
  lemma IntegralOfLastSpline(t: seq<real>, k: nat, i: nat, x: real)
    requires i + k + 2 == |t|
    ensures Integral(t, k, i, x) == 0.0
  {
  }

  /** On its own interval the integral of an order-0 spline is x - t[i]. */
  lemma IntegralOrderZeroRising(t: seq<real>, i: nat, x: real)
    requires StrictlyIncreasing(t)
    requires i + 2 < |t|
    requires t[i] <= x < t[i + 1]
    ensures Integral(t, 0, i, x) == x - t[i]
  {
    Hat(t, i, x);
    BasisSumBeforeSupport(t, 1, i + 1, x);
    assert BasisSum(t, 1, i, x) == (x - t[i]) / (t[i + 1] - t[i]);
  }

  /** On the next interval it has reached the full area t[i+1] - t[i]. */
  lemma IntegralOrderZeroFull(t: seq<real>, i: nat, x: real)
    requires StrictlyIncreasing(t)
    requires i + 3 < |t|
    requires t[i + 1] <= x < t[i + 2]
    ensures Integral(t, 0, i, x) == t[i + 1] - t[i]
  {
    Hat(t, i, x);
    Hat(t, i + 1, x);
    assert t[i + 2] < t[i + 3];
    BasisSumBeforeSupport(t, 1, i + 2, x);
    var d := t[i + 2] - t[i + 1];
    assert BasisSum(t, 1, i, x) == (t[i + 2] - x) / d + (x - t[i + 1]) / d;
    assert (t[i + 2] - x) / d + (x - t[i + 1]) / d == 1.0;
  }
}

=== FILE: bootstrap.dfy ===
/**
  The precondition, dispatch and cash-flow partition of `bootstrap`,
  `bootstrap1` and `bootstrap2` in curves/bootstrap.h.

  The new forward rate itself is obtained there from logarithms, exponentials
  and a Newton solve; here it is the value of a `Solver` supplied by the
  caller, applied to the calibration problem this module sets up.
*/
module Bootstrap {
  import opened Wrappers
  import opened PwFlat

  /** The calibration problem for one instrument, by instrument shape. */
  datatype Calibration =
      /** Cash deposit paying c at time u (`bootstrap1`). */
    | Deposit(u: real, c: real, t0: real)
      /** Forward rate agreement: c0 at u0 and c1 at u1 (`bootstrap2`); overlap when u0 < t0. */
    | Fra(u0: real, c0: real, u1: real, c1: real, t0: real, overlap: bool)
      /**
        General cash flows: the flows at or before the last knot t0 (priced on
        the known curve) and the remaining flows, solved for starting at `guess`.
      */
    | General(knownU: seq<real>, knownC: seq<real>, restU: seq<real>, restC: seq<real>,
              p: real, t0: real, guess: real)

  /** The rate finder standing for the closed forms and the Newton solve. */
  type Solver = (Forward, Calibration) -> real

  /** The last knot of the curve, or 0 for an empty curve (`n ? t[n-1] : 0`). */
  function LastKnot(c: Forward): (r: real)
    ensures |c.t| > 0 ==> r == c.t[|c.t| - 1]
    ensures |c.t| == 0 ==> r == 0.0
  {
    if |c.t| > 0 then c.t[|c.t| - 1] else 0.0
  }

  ghost predicate Nondecreasing(u: seq<real>)
  {
    forall i, j :: 0 <= i < j < |u| ==> u[i] <= u[j]
  }

  /** `std::upper_bound`: the first position whose time exceeds x, or |u| when none does. */
  function UpperBound(u: seq<real>, x: real): (r: nat)
    ensures r <= |u|
    ensures forall j :: 0 <= j < r ==> u[j] <= x
    ensures r < |u| ==> x < u[r]
  {
    UpperBoundFrom(u, x, 0)
  }

  function UpperBoundFrom(u: seq<real>, x: real, i: nat): (r: nat)
    requires i <= |u|
    requires forall j :: 0 <= j < i ==> u[j] <= x
    ensures i <= r <= |u|
    ensures forall j :: 0 <= j < r ==> u[j] <= x
    ensures r < |u| ==> x < u[r]
    decreases |u| - i
  {
    if i == |u| || x < u[i] then i else UpperBoundFrom(u, x, i + 1)
  }

  /** The precondition check of `bootstrap1`: u > 0 and c > 0. */
  function DepositPlan(c: Forward, u: real, amount: real): (r: Result<Calibration>)
    ensures r.Success? <==> u > 0.0 && amount > 0.0
    ensures r.Success? ==> r.value == Deposit(u, amount, LastKnot(c))
  {
    if !(u > 0.0) then Failure("ensure (u > 0)")
    else if !(amount > 0.0) then Failure("ensure (c > 0)")
    else Success(Deposit(u, amount, LastKnot(c)))
  }

  /** `bootstrap2` has no precondition check; the overlap branch is taken when u0 < t0. */
  function FraPlan(c: Forward, u0: real, c0: real, u1: real, c1: real): (r: Calibration)
    ensures r.Fra? && r.t0 == LastKnot(c)
    ensures r.overlap <==> u0 < LastKnot(c)
  {
    Fra(u0, c0, u1, c1, LastKnot(c), u0 < LastKnot(c))
  }

  /** The starting rate of the Newton solve: the given one, else the last rate, else 1%. */
  function InitialGuess(c: Forward, guess: real): (r: real)
    requires |c.t| == |c.f|
    ensures guess != 0.0 ==> r == guess
    ensures guess == 0.0 && |c.f| > 0 ==> r == c.f[|c.f| - 1]
    ensures guess == 0.0 && |c.f| == 0 ==> r == 0.01
  {
    if guess != 0.0 then guess else if |c.f| > 0 then c.f[|c.f| - 1] else 0.01
  }

  /**
    `bootstrap(m, u, c, n, t, f, _f, p)` up to the rate computation: the
    precondition, the dispatch on instrument shape and, on the general path,
    the split of the flows at the last knot.
  */
  function Plan(c: Forward, u: seq<real>, amounts: seq<real>, p: real, guess: real): (r: Result<Calibration>)
    requires |c.t| == |c.f|
    requires |u| == |amounts|
    ensures r.Success? ==> |u| > 0
  {
    var m, n := |u|, |c.t|;
    if !(m > 0 && (n == 0 || u[m - 1] > c.t[n - 1])) then
      Failure("ensure (m && (n == 0 || u[m-1] > t[n-1]))")
    else if m == 1 then
      DepositPlan(c, u[0], amounts[0])
    else if m == 2 && p == 0.0 then
      Success(FraPlan(c, u[0], amounts[0], u[1], amounts[1]))
    else
      var t0 := LastKnot(c);
      var k := UpperBound(u, t0);
      if k == m then Failure("ensure (um != u + m)")
      else Success(General(u[..k], amounts[..k], u[k..], amounts[k..], p, t0, InitialGuess(c, guess)))
  }

  /** `bootstrap`: the new forward rate for the interval ending at the last flow time. */
  function Rate(c: Forward, u: seq<real>, amounts: seq<real>, p: real, guess: real, solve: Solver): (r: Result<real>)
    requires |c.t| == |c.f|
    requires |u| == |amounts|
    ensures r.Success? <==> Plan(c, u, amounts, p, guess).Success?
    ensures r.Success? ==> r.value == solve(c, Plan(c, u, amounts, p, guess).value)
  {
    var plan :- Plan(c, u, amounts, p, guess);
    Success(solve(c, plan))
  }

  // ---------------------------------------------------------------------
  // Properties of the plan

  /**
    Rejection: no flows, a last flow not beyond the last knot, a deposit with
    u <= 0 or c <= 0, or (on the general path) no flow beyond t0.
  */
  lemma PlanRejects(c: Forward, u: seq<real>, amounts: seq<real>, p: real, guess: real)
    requires |c.t| == |c.f|
    requires |u| == |amounts|
    ensures |u| == 0 ==> Plan(c, u, amounts, p, guess).Failure?
    ensures |u| > 0 && |c.t| > 0 && u[|u| - 1] <= c.t[|c.t| - 1] ==> Plan(c, u, amounts, p, guess).Failure?
    ensures |u| == 1 && (u[0] <= 0.0 || amounts[0] <= 0.0) ==> Plan(c, u, amounts, p, guess).Failure?
    ensures !(|u| == 2 && p == 0.0) && (forall j :: 0 <= j < |u| ==> u[j] <= LastKnot(c)) ==>
              Plan(c, u, amounts, p, guess).Failure?
  {
    var m := |u|;
    if m > 0 && m != 1 && !(m == 2 && p == 0.0) && forall j :: 0 <= j < m ==> u[j] <= LastKnot(c) {
      UpperBoundAll(u, LastKnot(c));
    }
  }

  /** When no time exceeds x, the upper bound is the end. */
  lemma UpperBoundAll(u: seq<real>, x: real)
    requires forall j :: 0 <= j < |u| ==> u[j] <= x
    ensures UpperBound(u, x) == |u|
  {
  }

  /** Acceptance: the conditions under which the plan succeeds, one per path. */
  lemma PlanAccepts(c: Forward, u: seq<real>, amounts: seq<real>, p: real, guess: real)
    requires |c.t| == |c.f|
    requires |u| == |amounts|
    requires |u| > 0 && u[|u| - 1] > LastKnot(c)
    ensures |u| == 1 ==> (Plan(c, u, amounts, p, guess).Success? <==> u[0] > 0.0 && amounts[0] > 0.0)
    ensures |u| != 1 ==> Plan(c, u, amounts, p, guess).Success?
  {
    var m := |u|;
    if m != 1 && !(m == 2 && p == 0.0) {
      assert UpperBound(u, LastKnot(c)) < m;
    }
  }

  /** Dispatch: one flow is a deposit, two flows at zero price an FRA, anything else general. */
  lemma PlanDispatch(c: Forward, u: seq<real>, amounts: seq<real>, p: real, guess: real)
    requires |c.t| == |c.f|
    requires |u| == |amounts|
    requires Plan(c, u, amounts, p, guess).Success?
    ensures Plan(c, u, amounts, p, guess).value.Deposit? <==> |u| == 1
    ensures Plan(c, u, amounts, p, guess).value.Fra? <==> |u| == 2 && p == 0.0
    ensures Plan(c, u, amounts, p, guess).value.General? <==> |u| != 1 && !(|u| == 2 && p == 0.0)
    ensures Plan(c, u, amounts, p, guess).value.Deposit? ==>
              Plan(c, u, amounts, p, guess).value == Deposit(u[0], amounts[0], LastKnot(c))
    ensures Plan(c, u, amounts, p, guess).value.Fra? ==>
              Plan(c, u, amounts, p, guess).value == Fra(u[0], amounts[0], u[1], amounts[1], LastKnot(c), u[0] < LastKnot(c))
  {
  }

  /**
    General path: the known flows are exactly those at or before t0, the
    remaining ones are non-empty and all lie beyond t0, and together they
    are the instrument's flows in order.
  */
  lemma GeneralPartition(c: Forward, u: seq<real>, amounts: seq<real>, p: real, guess: real)
    requires |c.t| == |c.f|
    requires |u| == |amounts|
    requires Nondecreasing(u)
    requires Plan(c, u, amounts, p, guess).Success?
    requires Plan(c, u, amounts, p, guess).value.General?
    ensures var g := Plan(c, u, amounts, p, guess).value;
      && g.knownU + g.restU == u
      && g.knownC + g.restC == amounts
      && |g.knownU| == |g.knownC| && |g.restU| == |g.restC|
      && |g.restU| > 0
      && g.t0 == LastKnot(c)
      && (forall j :: 0 <= j < |g.knownU| ==> g.knownU[j] <= g.t0)
      && (forall j :: 0 <= j < |g.restU| ==> g.t0 < g.restU[j])
      && g.guess == InitialGuess(c, guess)
  {
    var t0 := LastKnot(c);
    var k := UpperBound(u, t0);
    PlanGeneralValue(c, u, amounts, p, guess);
    SplitAt(u, k);
    SplitAt(amounts, k);
    SuffixBeyond(u, t0, k);
  }

  /** The general plan is the split of the flows at the upper bound of the last knot. */
  lemma PlanGeneralValue(c: Forward, u: seq<real>, amounts: seq<real>, p: real, guess: real)
    requires |c.t| == |c.f|
    requires |u| == |amounts|
    requires Plan(c, u, amounts, p, guess).Success?
    requires Plan(c, u, amounts, p, guess).value.General?
    ensures UpperBound(u, LastKnot(c)) < |u|
    ensures var k := UpperBound(u, LastKnot(c));
      Plan(c, u, amounts, p, guess).value ==
        General(u[..k], amounts[..k], u[k..], amounts[k..], p, LastKnot(c), InitialGuess(c, guess))
  {
  }

  lemma SplitAt(s: seq<real>, k: nat)
    requires k <= |s|
    ensures s[..k] + s[k..] == s
    ensures |s[..k]| == k && |s[k..]| == |s| - k
  {
  }

  /** In a nondecreasing sequence everything from the upper bound on lies beyond x. */
  lemma SuffixBeyond(u: seq<real>, x: real, k: nat)
    requires Nondecreasing(u)
    requires k == UpperBound(u, x)
    ensures forall j :: 0 <= j < |u[k..]| ==> x < u[k..][j]
  {
    forall j | 0 <= j < |u[k..]|
      ensures x < u[k..][j]
    {
      assert u[k] <= u[k + j];
    }
  }

  /**
    The new knot of a successful plan, the last flow time, lies beyond the
    last knot of a non-empty curve; on an empty curve it is positive except
    on the unchecked FRA path.
  */
  lemma PlanNewKnotBeyondLast(c: Forward, u: seq<real>, amounts: seq<real>, p: real, guess: real)
    requires |c.t| == |c.f|
    requires |u| == |amounts|
    requires Nondecreasing(u)
    requires Plan(c, u, amounts, p, guess).Success?
    ensures |u| > 0
    ensures |c.t| > 0 ==> u[|u| - 1] > c.t[|c.t| - 1]
    ensures !Plan(c, u, amounts, p, guess).value.Fra? ==> u[|u| - 1] > LastKnot(c)
  {
    var m := |u|;
    if |c.t| == 0 && m != 1 && !(m == 2 && p == 0.0) {
      var k := UpperBound(u, 0.0);
      assert u[k] <= u[m - 1];
    }
  }
}

=== FILE: constant.dfy ===
/**
  `constant<T>` of functional/constant.h: a function object returning c at
  every argument, and its closed-form `integral`, t |-> t c.
*/
module Constant {
  import Functional

  datatype Constant = Constant(c: real)
  {
    /** `operator()`: the argument is ignored. */
    function Apply(x: real): real
    {
      c
    }

    /** The constant as a Dafny function. */
    function AsFunction(): (f: real -> real)
      ensures forall y :: f(y) == Apply(y)
    {
      y => c
    }
  }

  /** The value does not depend on the argument. */
  lemma ApplyIgnoresArgument(k: Constant, x: real, y: real)
    ensures k.Apply(x) == k.Apply(y) == k.c
  {
  }

  /** `integral(constant(c))(t)`: t times the value at 0. */
  function Integral(k: Constant, t: real): (r: real)
    ensures r == t * k.Apply(0.0)
  {
    t * k.c
  }

  /** The integral starts from 0. */
  lemma IntegralAtZero(k: Constant)
    ensures Integral(k, 0.0) == 0.0
  {
  }

  /** The integral is additive in the upper limit: I(s + t) = I(s) + I(t). */
  lemma IntegralAdditive(k: Constant, s: real, t: real)
    ensures Integral(k, s + t) == Integral(k, s) + Integral(k, t)
  {
  }

  /** The integral grows by c per unit of t: I(t) - I(s) = c (t - s). */
  lemma IntegralSlope(k: Constant, s: real, t: real)
    ensures Integral(k, t) - Integral(k, s) == k.Apply(s) * (t - s)
  {
  }

  /**
    The closed form agrees with the trapezoid rule once the step x is put
    back; the trapezoid sum as written gives c instead of t c.
  */
  lemma AgreesWithTrapezoid(k: Constant, n: nat, t: real)
    requires 0 < n
    ensures Functional.Trapezoid(k.AsFunction(), n, t) == Integral(k, t)
    ensures Functional.TrapezoidAsWritten(k.AsFunction(), n, t) == k.c
  {
    Functional.AsWrittenOnLines(k.AsFunction(), 0.0, k.c, n, t);
    Functional.TrapezoidExactOnLines(k.AsFunction(), 0.0, k.c, n, t);
  }
}

=== FILE: forward.dfy ===
/**
  The piecewise-flat forward curve of curves/bootstrap.h (`pwflat::forward`).

  Knots t[0] < ... < t[n-1] carry rates f[0..n); the curve is f[0] on
  [0, t[0]], f[i] on (t[i-1], t[i]] and the extrapolated rate beyond t[n-1].
  The rate is attained at each knot: value(t[i]) == f[i].
*/
module PwFlat {

  /** Knots, rates at the knots, and the rate used beyond the last knot. */
  datatype Forward = Forward(t: seq<real>, f: seq<real>, extrap: real)
  {
    /** Number of knots (`size()`). */
    function Size(): nat { |t| }
  }

  /** The curve with no knots and a zero extrapolated rate (`forward()`). */
  const Empty := Forward([], [], 0.0)

  ghost predicate StrictlyIncreasing(t: seq<real>)
  {
    forall i, j :: 0 <= i < j < |t| ==> t[i] < t[j]
  }

  /** Knot and rate arrays in lock-step, knots strictly increasing. */
  ghost predicate WellFormed(c: Forward)
  {
    |c.t| == |c.f| && StrictlyIncreasing(c.t)
  }

  /**
    `std::lower_bound`: the first position whose knot is not below u,
    or |t| when every knot is below u.
  */
  function LowerBound(t: seq<real>, u: real): (r: nat)
    ensures r <= |t|
    ensures forall j :: 0 <= j < r ==> t[j] < u
    ensures r < |t| ==> u <= t[r]
  {
    LowerBoundFrom(t, u, 0)
  }

  /** The first position at or after i whose knot is not below u. */
  function LowerBoundFrom(t: seq<real>, u: real, i: nat): (r: nat)
    requires i <= |t|
    requires forall j :: 0 <= j < i ==> t[j] < u
    ensures i <= r <= |t|
    ensures forall j :: 0 <= j < r ==> t[j] < u
    ensures r < |t| ==> u <= t[r]
    decreases |t| - i
  {
    if i == |t| || u <= t[i] then i else LowerBoundFrom(t, u, i + 1)
  }

  /** Binary search for the lower bound, as `std::lower_bound` performs it on sorted knots. */
  method LowerBoundSearch(t: seq<real>, u: real) returns (r: nat)
    requires StrictlyIncreasing(t)
    ensures r == LowerBound(t, u)
  {
    var lo, hi := 0, |t|;
    while lo < hi
      invariant 0 <= lo <= hi <= |t|
      invariant forall j :: 0 <= j < lo ==> t[j] < u
      invariant forall j :: hi <= j < |t| ==> u <= t[j]
      decreases hi - lo
    {
      var mid := lo + (hi - lo) / 2;
      if t[mid] < u {
        lo := mid + 1;
      } else {
        hi := mid;
      }
    }
    r := lo;
    LowerBoundUnique(t, u, r);
  }

  /** The lower bound is the only position with its two defining properties. */
  lemma LowerBoundUnique(t: seq<real>, u: real, k: nat)
    requires k <= |t|
    requires forall j :: 0 <= j < k ==> t[j] < u
    requires k < |t| ==> u <= t[k]
    ensures k == LowerBound(t, u)
  {
  }

  /** The rate in force on the interval that ends at knot i (the extrapolated rate when i == n). */
  function RateAt(c: Forward, i: nat): real
    requires |c.t| == |c.f|
    requires i <= |c.t|
  {
    if i == |c.t| then c.extrap else c.f[i]
  }

  /** The knot before position i, with 0 standing before the first knot. */
  function Prev(t: seq<real>, i: nat): real
    requires i <= |t|
  {
    if i == 0 then 0.0 else t[i - 1]
  }

  /** `forward::value`: the rate at the first knot not below u, else the extrapolated rate. */
  function Value(c: Forward, u: real): real
    requires |c.t| == |c.f|
  {
    RateAt(c, LowerBound(c.t, u))
  }

  /** Sum over i < k of f[i] (t[i] - t[i-1]), with t[-1] = 0: the area up to knot k-1. */
  function Area(c: Forward, k: nat): real
    requires |c.t| == |c.f|
    requires k <= |c.t|
  {
    if k == 0 then 0.0 else Area(c, k - 1) + Partial(c, k - 1, c.t[k - 1])
  }

  /** The area from the knot before position i up to u, at the rate in force at position i. */
  function Partial(c: Forward, i: nat, u: real): real
    requires |c.t| == |c.f|
    requires i <= |c.t|
  {
    RateAt(c, i) * (u - Prev(c.t, i))
  }

  /**
    `forward::integral`: the whole intervals ending at knots below u, plus
    the partial interval up to u at the rate in force there.
  */
  function Integral(c: Forward, u: real): real
    requires |c.t| == |c.f|
  {
    var i := LowerBound(c.t, u);
    Area(c, i) + Partial(c, i, u)
  }

  /** The accumulation loop of `forward::integral`, as written. */
  method IntegralLoop(c: Forward, u: real) returns (r: real)
    requires |c.t| == |c.f|
    ensures r == Integral(c, u)
  {
    hide Integral, LowerBound;
    var n := |c.t|;
    var acc := 0.0;
    var t0 := 0.0;
    var i := 0;
    while i < n && c.t[i] < u
      invariant 0 <= i <= n
      invariant forall j :: 0 <= j < i ==> c.t[j] < u
      invariant acc == Area(c, i)
      invariant t0 == Prev(c.t, i)
    {
      assert c.f[i] * (c.t[i] - t0) == Partial(c, i, c.t[i]);
      acc := acc + c.f[i] * (c.t[i] - t0);
      t0 := c.t[i];
      i := i + 1;
    }
    LowerBoundUnique(c.t, u, i);
    var rate := if i == n then c.extrap else c.f[i];
    assert rate * (u - t0) == Partial(c, i, u);
    r := acc + rate * (u - t0);
    IntegralAt(c, u, i);
  }

  /** The same curve with another extrapolated rate (`extrapolate(_f)`). */
  function WithExtrapolation(c: Forward, rate: real): (r: Forward)
    ensures r.t == c.t && r.f == c.f && r.extrap == rate
  {
    c.(extrap := rate)
  }

  // ---------------------------------------------------------------------
  // Properties of value

  /** The lower bound of a knot is that knot's own position. */
  lemma LowerBoundAtKnot(t: seq<real>, k: nat)
    requires StrictlyIncreasing(t)
    requires k < |t|
    ensures LowerBound(t, t[k]) == k
  {
    LowerBoundUnique(t, t[k], k);
  }

  /** The lower bound of a point strictly inside (t[k-1], t[k]], or below t[0] when k == 0, is k. */
  lemma LowerBoundOnPiece(t: seq<real>, k: nat, u: real)
    requires StrictlyIncreasing(t)
    requires k < |t|
    requires k == 0 || t[k - 1] < u
    requires u <= t[k]
    ensures LowerBound(t, u) == k
  {
    LowerBoundUnique(t, u, k);
  }

  /** Knot attainment: value(t[k]) == f[k]. */
  lemma KnotAttainment(c: Forward, k: nat)
    requires WellFormed(c)
    requires k < |c.t|
    ensures Value(c, c.t[k]) == c.f[k]
  {
    LowerBoundAtKnot(c.t, k);
  }

  /** Step semantics: value is f[0] up to t[0] and f[k] on (t[k-1], t[k]]. */
  lemma ValueOnPiece(c: Forward, k: nat, u: real)
    requires WellFormed(c)
    requires k < |c.t|
    requires k == 0 || c.t[k - 1] < u
    requires u <= c.t[k]
    ensures Value(c, u) == c.f[k]
  {
    LowerBoundOnPiece(c.t, k, u);
  }

  /** Past the last knot, and everywhere on an empty curve, value is the extrapolated rate. */
  lemma ValueBeyondLastKnot(c: Forward, u: real)
    requires WellFormed(c)
    requires |c.t| == 0 || c.t[|c.t| - 1] < u
    ensures Value(c, u) == c.extrap
  {
    LowerBoundUnique(c.t, u, |c.t|);
  }

  /** Conversely, value is the extrapolated rate exactly when u lies beyond every knot (or the rates allow no distinction). */
  lemma ValueExtrapolatedOnlyBeyond(c: Forward, u: real)
    requires WellFormed(c)
    requires |c.t| > 0 && u <= c.t[|c.t| - 1]
    ensures exists k :: 0 <= k < |c.t| && Value(c, u) == c.f[k]
  {
    var k := LowerBound(c.t, u);
    assert k < |c.t|;
    assert Value(c, u) == c.f[k];
  }

  // ---------------------------------------------------------------------
  // Properties of integral

  /** integral(0) == 0 when no knot is negative. */
  lemma IntegralAtZero(c: Forward)
    requires WellFormed(c)
    requires |c.t| == 0 || 0.0 <= c.t[0]
    ensures Integral(c, 0.0) == 0.0
  {
    LowerBoundUnique(c.t, 0.0, 0);
  }

  /** integral(t[k]) is the sum over i <= k of f[i] (t[i] - t[i-1]). */
  lemma IntegralAtKnot(c: Forward, k: nat)
    requires WellFormed(c)
    requires k < |c.t|
    ensures Integral(c, c.t[k]) == Area(c, k + 1)
  {
    LowerBoundAtKnot(c.t, k);
    IntegralAt(c, c.t[k], k);
  }

  /** The integral at u, once the lower bound of u is known to be i. */
  lemma IntegralAt(c: Forward, u: real, i: nat)
    requires |c.t| == |c.f|
    requires i <= |c.t| && LowerBound(c.t, u) == i
    ensures Integral(c, u) == Area(c, i) + Partial(c, i, u)
  {
  }

  /**
    On (t[k-1], t[k]] the integral is linear with slope f[k], starting from
    integral(t[k-1]) (from 0 when k == 0).
  */
  lemma IntegralOnPiece(c: Forward, k: nat, u: real)
    requires WellFormed(c)
    requires k < |c.t|
    requires k == 0 || c.t[k - 1] < u
    requires u <= c.t[k]
    ensures Integral(c, u) == (if k == 0 then 0.0 else Integral(c, c.t[k - 1])) + c.f[k] * (u - Prev(c.t, k))
  {
    hide Integral, Area, LowerBound;
    LowerBoundOnPiece(c.t, k, u);
    IntegralAt(c, u, k);
    var start := if k == 0 then 0.0 else Integral(c, c.t[k - 1]);
    if k > 0 {
      IntegralAtKnot(c, k - 1);
      assert Area(c, k) == start;
    } else {
      AreaZero(c);
      assert Area(c, k) == start;
    }
    assert Partial(c, k, u) == c.f[k] * (u - Prev(c.t, k));
  }

  lemma AreaZero(c: Forward)
    requires |c.t| == |c.f|
    ensures Area(c, 0) == 0.0
  {
  }

  /** Beyond the last knot the integral grows at the extrapolated rate. */
  lemma IntegralBeyondLastKnot(c: Forward, u: real)
    requires WellFormed(c)
    requires |c.t| == 0 || c.t[|c.t| - 1] < u
    ensures |c.t| == 0 ==> Integral(c, u) == c.extrap * u
    ensures |c.t| > 0 ==> Integral(c, u) == Integral(c, c.t[|c.t| - 1]) + c.extrap * (u - c.t[|c.t| - 1])
  {
    hide Integral, Area, LowerBound;
    var n := |c.t|;
    LowerBoundUnique(c.t, u, n);
    IntegralAt(c, u, n);
    var start := if n == 0 then 0.0 else Integral(c, c.t[n - 1]);
    if n > 0 {
      IntegralAtKnot(c, n - 1);
      assert Area(c, n) == start;
    } else {
      AreaZero(c);
      assert Area(c, n) == start;
    }
    assert Partial(c, n, u) == c.extrap * (u - Prev(c.t, n));
    assert Integral(c, u) == start + c.extrap * (u - Prev(c.t, n));
  }

  /**
    Within one piece the increase of the integral is the forward rate times
    the length: the integral is continuous and piecewise linear, with the
    step function `Value` as its slope.
  */
  lemma IntegralIncrementOnPiece(c: Forward, k: nat, u: real, v: real)
    requires WellFormed(c)
    requires k <= |c.t|
    requires k == 0 || c.t[k - 1] < u
    requires k == 0 || c.t[k - 1] < v
    requires k < |c.t| ==> u <= c.t[k] && v <= c.t[k]
    ensures Integral(c, u) - Integral(c, v) == Value(c, u) * (u - v)
    ensures Value(c, u) == Value(c, v)
  {
    if k < |c.t| {
      LowerBoundOnPiece(c.t, k, u);
      LowerBoundOnPiece(c.t, k, v);
    } else {
      LowerBoundUnique(c.t, u, k);
      LowerBoundUnique(c.t, v, k);
    }
    SameLowerBoundIncrement(c, k, u, v);
  }

  lemma SameLowerBoundIncrement(c: Forward, k: nat, u: real, v: real)
    requires |c.t| == |c.f|
    requires k <= |c.t|
    requires LowerBound(c.t, u) == k && LowerBound(c.t, v) == k
    ensures Integral(c, u) - Integral(c, v) == Value(c, u) * (u - v)
    ensures Value(c, u) == Value(c, v)
  {
    IntegralAt(c, u, k);
    IntegralAt(c, v, k);
    PartialDifference(c, k, u, v);
  }

  lemma PartialDifference(c: Forward, i: nat, u: real, v: real)
    requires |c.t| == |c.f|
    requires i <= |c.t|
    ensures Partial(c, i, u) - Partial(c, i, v) == RateAt(c, i) * (u - v)
  {
    var r, p := RateAt(c, i), Prev(c.t, i);
    assert r * (u - p) - r * (v - p) == r * (u - v);
  }

  /** A trial extrapolated rate leaves value and integral unchanged up to the last knot. */
  lemma ExtrapolationOnlyMovesTail(c: Forward, rate: real, u: real)
    requires WellFormed(c)
    requires |c.t| > 0 && u <= c.t[|c.t| - 1]
    ensures Value(WithExtrapolation(c, rate), u) == Value(c, u)
    ensures Integral(WithExtrapolation(c, rate), u) == Integral(c, u)
  {
    var c' := WithExtrapolation(c, rate);
    var i := LowerBound(c.t, u);
    assert i < |c.t|;
    AreaIgnoresExtrapolation(c, rate, i);
  }

  lemma {:induction false} AreaIgnoresExtrapolation(c: Forward, rate: real, k: nat)
    requires |c.t| == |c.f|
    requires k <= |c.t|
    ensures Area(WithExtrapolation(c, rate), k) == Area(c, k)
  {
    if k > 0 {
      var c' := WithExtrapolation(c, rate);
      AreaIgnoresExtrapolation(c, rate, k - 1);
      assert Area(c', k) == Area(c', k - 1) + Partial(c', k - 1, c'.t[k - 1]);
    }
  }
}

=== FILE: functional.dfy ===
/**
  `extrapolate` and `integral` of functional/functional.h. A function
  object is a total Dafny function `real -> real`.

  `integral(f, n)(x)` is meant, by its own comment, as the integral of f
  from 0 to x by the trapezoid rule with n steps, but it adds
  (f(x(i-1)/n) + f(xi/n))/(2n) and never multiplies by the step x, so it
  is the integral only when x = 1. `TrapezoidAsWritten` is the code;
  `Trapezoid` multiplies by x and is exact on straight lines.
*/
module Functional {

  /** `extrapolate(f, x0, g)(x)`: f up to and including x0, g beyond it. */
  function Extrapolate(f: real -> real, x0: real, g: real -> real, x: real): (r: real)
    ensures x <= x0 ==> r == f(x)
    ensures x0 < x ==> r == g(x)
  {
    if x <= x0 then f(x) else g(x)
  }

  /** Extrapolating a function by itself changes nothing, at any x0. */
  lemma ExtrapolateBySelf(f: real -> real, x0: real, x: real)
    ensures Extrapolate(f, x0, f, x) == f(x)
  {
  }

  /** A second extrapolation at the same point replaces the first one's tail. */
  lemma ExtrapolateTwice(f: real -> real, x0: real, g: real -> real, h: real -> real, x: real)
    ensures Extrapolate((y => Extrapolate(f, x0, g, y)), x0, h, x) == Extrapolate(f, x0, h, x)
  {
  }

  /** The default number of steps of `integral`. */
  const DefaultSteps: nat := 100

  /** The i-th of n equally spaced points of [0, x]: x i / n. */
  function Node(x: real, i: nat, n: nat): real
    requires 0 < n
  {
    x * (i as real) / (n as real)
  }

  /** The i-th trapezoid as the loop adds it: (f(x(i-1)/n) + f(xi/n)) / (2n). */
  function Panel(f: real -> real, n: nat, x: real, i: nat): real
    requires 1 <= i <= n
  {
    (f(Node(x, i - 1, n)) + f(Node(x, i, n))) / (2.0 * (n as real))
  }

  /** The first i trapezoids. */
  function TrapSum(f: real -> real, n: nat, x: real, i: nat): real
    requires i <= n
  {
    if i == 0 then 0.0 else TrapSum(f, n, x, i - 1) + Panel(f, n, x, i)
  }

  /** `integral(f, n)(x)` as written: all n trapezoids, without the factor x. */
  function TrapezoidAsWritten(f: real -> real, n: nat, x: real): real
  {
    TrapSum(f, n, x, n)
  }

  /** The loop of `integral`, which carries the previous value f0. */
  method TrapezoidLoop(f: real -> real, n: nat, x: real) returns (r: real)
    ensures r == TrapezoidAsWritten(f, n, x)
  {
    r := 0.0;
    var f0 := f(0.0);
    var i := 1;
    while i <= n
      invariant 1 <= i <= n + 1
      invariant 0 < n ==> f0 == f(Node(x, i - 1, n))
      invariant r == TrapSum(f, n, x, i - 1)
      decreases n + 1 - i
    {
      var fi := f(Node(x, i, n));
      r := r + (f0 + fi) / (2.0 * (n as real));
      f0 := fi;
      i := i + 1;
    }
  }

  /** The trapezoid rule for the integral from 0 to x: the sum times the step x. */
  function Trapezoid(f: real -> real, n: nat, x: real): real
  {
    x * TrapSum(f, n, x, n)
  }

  /** (p / q) q == p. */
  lemma DivCancel(p: real, q: real)
    requires q != 0.0
    ensures (p / q) * q == p
  {
  }

  /** Cancelling a nonzero factor. */
  lemma MulCancel(p: real, r: real, q: real)
    requires q != 0.0
    requires p * q == r * q
    ensures p == r
  {
    assert (p - r) * q == 0.0;
  }

  /** n times the i-th node is x i. */
  lemma NodeScaled(x: real, i: nat, n: nat)
    requires 0 < n
    ensures Node(x, i, n) * (n as real) == x * (i as real)
  {
    DivCancel(x * (i as real), n as real);
  }

  /** The common denominator 2n^2. */
  function Den(n: nat): real
  {
    2.0 * ((n as real) * (n as real))
  }

  /** 2n^2 times the first i trapezoids under a y + b: a x i^2 + 2 b i n. */
  function AffineClosed(a: real, b: real, x: real, i: real, n: real): real
  {
    a * x * (i * i) + 2.0 * b * i * n
  }

  /** 2n^2 times the (m+1)-th trapezoid under a y + b: a x (2m + 1) + 2 b n. */
  function PanelClosed(a: real, b: real, x: real, m: real, n: real): real
  {
    a * x * (2.0 * m + 1.0) + 2.0 * b * n
  }

  /** 2n^2 times the i-th trapezoid under a y + b is a x (2i - 1) + 2 b n. */
  lemma PanelAffine(f: real -> real, a: real, b: real, n: nat, x: real, i: nat)
    requires forall y :: f(y) == a * y + b
    requires 1 <= i <= n
    ensures Panel(f, n, x, i) * Den(n) == PanelClosed(a, b, x, (i - 1) as real, n as real)
  {
    var m, N := (i - 1) as real, n as real;
    var u, v := Node(x, i - 1, n), Node(x, i, n);
    NodeScaled(x, i - 1, n);
    NodeScaled(x, i, n);
    assert v * N == x * (m + 1.0);
    var s := f(u) + f(v);
    assert s == a * u + a * v + 2.0 * b;
    DivCancel(s, 2.0 * N);
    assert Panel(f, n, x, i) * (2.0 * N) == s;
    calc {
      Panel(f, n, x, i) * (2.0 * (N * N));
      (Panel(f, n, x, i) * (2.0 * N)) * N;
      s * N;
      a * (u * N) + a * (v * N) + 2.0 * b * N;
      a * (x * m) + a * (x * (m + 1.0)) + 2.0 * b * N;
      a * x * (2.0 * m + 1.0) + 2.0 * b * N;
    }
  }

  /** The algebra of one step: adding the i-th trapezoid to the closed form for i - 1. */
  lemma AffineStep(a: real, b: real, x: real, m: real, N: real)
    ensures AffineClosed(a, b, x, m, N) + PanelClosed(a, b, x, m, N) == AffineClosed(a, b, x, m + 1.0, N)
  {
  }

  /** The first i trapezoids are the first i - 1 and the i-th. */
  lemma TrapSumStep(f: real -> real, n: nat, x: real, i: nat)
    requires 1 <= i <= n
    ensures TrapSum(f, n, x, i) == TrapSum(f, n, x, i - 1) + Panel(f, n, x, i)
  {
  }

  /** (s + p) d == s d + p d. */
  lemma SumOfProducts(s: real, p: real, d: real)
    ensures (s + p) * d == s * d + p * d
  {
  }

  /** Chaining the equations of one induction step. */
  lemma Combine(whole: real, head: real, last: real, headValue: real, lastValue: real, total: real)
    requires whole == head + last
    requires head == headValue && last == lastValue
    requires headValue + lastValue == total
    ensures whole == total
  {
  }

  /** 2n^2 times the first i trapezoids under a y + b is a x i^2 + 2 b i n. */
  lemma {:induction false} TrapSumAffine(f: real -> real, a: real, b: real, n: nat, x: real, i: nat)
    requires forall y :: f(y) == a * y + b
    requires 0 < n && i <= n
    ensures TrapSum(f, n, x, i) * Den(n) == AffineClosed(a, b, x, i as real, n as real)
  {
    hide *;
    if i > 0 {
      var j: nat := i - 1;
      var m, N := j as real, n as real;
      TrapSumStep(f, n, x, i);
      TrapSumAffine(f, a, b, n, x, j);
      PanelAffine(f, a, b, n, x, i);
      AffineStep(a, b, x, m, N);
      assert (i as real) == m + 1.0;
      SumOfProducts(TrapSum(f, n, x, j), Panel(f, n, x, i), Den(n));
      Combine(TrapSum(f, n, x, i) * Den(n), TrapSum(f, n, x, j) * Den(n), Panel(f, n, x, i) * Den(n),
              AffineClosed(a, b, x, m, N), PanelClosed(a, b, x, m, N), AffineClosed(a, b, x, i as real, N));
    } else {
      TrapSumAffineBase(f, a, b, n, x);
    }
  }

  /** No trapezoid, no area. */
  lemma TrapSumAffineBase(f: real -> real, a: real, b: real, n: nat, x: real)
    ensures TrapSum(f, n, x, 0) * Den(n) == AffineClosed(a, b, x, 0 as real, n as real)
  {
  }

  /**
    As written, a line a y + b integrates to a x/2 + b at every x, where
    the integral from 0 to x is a x^2/2 + b x; the two agree at x = 1.
  */
  lemma AsWrittenOnLines(f: real -> real, a: real, b: real, n: nat, x: real)
    requires forall y :: f(y) == a * y + b
    requires 0 < n
    ensures TrapezoidAsWritten(f, n, x) == a * x / 2.0 + b
  {
    hide TrapSum, Panel, AffineClosed;
    TrapSumAffine(f, a, b, n, x, n);
    var N := n as real;
    HalfStep(a, b, x, N, Den(n));
    MulCancel(TrapezoidAsWritten(f, n, x), a * x / 2.0 + b, Den(n));
  }

  /** The algebra of the last step of `AsWrittenOnLines`. */
  lemma HalfStep(a: real, b: real, x: real, N: real, D: real)
    requires D == 2.0 * (N * N)
    ensures (a * x / 2.0 + b) * D == AffineClosed(a, b, x, N, N)
  {
  }

  /** With the step x put back the rule is exact on lines. */
  lemma TrapezoidExactOnLines(f: real -> real, a: real, b: real, n: nat, x: real)
    requires forall y :: f(y) == a * y + b
    requires 0 < n
    ensures Trapezoid(f, n, x) == a * x * x / 2.0 + b * x
  {
    AsWrittenOnLines(f, a, b, n, x);
  }

  /** The identity has integral 1/2 from 0 to 1 with the default 100 steps. */
  lemma IdentityExample()
    ensures TrapezoidAsWritten(y => y, DefaultSteps, 1.0) == 0.5
  {
    AsWrittenOnLines(y => y, 1.0, 0.0, DefaultSteps, 1.0);
  }

  /** The constant 1 from 0 to 2: the code gives 1 where the integral is 2. */
  lemma AsWrittenConstantExample()
    ensures TrapezoidAsWritten(y => 1.0, DefaultSteps, 2.0) == 1.0
    ensures Trapezoid(y => 1.0, DefaultSteps, 2.0) == 2.0
  {
    AsWrittenOnLines(y => 1.0, 0.0, 1.0, DefaultSteps, 2.0);
  }

  /** The common denominator 2n^3 of the trapezoids under y^2. */
  function Den3(n: nat): real
  {
    2.0 * ((n as real) * (n as real) * (n as real))
  }

  /** 2n^3 / x^2 times the first m trapezoids under y^2: (2m^3 + m)/3. */
  function SquareClosed(m: real): real
  {
    (2.0 * m * m * m + m) / 3.0
  }

  /** 2n^3 times the i-th trapezoid under y^2 is x^2 ((i-1)^2 + i^2). */
  lemma PanelSquare(f: real -> real, n: nat, x: real, i: nat)
    requires forall y :: f(y) == y * y
    requires 1 <= i <= n
    ensures Panel(f, n, x, i) * Den3(n) == x * x * (((i - 1) as real) * ((i - 1) as real) + (i as real) * (i as real))
  {
    hide Node;
    var m, N := (i - 1) as real, n as real;
    var u, v := Node(x, i - 1, n), Node(x, i, n);
    NodeScaled(x, i - 1, n);
    NodeScaled(x, i, n);
    var s := f(u) + f(v);
    assert f(u) == u * u && f(v) == v * v;
    DivCancel(s, 2.0 * N);
    assert Panel(f, n, x, i) * (2.0 * N) == s;
    hide *;
    PanelSquareAlgebra(Panel(f, n, x, i), s, u, v, x, m, i as real, N);
  }

  /** The algebra of `PanelSquare`, free of the functions involved. */
  lemma PanelSquareAlgebra(p: real, s: real, u: real, v: real, x: real, m: real, k: real, N: real)
    requires p * (2.0 * N) == s && s == u * u + v * v
    requires u * N == x * m && v * N == x * k
    ensures p * (2.0 * (N * N * N)) == x * x * (m * m + k * k)
  {
    calc {
      p * (2.0 * (N * N * N));
      (p * (2.0 * N)) * (N * N);
      s * (N * N);
      (u * N) * (u * N) + (v * N) * (v * N);
      (x * m) * (x * m) + (x * k) * (x * k);
      x * x * (m * m + k * k);
    }
  }

  /** The algebra of one step under y^2: (2m^3 + m)/3 + m^2 + (m+1)^2 = (2(m+1)^3 + m + 1)/3. */
  lemma SquareStep(c: real, m: real)
    ensures c * SquareClosed(m) + c * (m * m + (m + 1.0) * (m + 1.0)) == c * SquareClosed(m + 1.0)
  {
    assert SquareClosed(m) + (m * m + (m + 1.0) * (m + 1.0)) == SquareClosed(m + 1.0);
  }

  /** 2n^3 times the first i trapezoids under y^2 is x^2 (2i^3 + i)/3. */
  lemma {:induction false} TrapSumSquare(f: real -> real, n: nat, x: real, i: nat)
    requires forall y :: f(y) == y * y
    requires 0 < n && i <= n
    ensures TrapSum(f, n, x, i) * Den3(n) == x * x * SquareClosed(i as real)
  {
    hide *;
    if i > 0 {
      var j: nat := i - 1;
      var m := j as real;
      TrapSumStep(f, n, x, i);
      TrapSumSquare(f, n, x, j);
      PanelSquare(f, n, x, i);
      assert (i as real) == m + 1.0;
      SquareStep(x * x, m);
      SumOfProducts(TrapSum(f, n, x, j), Panel(f, n, x, i), Den3(n));
      Combine(TrapSum(f, n, x, i) * Den3(n), TrapSum(f, n, x, j) * Den3(n), Panel(f, n, x, i) * Den3(n),
              x * x * SquareClosed(m), x * x * (m * m + (m + 1.0) * (m + 1.0)), x * x * SquareClosed(i as real));
    } else {
      TrapSumSquareBase(f, n, x);
    }
  }

  /** No trapezoid, no area. */
  lemma TrapSumSquareBase(f: real -> real, n: nat, x: real)
    ensures TrapSum(f, n, x, 0) * Den3(n) == x * x * SquareClosed(0.0)
  {
  }

  /** The algebra of the last step of `AsWrittenOnSquares`: dividing out n/3. */
  lemma SquareHalfStep(t: real, c: real, N: real)
    requires N > 0.0
    requires t * (2.0 * (N * N * N)) == c * SquareClosed(N)
    ensures t * (6.0 * (N * N)) == c * (2.0 * (N * N) + 1.0)
  {
    calc {
      (t * (6.0 * (N * N))) * N;
      3.0 * (t * (2.0 * (N * N * N)));
      3.0 * (c * SquareClosed(N));
      c * (2.0 * N * N * N + N);
      (c * (2.0 * (N * N) + 1.0)) * N;
    }
    MulCancel(t * (6.0 * (N * N)), c * (2.0 * (N * N) + 1.0), N);
  }

  /**
    As written, y^2 integrates to x^2/3 + x^2/(6 n^2), stated here without
    division as 6 n^2 times the sum: the integral from 0 to x is x^3/3,
    the sum lacks the factor x, and the trapezoid rule overestimates a
    convex function by x^3/(6 n^2).
  */
  lemma AsWrittenOnSquares(f: real -> real, n: nat, x: real)
    requires forall y :: f(y) == y * y
    requires 0 < n
    ensures TrapezoidAsWritten(f, n, x) * (6.0 * ((n as real) * (n as real))) == x * x * (2.0 * ((n as real) * (n as real)) + 1.0)
  {
    hide TrapSum, Panel, SquareClosed;
    TrapSumSquare(f, n, x, n);
    SquareHalfStep(TrapezoidAsWritten(f, n, x), x * x, n as real);
  }

  /**
    The x^2 check of the `integral` test at x = 1 with 1000 steps: the sum
    is 1/3 + 1/6000000. The test compares its absolute value with 10^-6,
    which fails; its distance from the integral 1/3 is below 10^-6.
  */
  lemma SquareExample()
    ensures TrapezoidAsWritten(y => y * y, 1000, 1.0) == 1.0 / 3.0 + 1.0 / 6000000.0
    ensures !(TrapezoidAsWritten(y => y * y, 1000, 1.0) < 1.0 / 1000000.0)
    ensures TrapezoidAsWritten(y => y * y, 1000, 1.0) - 1.0 / 3.0 < 1.0 / 1000000.0
  {
    AsWrittenOnSquares(y => y * y, 1000, 1.0);
    assert TrapezoidAsWritten(y => y * y, 1000, 1.0) * 6000000.0 == 2000001.0;
  }
}

=== FILE: grassmann.dfy ===
/**
  Signs and coefficient maps of grassmann/grassmann.h. An extensor is an
  N-bit set of points (`std::bitset<N>`), written here as N booleans; an
  element of the algebra maps extensors to real coefficients.
*/
module Grassmann {
  /** `extensor<N>`: bit i is set when point i is a factor. */
  type Extensor = seq<bool>

  /** The point extensor P_i of N bits. */
  function Point(n: nat, i: nat): (p: Extensor)
    requires i < n
    ensures |p| == n && p[i] && forall j :: 0 <= j < n && j != i ==> !p[j]
  {
    seq(n, j => j == i)
  }

  /** (-1)^k. */
  function Parity(k: nat): real
  {
    if k % 2 == 0 then 1.0 else -1.0
  }

  /** The number of set bits among the first k. */
  function Count(b: Extensor, k: nat): nat
    requires k <= |b|
  {
    if k == 0 then 0 else Count(b, k - 1) + (if b[k - 1] then 1 else 0)
  }

  /** The sign of moving point i past B: 0 when i is already in B, else (-1)^(bits of B below i). */
  function PointSign(i: nat, b: Extensor): real
    requires i < |b|
  {
    if b[i] then 0.0 else Parity(Count(b, i))
  }

  /** The number of bits of B below i among the first k bits. */
  function CountBelow(i: nat, b: Extensor, k: nat): nat
    requires k <= |b|
  {
    if k == 0 then 0 else CountBelow(i, b, k - 1) + (if b[k - 1] && i > k - 1 then 1 else 0)
  }

  lemma {:induction false} CountBelowIsCount(i: nat, b: Extensor, k: nat)
    requires i <= k <= |b|
    ensures CountBelow(i, b, k) == Count(b, i)
  {
    if k > i {
      CountBelowIsCount(i, b, k - 1);
    } else if k > 0 {
      CountBelowUpTo(i, b, k);
    }
  }

  lemma {:induction false} CountBelowUpTo(i: nat, b: Extensor, k: nat)
    requires k <= i && k <= |b|
    ensures CountBelow(i, b, k) == Count(b, k)
  {
    if k > 0 {
      CountBelowUpTo(i, b, k - 1);
    }
  }

  /**
    `sign(i, B)`: 0 when bit i of B is set; otherwise the sign starts at 1
    and flips for every set bit j of B with j < i.
  */
  method SignOfPoint(i: nat, b: Extensor) returns (s: real)
    requires i < |b|
    ensures s == PointSign(i, b)
  {
    if b[i] {
      return 0.0;
    }
    s := 1.0;
    var j := 0;
    while j < |b|
      invariant 0 <= j <= |b|
      invariant s == Parity(CountBelow(i, b, j))
    {
      if b[j] && i > j {
        s := -s;
      }
      j := j + 1;
    }
    CountBelowIsCount(i, b, |b|);
  }

  /** A and B share a point among the first k. */
  ghost predicate SharedBelow(a: Extensor, b: Extensor, k: nat)
    requires k <= |a| == |b|
  {
    exists i :: 0 <= i < k && a[i] && b[i]
  }

  /** The product of `sign(i, B)` over the set bits i < k of A. */
  function SignProduct(a: Extensor, b: Extensor, k: nat): real
    requires k <= |a| == |b|
  {
    if k == 0 then 1.0
    else SignProduct(a, b, k - 1) * (if a[k - 1] then PointSign(k - 1, b) else 1.0)
  }

  /** The inversions between A and B among the first k bits of A: pairs (i in A, j in B) with j < i. */
  function Inversions(a: Extensor, b: Extensor, k: nat): nat
    requires k <= |a| == |b|
  {
    if k == 0 then 0 else Inversions(a, b, k - 1) + (if a[k - 1] then Count(b, k - 1) else 0)
  }

  /**
    `sign(A, B)`: 0 as soon as a set bit of A is set in B, otherwise the
    product of `sign(i, B)` over the set bits i of A.
  */
  method Sign(a: Extensor, b: Extensor) returns (s: real)
    requires |a| == |b|
    ensures s == SignProduct(a, b, |a|)
  {
    s := 1.0;
    var i := 0;
    while i < |a|
      invariant 0 <= i <= |a|
      invariant s == SignProduct(a, b, i)
    {
      if a[i] {
        if b[i] {
          ZeroFactor(a, b, i, |a|);
          return 0.0;
        }
        var t := SignOfPoint(i, b);
        s := s * t;
      }
      i := i + 1;
    }
  }

  /** Once a factor is 0 every longer product is 0. */
  lemma {:induction false} ZeroFactor(a: Extensor, b: Extensor, i: nat, k: nat)
    requires i < k <= |a| == |b|
    requires a[i] && b[i]
    ensures SignProduct(a, b, k) == 0.0
  {
    if k > i + 1 {
      ZeroFactor(a, b, i, k - 1);
    }
  }

  /**
    The product is 0 exactly when A and B share a point; otherwise it is
    (-1) to the number of inversions, so it is 1 or -1.
  */
  lemma {:induction false} SignProductSpec(a: Extensor, b: Extensor, k: nat)
    requires k <= |a| == |b|
    ensures SignProduct(a, b, k) == 0.0 <==> SharedBelow(a, b, k)
    ensures !SharedBelow(a, b, k) ==> SignProduct(a, b, k) == Parity(Inversions(a, b, k))
  {
    if k > 0 {
      SignProductSpec(a, b, k - 1);
      if a[k - 1] && b[k - 1] {
        assert SharedBelow(a, b, k);
      } else {
        if SharedBelow(a, b, k) {
          var i :| 0 <= i < k && a[i] && b[i];
          assert SharedBelow(a, b, k - 1);
        }
        if a[k - 1] {
          ParityAdd(Inversions(a, b, k - 1), Count(b, k - 1));
        }
      }
    }
  }

  lemma ParityAdd(j: nat, k: nat)
    ensures Parity(j + k) == Parity(j) * Parity(k)
  {
  }

  /** `sign(P_i, P_j)` is 1 for i < j and -1 for i > j: exchanging two distinct points flips the sign. */
  lemma PointsAnticommute(n: nat, i: nat, j: nat)
    requires i < n && j < n && i != j
    ensures SignProduct(Point(n, i), Point(n, j), n) == (if i < j then 1.0 else -1.0)
    ensures SignProduct(Point(n, i), Point(n, j), n) == -SignProduct(Point(n, j), Point(n, i), n)
  {
    PointProduct(n, i, j, n);
    PointProduct(n, j, i, n);
    PointCount(n, j, i);
    PointCount(n, i, j);
  }

  lemma {:induction false} PointProduct(n: nat, i: nat, j: nat, k: nat)
    requires i < n && j < n && i != j && k <= n
    ensures SignProduct(Point(n, i), Point(n, j), k) == (if i < k then PointSign(i, Point(n, j)) else 1.0)
  {
    if k > 0 {
      PointProduct(n, i, j, k - 1);
    }
  }

  lemma PointCount(n: nat, j: nat, k: nat)
    requires j < n && k <= n
    ensures Count(Point(n, j), k) == (if j < k then 1 else 0)
  {
    if k > 0 {
      PointCount(n, j, k - 1);
    }
  }

  /** The sign checks of the extensor test with N = 3 (P = P0 P1 P2, extensor 6 = P1 P2). */
  lemma SignExamples()
    ensures PointSign(0, Point(3, 0)) == 0.0
    ensures PointSign(0, Point(3, 1)) == 1.0 && PointSign(1, Point(3, 0)) == -1.0
    ensures SignProduct(Point(3, 0), Point(3, 1), 3) == 1.0
    ensures SignProduct(Point(3, 1), Point(3, 0), 3) == -1.0
    ensures SignProduct(Point(3, 2), Point(3, 2), 3) == 0.0
    ensures SignProduct(Point(3, 0), [true, true, true], 3) == 0.0
    ensures SignProduct(Point(3, 1), [true, true, true], 3) == 0.0
    ensures SignProduct(Point(3, 2), [true, true, true], 3) == 0.0
    ensures SignProduct(Point(3, 0), [false, true, true], 3) == 1.0
  {
    PointsAnticommute(3, 0, 1);
    assert Count([false, true, true], 0) == 0;
  }

  // ---------------------------------------------------------------------
  // Elements

  /** `element<N>`: a coefficient per extensor. */
  type Element = map<Extensor, real>

  /** Const `operator[]`: the stored coefficient, or 0 for an absent extensor. */
  function Get(e: Element, a: Extensor): real
  {
    if a in e then e[a] else 0.0
  }

  /** `element(A)`: the single extensor A with coefficient 1. */
  function FromExtensor(a: Extensor): (e: Element)
    ensures e.Keys == {a} && Get(e, a) == 1.0
    ensures forall b :: b != a ==> Get(e, b) == 0.0
  {
    map[a := 1.0]
  }

  /** Non-const `operator[]`: an absent extensor is inserted with coefficient 0. */
  function Touch(e: Element, a: Extensor): (f: Element)
    ensures f.Keys == e.Keys + {a}
    ensures forall b :: Get(f, b) == Get(e, b)
  {
    if a in e then e else e[a := 0.0]
  }

  /** The key-wise sum, absent keys counting as 0. */
  function Plus(e: Element, a: Element): Element
  {
    map k | k in e.Keys + a.Keys :: Get(e, k) + Get(a, k)
  }

  /** The key-wise difference, absent keys counting as 0. */
  function Minus(e: Element, a: Element): Element
  {
    map k | k in e.Keys + a.Keys :: Get(e, k) - Get(a, k)
  }

  /** The entries of A whose extensors lie in d. */
  function Restrict(a: Element, d: set<Extensor>): Element
  {
    map k | k in a.Keys && k in d :: a[k]
  }

  /** Before the loop nothing of A has been added or subtracted. */
  lemma NothingDone(e: Element, a: Element)
    ensures Plus(e, Restrict(a, a.Keys - a.Keys)) == e && Minus(e, Restrict(a, a.Keys - a.Keys)) == e
  {
  }

  /** After the loop all of A has. */
  lemma AllDone(a: Element)
    ensures Restrict(a, a.Keys - {}) == a
  {
  }

  /** `operator[](k) += v`: the coefficient of k, inserted as 0 when absent, grows by v. */
  function AddAt(r: Element, k: Extensor, v: real): (f: Element)
    ensures f.Keys == r.Keys + {k} && Get(f, k) == Get(r, k) + v
    ensures forall b :: b != k ==> Get(f, b) == Get(r, b)
  {
    var t := Touch(r, k);
    t[k := t[k] + v]
  }

  /** One pass of the `+=` loop: extensor k of A added in. */
  lemma AddStep(e: Element, a: Element, done: set<Extensor>, k: Extensor, r: Element)
    requires k in a.Keys && k !in done
    requires r == Plus(e, Restrict(a, done))
    ensures AddAt(r, k, a[k]) == Plus(e, Restrict(a, done + {k}))
  {
    hide *;
    var f, g := AddAt(r, k, a[k]), Plus(e, Restrict(a, done + {k}));
    StepKeys(e, a, done, k);
    PlusMinusSpec(e, Restrict(a, done));
    PlusMinusSpec(e, Restrict(a, done + {k}));
    forall b
      ensures Get(f, b) == Get(g, b)
    {
      PlusEntry(e, a, done, k, b);
    }
    SameEntries(f, g);
  }

  /** One pass of the `-=` loop: extensor k of A subtracted. */
  lemma SubStep(e: Element, a: Element, done: set<Extensor>, k: Extensor, r: Element)
    requires k in a.Keys && k !in done
    requires r == Minus(e, Restrict(a, done))
    ensures AddAt(r, k, -a[k]) == Minus(e, Restrict(a, done + {k}))
  {
    hide *;
    var f, g := AddAt(r, k, -a[k]), Minus(e, Restrict(a, done + {k}));
    StepKeys(e, a, done, k);
    PlusMinusSpec(e, Restrict(a, done));
    PlusMinusSpec(e, Restrict(a, done + {k}));
    forall b
      ensures Get(f, b) == Get(g, b)
    {
      MinusEntry(e, a, done, k, b);
    }
    SameEntries(f, g);
  }

  /** Marking k done adds k to the restriction's keys. */
  lemma StepKeys(e: Element, a: Element, done: set<Extensor>, k: Extensor)
    requires k in a.Keys
    ensures Restrict(a, done + {k}).Keys == Restrict(a, done).Keys + {k}
  {
  }

  /** Marking k done adds A's coefficient of k to the running sum, and nothing else. */
  lemma PlusEntry(e: Element, a: Element, done: set<Extensor>, k: Extensor, b: Extensor)
    requires k in a.Keys && k !in done
    ensures Get(Plus(e, Restrict(a, done + {k})), b)
            == Get(Plus(e, Restrict(a, done)), b) + (if b == k then a[k] else 0.0)
  {
    PlusMinusSpec(e, Restrict(a, done));
    PlusMinusSpec(e, Restrict(a, done + {k}));
  }

  /** Marking k done subtracts A's coefficient of k from the running difference, and nothing else. */
  lemma MinusEntry(e: Element, a: Element, done: set<Extensor>, k: Extensor, b: Extensor)
    requires k in a.Keys && k !in done
    ensures Get(Minus(e, Restrict(a, done + {k})), b)
            == Get(Minus(e, Restrict(a, done)), b) + (if b == k then -a[k] else 0.0)
  {
    PlusMinusSpec(e, Restrict(a, done));
    PlusMinusSpec(e, Restrict(a, done + {k}));
  }

  /** A present extensor's coefficient is the stored one. */
  lemma GetPresent(a: Element, k: Extensor)
    requires k in a
    ensures Get(a, k) == a[k]
  {
  }

  /** The entries of a restriction. */
  lemma RestrictSpec(a: Element, d: set<Extensor>)
    ensures Restrict(a, d).Keys == a.Keys * d
    ensures forall k :: Get(Restrict(a, d), k) == if k in d then Get(a, k) else 0.0
  {
  }

  /** Elements with the same keys and the same coefficients are equal. */
  lemma SameEntries(f: Element, g: Element)
    requires f.Keys == g.Keys
    requires forall b :: Get(f, b) == Get(g, b)
    ensures f == g
  {
    forall b | b in f.Keys
      ensures f[b] == g[b]
    {
      assert Get(f, b) == Get(g, b);
    }
  }

  /**
    `operator+=`: for every extensor of A, in any order, the coefficient
    here (inserted as 0 when absent) grows by A's coefficient.
  */
  method AddAssign(e: Element, a: Element) returns (r: Element)
    ensures r == Plus(e, a)
  {
    hide Plus, Restrict, AddAt;
    r := e;
    NothingDone(e, a);
    var todo := a.Keys;
    while todo != {}
      invariant todo <= a.Keys
      invariant r == Plus(e, Restrict(a, a.Keys - todo))
      decreases |todo|
    {
      var k :| k in todo;
      AddStep(e, a, a.Keys - todo, k, r);
      assert a.Keys - todo + {k} == a.Keys - (todo - {k});
      r := AddAt(r, k, a[k]);
      todo := todo - {k};
    }
    AllDone(a);
  }

  /** `operator-=`: as `+=`, subtracting A's coefficients. */
  method SubAssign(e: Element, a: Element) returns (r: Element)
    ensures r == Minus(e, a)
  {
    hide Minus, Restrict, AddAt;
    r := e;
    NothingDone(e, a);
    var todo := a.Keys;
    while todo != {}
      invariant todo <= a.Keys
      invariant r == Minus(e, Restrict(a, a.Keys - todo))
      decreases |todo|
    {
      var k :| k in todo;
      SubStep(e, a, a.Keys - todo, k, r);
      assert a.Keys - todo + {k} == a.Keys - (todo - {k});
      r := AddAt(r, k, -a[k]);
      todo := todo - {k};
    }
    AllDone(a);
  }

  /** The key-wise reference definitions describe `+=` and `-=` exactly. */
  lemma PlusMinusSpec(e: Element, a: Element)
    ensures Plus(e, a).Keys == e.Keys + a.Keys && Minus(e, a).Keys == e.Keys + a.Keys
    ensures forall k :: Get(Plus(e, a), k) == Get(e, k) + Get(a, k)
    ensures forall k :: Get(Minus(e, a), k) == Get(e, k) - Get(a, k)
  {
  }

  /** Subtracting what was added restores every coefficient; only zero-valued keys may remain. */
  lemma SubtractUndoesAdd(e: Element, a: Element)
    ensures forall k :: Get(Minus(Plus(e, a), a), k) == Get(e, k)
    ensures Minus(Plus(e, a), a).Keys == e.Keys + a.Keys
  {
  }

  /** The element test: starting empty, `A += element(P0)` then `A += A` gives coefficient 2. */
  lemma ElementScenario(n: nat)
    requires n > 0
    ensures var a := Plus(map[], FromExtensor(Point(n, 0)));
      Get(Plus(a, a), Point(n, 0)) == 2.0 && Plus(a, a).Keys == {Point(n, 0)}
    ensures |FromExtensor(Point(n, 0)).Keys| == 1
    ensures n > 1 ==> Get(FromExtensor(Point(n, 0)), Point(n, 1)) == 0.0
  {
    if n > 1 {
      assert Point(n, 0)[1] != Point(n, 1)[1];
    }
  }
}

=== FILE: piecewise_polynomial.dfy ===
/**
  `curves::piecewise_polynomial` of curves/piecewise_polynomial.h: a
  combination of the order-k basis splines on knots t with coefficients a
  (n - k - 1 of them). Its value, derivative and integral all find
  i0 = lower_bound(t, x), return 0 when no knot is at least x, and
  otherwise sum a[i] times the basis value, derivative or integral for
  i0 <= i < min(i0 + k + 1, n - k - 1).

  That window starts at the wrong end: a basis spline i is nonzero at x
  only when t[i] <= x < t[i+k+1], so every i above i0 contributes 0 and
  the sum is 0 at every x strictly between knots. `EvalAsWritten` is the
  code; `Eval` localises with the first knot above x instead, and is
  proved equal to the sum over all basis splines.
*/
module PiecewisePolynomial {
  import BasisSpline
  import PwFlat
  import Bootstrap

  /** The coefficients a, the order k and the knots t of n = |t| points. */
  datatype Piecewise = Piecewise(a: seq<real>, k: nat, t: seq<real>)
  {
    /** One coefficient per basis spline of order k: n - k - 1 of them. */
    predicate Valid()
    {
      |a| + k + 1 == |t|
    }
  }

  /** Which basis function is summed: `value`, `derivative` or `integral`. */
  datatype Kind = ValueOf | DerivativeOf | IntegralOf

  /**
    What the summed basis function needs of the order k and the knots t:
    at least one spline, and nonzero gaps for the unguarded derivative.
  */
  ghost predicate Admissible(kind: Kind, k: nat, t: seq<real>)
  {
    k + 1 <= |t| &&
    (kind == DerivativeOf ==> 1 <= k && forall i: nat :: i + k + 1 < |t| ==> BasisSpline.GapsNonzero(t, k, i))
  }

  /** A well-formed curve whose knots and order admit the summed basis function. */
  ghost predicate Fits(kind: Kind, p: Piecewise)
  {
    p.Valid() && Admissible(kind, p.k, p.t)
  }

  /** The i-th basis value, derivative or integral at x. */
  function BasisAt(kind: Kind, k: nat, t: seq<real>, i: nat, x: real): real
    requires Admissible(kind, k, t)
    requires i + k + 1 < |t|
  {
    match kind
    case ValueOf => BasisSpline.B(t, k, i, x)
    case DerivativeOf => BasisSpline.Deriv(t, k, i, x)
    case IntegralOf => BasisSpline.Integral(t, k, i, x)
  }

  /** The basis values, derivatives or integrals of every spline at x; they do not involve the coefficients. */
  function Basis(kind: Kind, k: nat, t: seq<real>, x: real): (v: seq<real>)
    requires Admissible(kind, k, t)
    ensures |v| == |t| - k - 1
    ensures forall i :: 0 <= i < |v| ==> v[i] == BasisAt(kind, k, t, i, x)
  {
    seq(|t| - k - 1, i requires 0 <= i < |t| - k - 1 => BasisAt(kind, k, t, i, x))
  }

  /** Sum of a[i] v[i] over lo <= i < hi. */
  function Dot(a: seq<real>, v: seq<real>, lo: nat, hi: nat): real
    requires lo <= hi <= |a| && |a| == |v|
    decreases hi - lo
  {
    if lo == hi then 0.0 else Dot(a, v, lo, hi - 1) + a[hi - 1] * v[hi - 1]
  }

  /** Sum of a[i] times the basis function over lo <= i < hi. */
  function Window(kind: Kind, p: Piecewise, x: real, lo: nat, hi: nat): real
    requires Fits(kind, p)
    requires lo <= hi <= |p.a|
  {
    Dot(p.a, Basis(kind, p.k, p.t, x), lo, hi)
  }

  /** The sum over every basis spline. */
  function Full(kind: Kind, p: Piecewise, x: real): real
    requires Fits(kind, p)
  {
    Window(kind, p, x, 0, |p.a|)
  }

  function Min(a: nat, b: nat): nat
  {
    if a <= b then a else b
  }

  /** The loop bounds of the source: i from i0 while i < i0 + k + 1 and i < n - k - 1. */
  function AsWrittenHi(p: Piecewise, i0: nat): nat
    requires p.Valid()
  {
    Min(i0 + p.k + 1, |p.a|)
  }

  /** `operator()`, `derivative` or `integral` as written. */
  function EvalAsWritten(kind: Kind, p: Piecewise, x: real): (r: real)
    requires Fits(kind, p)
    ensures PwFlat.LowerBound(p.t, x) == |p.t| ==> r == 0.0
  {
    var i0 := PwFlat.LowerBound(p.t, x);
    if i0 == |p.t| then 0.0
    else Window(kind, p, x, Min(i0, AsWrittenHi(p, i0)), AsWrittenHi(p, i0))
  }

  /** The summation loop shared by the three members. */
  method EvalLoop(kind: Kind, p: Piecewise, x: real) returns (r: real)
    requires Fits(kind, p)
    ensures r == EvalAsWritten(kind, p, x)
  {
    hide BasisAt;
    var i0 := PwFlat.LowerBound(p.t, x);
    if i0 == |p.t| {
      return 0.0;
    }
    ghost var hi := AsWrittenHi(p, i0);
    ghost var lo := Min(i0, hi);
    r := 0.0;
    var i := i0;
    while i < i0 + p.k + 1 && i < |p.a|
      invariant lo <= i && (i0 < hi ==> i <= hi)
      invariant i0 < hi ==> r == Window(kind, p, x, lo, i)
      invariant hi <= i0 ==> i == i0 && r == 0.0
      decreases |p.a| - i
    {
      WindowStep(kind, p, x, lo, i);
      r := r + p.a[i] * BasisAt(kind, p.k, p.t, i, x);
      i := i + 1;
    }
  }

  /** A window grows by one term at its upper end. */
  lemma WindowStep(kind: Kind, p: Piecewise, x: real, lo: nat, i: nat)
    requires Fits(kind, p)
    requires lo <= i < |p.a|
    ensures Window(kind, p, x, lo, i + 1) == Window(kind, p, x, lo, i) + p.a[i] * BasisAt(kind, p.k, p.t, i, x)
  {
    hide BasisAt;
  }

  /** First index of the corrected window: max(0, u - k - 1). */
  function FixedLo(p: Piecewise, u: nat, kind: Kind): nat
  {
    if kind == IntegralOf || u < p.k + 1 then 0 else u - p.k - 1
  }

  /**
    The evidently intended localisation: with u the first knot above x,
    the splines that can be nonzero at x are u - k - 1 <= i < u, and for
    the integral every i < u.
  */
  function Eval(kind: Kind, p: Piecewise, x: real): (r: real)
    requires Fits(kind, p)
    ensures PwFlat.LowerBound(p.t, x) == |p.t| ==> r == 0.0
  {
    var u := Bootstrap.UpperBound(p.t, x);
    if PwFlat.LowerBound(p.t, x) == |p.t| then 0.0
    else Window(kind, p, x, Min(FixedLo(p, u, kind), Min(u, |p.a|)), Min(u, |p.a|))
  }

  /** The last term of a window may be peeled off, and a window split anywhere. */
  lemma {:induction false} DotSplit(a: seq<real>, v: seq<real>, lo: nat, mid: nat, hi: nat)
    requires lo <= mid <= hi <= |a| && |a| == |v|
    ensures Dot(a, v, lo, hi) == Dot(a, v, lo, mid) + Dot(a, v, mid, hi)
    decreases hi - mid
  {
    if mid < hi {
      DotSplit(a, v, lo, mid, hi - 1);
    }
  }

  /** A basis function of a spline that starts right of x contributes nothing. */
  lemma BasisBeforeSupport(kind: Kind, k: nat, t: seq<real>, i: nat, x: real)
    requires Admissible(kind, k, t)
    requires BasisSpline.Nondecreasing(t)
    requires i + k + 1 < |t| && x < t[i]
    ensures BasisAt(kind, k, t, i, x) == 0.0
  {
    match kind
    case ValueOf =>
    case DerivativeOf => BasisSpline.DerivOutsideSupport(t, k, i, x);
    case IntegralOf => BasisSpline.IntegralBeforeSupport(t, k, i, x);
  }

  /** Value and derivative of a spline that ends at or left of x vanish. */
  lemma BasisAfterSupport(kind: Kind, k: nat, t: seq<real>, i: nat, x: real)
    requires Admissible(kind, k, t) && kind != IntegralOf
    requires BasisSpline.Nondecreasing(t)
    requires i + k + 1 < |t| && t[i + k + 1] <= x
    ensures BasisAt(kind, k, t, i, x) == 0.0
  {
    if kind == DerivativeOf {
      BasisSpline.DerivOutsideSupport(t, k, i, x);
    }
  }

  /** Every spline from lo on starts right of x, so the window sums to 0. */
  lemma {:induction false} WindowZeroAbove(kind: Kind, p: Piecewise, x: real, lo: nat, hi: nat)
    requires Fits(kind, p)
    requires BasisSpline.Nondecreasing(p.t)
    requires lo <= hi <= |p.a|
    requires lo < |p.t| && x < p.t[lo]
    ensures Window(kind, p, x, lo, hi) == 0.0
    decreases hi - lo
  {
    hide BasisAt;
    if lo < hi {
      WindowZeroAbove(kind, p, x, lo, hi - 1);
      assert p.t[lo] <= p.t[hi - 1];
      BasisBeforeSupport(kind, p.k, p.t, hi - 1, x);
    }
  }

  /** Every spline below hi ends at or left of x, so the window sums to 0. */
  lemma {:induction false} WindowZeroBelow(kind: Kind, p: Piecewise, x: real, lo: nat, hi: nat)
    requires Fits(kind, p) && kind != IntegralOf
    requires BasisSpline.Nondecreasing(p.t)
    requires lo <= hi <= |p.a|
    requires 0 < hi ==> p.t[hi + p.k] <= x
    ensures Window(kind, p, x, lo, hi) == 0.0
    decreases hi - lo
  {
    hide BasisAt;
    if lo < hi {
      if lo < hi - 1 {
        assert p.t[hi - 1 + p.k] <= p.t[hi + p.k];
      }
      WindowZeroBelow(kind, p, x, lo, hi - 1);
      BasisAfterSupport(kind, p.k, p.t, hi - 1, x);
    }
  }

  /**
    With knots that do not decrease, the corrected localisation loses
    nothing: it equals the sum over every basis spline, for the value, the
    derivative and the integral alike.
  */
  lemma EvalIsFullSum(kind: Kind, p: Piecewise, x: real)
    requires Fits(kind, p)
    requires BasisSpline.Nondecreasing(p.t)
    ensures Eval(kind, p, x) == Full(kind, p, x)
  {
    hide BasisAt;
    var n, m := |p.t|, |p.a|;
    var u := Bootstrap.UpperBound(p.t, x);
    var hi := Min(u, m);
    var lo := Min(FixedLo(p, u, kind), hi);
    if PwFlat.LowerBound(p.t, x) == n {
      if m > 0 {
        assert p.t[m - 1 + p.k + 1] < x;
        if kind == IntegralOf {
          assert u == n;
          WindowZeroBelowIntegral(p, x, m);
        } else {
          WindowZeroBelow(kind, p, x, 0, m);
        }
      }
    } else {
      DotSplit(p.a, Basis(kind, p.k, p.t, x), 0, lo, m);
      DotSplit(p.a, Basis(kind, p.k, p.t, x), lo, hi, m);
      if hi < m {
        WindowZeroAbove(kind, p, x, hi, m);
      }
      if 0 < lo {
        assert kind != IntegralOf && lo == u - p.k - 1;
        WindowZeroBelow(kind, p, x, 0, lo);
      }
    }
  }

  /**
    Beyond the last knot the order k + 1 splines all vanish, so each basis
    integral, and the integral's full sum, is 0 there.
  */
  lemma {:induction false} WindowZeroBelowIntegral(p: Piecewise, x: real, hi: nat)
    requires Fits(IntegralOf, p)
    requires BasisSpline.Nondecreasing(p.t)
    requires hi <= |p.a|
    requires 0 < |p.t| && p.t[|p.t| - 1] < x
    ensures Window(IntegralOf, p, x, 0, hi) == 0.0
  {
    hide BasisAt;
    if 0 < hi {
      WindowZeroBelowIntegral(p, x, hi - 1);
      IntegralBeyond(p.k, p.t, hi - 1, x);
    }
  }

  /** Beyond the last knot each basis integral is 0. */
  lemma IntegralBeyond(k: nat, t: seq<real>, i: nat, x: real)
    requires Admissible(IntegralOf, k, t)
    requires BasisSpline.Nondecreasing(t)
    requires i + k + 1 < |t| && t[|t| - 1] < x
    ensures BasisAt(IntegralOf, k, t, i, x) == 0.0
  {
    BasisSumBeyond(t, k + 1, i, x);
  }

  /** Every spline ends by the last knot, so beyond it any tail sum is 0. */
  lemma {:induction false} BasisSumBeyond(t: seq<real>, k: nat, j: nat, x: real)
    requires BasisSpline.Nondecreasing(t)
    requires 0 < |t| && t[|t| - 1] < x
    ensures BasisSpline.BasisSum(t, k, j, x) == 0.0
    decreases |t| - j
  {
    if j + k + 1 < |t| {
      BasisSumBeyond(t, k, j + 1, x);
      assert t[j + k + 1] <= t[|t| - 1];
      assert BasisSpline.B(t, k, j, x) == 0.0;
    }
  }

  /**
    As written, the value is 0 at every x that is not a knot: each summed
    spline i >= i0 has t[i] >= t[i0] > x.
  */
  lemma AsWrittenVanishesOffKnots(p: Piecewise, x: real)
    requires Fits(ValueOf, p)
    requires BasisSpline.Nondecreasing(p.t)
    requires forall i :: 0 <= i < |p.t| ==> p.t[i] != x
    ensures EvalAsWritten(ValueOf, p, x) == 0.0
  {
    var i0 := PwFlat.LowerBound(p.t, x);
    var hi := AsWrittenHi(p, i0);
    if i0 < |p.t| && i0 <= hi {
      assert x < p.t[i0];
      WindowZeroAbove(ValueOf, p, x, i0, hi);
    }
  }

  /**
    The hat functions on knots 0, 1, 2, 3 with coefficients 1, 1: at 0.5
    the code gives 0 where the spline is 0.5.
  */
  lemma AsWrittenLocalisationExample()
    ensures Fits(ValueOf, Piecewise([1.0, 1.0], 1, [0.0, 1.0, 2.0, 3.0]))
    ensures EvalAsWritten(ValueOf, Piecewise([1.0, 1.0], 1, [0.0, 1.0, 2.0, 3.0]), 0.5) == 0.0
    ensures Eval(ValueOf, Piecewise([1.0, 1.0], 1, [0.0, 1.0, 2.0, 3.0]), 0.5) == 0.5
  {
    var p := Piecewise([1.0, 1.0], 1, [0.0, 1.0, 2.0, 3.0]);
    assert PwFlat.LowerBound(p.t, 0.5) == 1 by {
      PwFlat.LowerBoundUnique(p.t, 0.5, 1);
    }
    assert Bootstrap.UpperBound(p.t, 0.5) == 1;
    assert BasisSpline.B(p.t, 1, 1, 0.5) == 0.0;
    assert BasisSpline.B(p.t, 0, 0, 0.5) == 1.0;
    assert BasisSpline.B(p.t, 0, 1, 0.5) == 0.0;
    assert BasisSpline.B(p.t, 1, 0, 0.5) == 0.5;
  }

  /** a + b, coefficient by coefficient. */
  function Add(a: seq<real>, b: seq<real>): (r: seq<real>)
    requires |a| == |b|
    ensures |r| == |a| && forall i :: 0 <= i < |r| ==> r[i] == a[i] + b[i]
  {
    seq(|a|, i requires 0 <= i < |a| => a[i] + b[i])
  }

  /** c times a, coefficient by coefficient. */
  function Scale(c: real, a: seq<real>): (r: seq<real>)
    ensures |r| == |a| && forall i :: 0 <= i < |r| ==> r[i] == c * a[i]
  {
    seq(|a|, i requires 0 <= i < |a| => c * a[i])
  }

  /** Dot products add up when the coefficient arrays do. */
  lemma {:induction false} DotAdditive(a: seq<real>, b: seq<real>, v: seq<real>, lo: nat, hi: nat)
    requires |a| == |b| == |v|
    requires lo <= hi <= |a|
    ensures Dot(Add(a, b), v, lo, hi) == Dot(a, v, lo, hi) + Dot(b, v, lo, hi)
    decreases hi - lo
  {
    if lo < hi {
      DotAdditive(a, b, v, lo, hi - 1);
      AddTerm(a[hi - 1], b[hi - 1], v[hi - 1]);
    }
  }

  /** Scaling the coefficients scales the dot product. */
  lemma {:induction false} DotHomogeneous(c: real, a: seq<real>, v: seq<real>, lo: nat, hi: nat)
    requires |a| == |v|
    requires lo <= hi <= |a|
    ensures Dot(Scale(c, a), v, lo, hi) == c * Dot(a, v, lo, hi)
    decreases hi - lo
  {
    if lo < hi {
      DotHomogeneous(c, a, v, lo, hi - 1);
      ScaleTerm(c, a[hi - 1], v[hi - 1], Dot(a, v, lo, hi - 1));
    }
  }

  lemma AddTerm(a: real, b: real, v: real)
    ensures (a + b) * v == a * v + b * v
  {
  }

  lemma ScaleTerm(c: real, a: real, v: real, w: real)
    ensures c * w + (c * a) * v == c * (w + a * v)
  {
  }

  /** Windows are linear in the coefficients. */
  lemma WindowLinear(kind: Kind, p: Piecewise, q: seq<real>, c: real, x: real, lo: nat, hi: nat)
    requires Fits(kind, p)
    requires |q| == |p.a|
    requires lo <= hi <= |p.a|
    ensures Fits(kind, p.(a := q)) && Fits(kind, p.(a := Add(p.a, q))) && Fits(kind, p.(a := Scale(c, p.a)))
    ensures Window(kind, p.(a := Add(p.a, q)), x, lo, hi) == Window(kind, p, x, lo, hi) + Window(kind, p.(a := q), x, lo, hi)
    ensures Window(kind, p.(a := Scale(c, p.a)), x, lo, hi) == c * Window(kind, p, x, lo, hi)
  {
    hide BasisAt;
    DotAdditive(p.a, q, Basis(kind, p.k, p.t, x), lo, hi);
    DotHomogeneous(c, p.a, Basis(kind, p.k, p.t, x), lo, hi);
  }

  /** As written, the three members are linear in the coefficient array. */
  lemma EvalAsWrittenLinear(kind: Kind, p: Piecewise, q: seq<real>, c: real, x: real)
    requires Fits(kind, p)
    requires |q| == |p.a|
    ensures Fits(kind, p.(a := q)) && Fits(kind, p.(a := Add(p.a, q))) && Fits(kind, p.(a := Scale(c, p.a)))
    ensures EvalAsWritten(kind, p.(a := Add(p.a, q)), x) == EvalAsWritten(kind, p, x) + EvalAsWritten(kind, p.(a := q), x)
    ensures EvalAsWritten(kind, p.(a := Scale(c, p.a)), x) == c * EvalAsWritten(kind, p, x)
  {
    hide BasisAt;
    var pq, ps := p.(a := Add(p.a, q)), p.(a := Scale(c, p.a));
    assert pq.t == p.t && ps.t == p.t && |pq.a| == |p.a| && |ps.a| == |p.a|;
    var i0 := PwFlat.LowerBound(p.t, x);
    var hi := AsWrittenHi(p, i0);
    assert AsWrittenHi(pq, i0) == hi && AsWrittenHi(ps, i0) == hi && AsWrittenHi(p.(a := q), i0) == hi;
    WindowLinear(kind, p, q, c, x, Min(i0, hi), hi);
  }

  /** So is the corrected localisation. */
  lemma EvalLinear(kind: Kind, p: Piecewise, q: seq<real>, c: real, x: real)
    requires Fits(kind, p)
    requires |q| == |p.a|
    ensures Fits(kind, p.(a := q)) && Fits(kind, p.(a := Add(p.a, q))) && Fits(kind, p.(a := Scale(c, p.a)))
    ensures Eval(kind, p.(a := Add(p.a, q)), x) == Eval(kind, p, x) + Eval(kind, p.(a := q), x)
    ensures Eval(kind, p.(a := Scale(c, p.a)), x) == c * Eval(kind, p, x)
  {
    hide BasisAt, Eval, Window, Dot;
    var u := Bootstrap.UpperBound(p.t, x);
    var hi := Min(u, |p.a|);
    var lo := Min(FixedLo(p, u, kind), hi);
    var pq, ps := p.(a := Add(p.a, q)), p.(a := Scale(c, p.a));
    assert |pq.a| == |ps.a| == |p.a|;
    WindowLinear(kind, p, q, c, x, lo, hi);
    EvalIsWindow(kind, p, x, lo, hi);
    EvalIsWindow(kind, p.(a := q), x, lo, hi);
    EvalIsWindow(kind, p.(a := Add(p.a, q)), x, lo, hi);
    EvalIsWindow(kind, p.(a := Scale(c, p.a)), x, lo, hi);
    if PwFlat.LowerBound(p.t, x) == |p.t| {
      assert c * Eval(kind, p, x) == c * 0.0 == 0.0;
    }
  }

  /** The corrected window depends only on the knots, the order and x. */
  lemma EvalIsWindow(kind: Kind, p: Piecewise, x: real, lo: nat, hi: nat)
    requires Fits(kind, p)
    requires hi == Min(Bootstrap.UpperBound(p.t, x), |p.a|)
    requires lo == Min(FixedLo(p, Bootstrap.UpperBound(p.t, x), kind), hi)
    ensures Eval(kind, p, x) == if PwFlat.LowerBound(p.t, x) == |p.t| then 0.0 else Window(kind, p, x, lo, hi)
  {
  }

}

=== FILE: polynomial.dfy ===
/**
  Horner and Taylor evaluation of curves/polynomial.h and
  functional/polynomial.h. Both headers define the same `taylor`; their
  `horner`s differ only in that the curves version returns p[0] at once
  when x is 0. Coefficient arrays `p` are sequences and `p + 1` is `p[1..]`.
*/
module Polynomial {
  import opened Series

  /** `curves::polynomial::horner(n, p)(x)`. */
  function CurvesHorner(n: nat, p: seq<real>, x: real): (r: real)
    requires n <= |p|
    ensures n == 0 ==> r == 0.0
    ensures n >= 1 && (n == 1 || x == 0.0) ==> r == p[0]
  {
    if n == 0 then 0.0
    else if n == 1 || x == 0.0 then p[0]
    else p[0] + x * CurvesHorner(n - 1, p[1..], x)
  }

  /** `functional::polynomial::horner(n, p)(x)`: no shortcut at x = 0. */
  function FunctionalHorner(n: nat, p: seq<real>, x: real): (r: real)
    requires n <= |p|
    ensures n == 0 ==> r == 0.0
    ensures n == 1 ==> r == p[0]
  {
    if n == 0 then 0.0
    else if n == 1 then p[0]
    else p[0] + x * FunctionalHorner(n - 1, p[1..], x)
  }

  /**
    `taylor(n, p, f)(x)`, the same in both headers: p[0] + (x/f) times the
    evaluation of the rest with f + 1.
  */
  function Taylor(n: nat, p: seq<real>, x: real, f: real): (r: real)
    requires n <= |p|
    requires f > 0.0
    ensures n == 0 ==> r == 0.0
    ensures n == 1 ==> r == p[0]
  {
    if n == 0 then 0.0
    else if n == 1 then p[0]
    else p[0] + (x / f) * Taylor(n - 1, p[1..], x, f + 1.0)
  }

  /** Peeling the constant term off the power sum. */
  lemma {:induction false} PolySumShift(p: seq<real>, n: nat, x: real)
    requires 1 <= n <= |p|
    ensures PolySum(p, n, x) == p[0] + x * PolySum(p[1..], n - 1, x)
  {
    if n > 1 {
      PolySumShift(p, n - 1, x);
      assert p[1..][n - 2] == p[n - 1];
      assert Pow(x, n - 1) == x * Pow(x, n - 2);
      Distrib(p[0], x, PolySum(p[1..], n - 2, x), p[n - 1], Pow(x, n - 2));
    }
  }

  /** Both `horner`s evaluate the power sum p[0] + p[1] x + ... + p[n-1] x^(n-1). */
  lemma {:induction false} HornerClosedForm(n: nat, p: seq<real>, x: real)
    requires n <= |p|
    ensures CurvesHorner(n, p, x) == PolySum(p, n, x)
    ensures FunctionalHorner(n, p, x) == PolySum(p, n, x)
  {
    hide CurvesHorner, FunctionalHorner;
    if n >= 1 {
      PolySumShift(p, n, x);
      if n > 1 {
        HornerClosedForm(n - 1, p[1..], x);
        HornerStep(n, p, x);
      }
    }
  }

  /** One step of both `horner`s past the first coefficient. */
  lemma HornerStep(n: nat, p: seq<real>, x: real)
    requires 2 <= n <= |p|
    ensures CurvesHorner(n, p, x) == if x == 0.0 then p[0] else p[0] + x * CurvesHorner(n - 1, p[1..], x)
    ensures FunctionalHorner(n, p, x) == p[0] + x * FunctionalHorner(n - 1, p[1..], x)
  {
  }

  /** The x = 0 shortcut changes nothing: the two `horner`s agree everywhere. */
  lemma HornerVariantsAgree(n: nat, p: seq<real>, x: real)
    requires n <= |p|
    ensures CurvesHorner(n, p, x) == FunctionalHorner(n, p, x)
    ensures n >= 1 ==> FunctionalHorner(n, p, 0.0) == p[0]
  {
    HornerClosedForm(n, p, x);
    HornerClosedForm(n, p, 0.0);
  }

  /** One term of the rising-factorial sum, moved one place along. */
  lemma TermShift(c: real, x: real, f: real, i: nat)
    requires f > 0.0
    ensures RisingTerm(c, x, f, i + 1) == (x / f) * RisingTerm(c, x, f + 1.0, i)
  {
    RisingShift(f, i);
    FracShift(c, x, Pow(x, i), f, Rising(f + 1.0, i));
  }

  /** Peeling the constant term off the rising-factorial sum. */
  lemma {:induction false} RisingSumShift(p: seq<real>, n: nat, x: real, f: real)
    requires 1 <= n <= |p|
    requires f > 0.0
    ensures RisingSum(p, n, x, f) == p[0] + (x / f) * RisingSum(p[1..], n - 1, x, f + 1.0)
  {
    hide *;
    var q := p[1..];
    if n > 1 {
      var m: nat := n - 1;
      var k: nat := m - 1;
      RisingSumShift(p, m, x, f);
      RisingSumStep(p, n, x, f);
      RisingSumStep(q, m, x, f + 1.0);
      TermShift(p[n - 1], x, f, k);
      assert q[k] == p[n - 1];
      var y, s, t := x / f, RisingSum(q, k, x, f + 1.0), RisingTerm(p[n - 1], x, f + 1.0, k);
      assert RisingSum(p, m, x, f) == p[0] + y * s;
      assert RisingTerm(p[n - 1], x, f, m) == y * t;
      assert RisingSum(q, m, x, f + 1.0) == s + t;
      Factor(p[0], y, s, t);
    } else {
      RisingSumOne(p, x, f);
    }
  }

  /** The first n terms are the first n - 1 and the last. */
  lemma RisingSumStep(p: seq<real>, n: nat, x: real, f: real)
    requires 1 <= n <= |p|
    requires f > 0.0
    ensures RisingSum(p, n, x, f) == RisingSum(p, n - 1, x, f) + RisingTerm(p[n - 1], x, f, n - 1)
  {
  }

  /** The first term alone is the constant term, and after it nothing is left. */
  lemma RisingSumOne(p: seq<real>, x: real, f: real)
    requires 1 <= |p|
    requires f > 0.0
    ensures RisingSum(p, 1, x, f) == p[0] + (x / f) * RisingSum(p[1..], 0, x, f + 1.0)
  {
    RisingOneTerm(p[0], x, f);
  }

  /** The 0-th term is the coefficient itself. */
  lemma RisingOneTerm(c: real, x: real, f: real)
    requires f > 0.0
    ensures RisingTerm(c, x, f, 0) == c
  {
    RisingZero(f);
  }

  /** a + y s + y t == a + y (s + t). */
  lemma Factor(a: real, y: real, s: real, t: real)
    ensures a + y * s + y * t == a + y * (s + t)
  {
  }

  /** `taylor(n, p, f)(x)` is the sum of p[i] x^i / (f (f + 1) ... (f + i - 1)). */
  lemma {:induction false} TaylorRisingForm(n: nat, p: seq<real>, x: real, f: real)
    requires n <= |p|
    requires f > 0.0
    ensures Taylor(n, p, x, f) == RisingSum(p, n, x, f)
  {
    if n >= 1 {
      RisingSumShift(p, n, x, f);
      if n > 1 {
        TaylorRisingForm(n - 1, p[1..], x, f + 1.0);
      }
    }
  }

  /** With the default f = 1, `taylor(n, p)(x)` is the sum of p[i] x^i / i!, and p[0] at x = 0. */
  lemma TaylorClosedForm(n: nat, p: seq<real>, x: real)
    requires n <= |p|
    ensures Taylor(n, p, x, 1.0) == TaylorSum(p, n, x)
    ensures n >= 1 ==> Taylor(n, p, 0.0, 1.0) == p[0]
  {
    TaylorRisingForm(n, p, x, 1.0);
    RisingSumOneIsTaylor(p, n, x);
    if n >= 1 {
      TaylorRisingForm(n, p, 0.0, 1.0);
      RisingSumShift(p, n, 0.0, 1.0);
    }
  }

  /** The polynomial tests: p = {1, 2, 3} at 0, 1 and 2, and q = {1, 2, 3, 4} with `taylor` at 0, 1 and 2. */
  lemma PolynomialExamples()
    ensures CurvesHorner(3, [1.0, 2.0, 3.0], 0.0) == 1.0
    ensures CurvesHorner(3, [1.0, 2.0, 3.0], 1.0) == 6.0
    ensures CurvesHorner(3, [1.0, 2.0, 3.0], 2.0) == 17.0
    ensures FunctionalHorner(3, [1.0, 2.0, 3.0], 2.0) == 17.0
    ensures Taylor(4, [1.0, 2.0, 3.0, 4.0], 0.0, 1.0) == 1.0
    ensures Taylor(4, [1.0, 2.0, 3.0, 4.0], 1.0, 1.0) == 1.0 + 2.0 + (1.0 / 2.0) * (3.0 + (1.0 / 3.0) * 4.0)
    ensures Taylor(4, [1.0, 2.0, 3.0, 4.0], 2.0, 1.0) == 1.0 + 2.0 * (2.0 + (2.0 / 2.0) * (3.0 + (2.0 / 3.0) * 4.0))
  {
    var q := [1.0, 2.0, 3.0, 4.0];
    assert q[1..][1..] == [3.0, 4.0];
    assert q[1..][1..][1..] == [4.0];
    assert [1.0, 2.0, 3.0][1..][1..] == [3.0];
  }
}

=== FILE: range.dfy ===
/**
  The one- and two-dimensional views of functional/range.h: a `wrapper` is
  a length and a start position in some underlying storage, indexed
  cyclically; `take`, `drop` and `wrapper2` make new views of the same
  storage. Storage is a sequence; a view's position is an offset into it.
*/
module Range {
  import opened Wrappers

  function Abs(a: int): nat
  {
    if a < 0 then -a else a
  }

  /** Euclidean division and remainder with a positive divisor. */
  lemma DivMod(a: int, b: int)
    requires b > 0
    ensures a == (a / b) * b + a % b && 0 <= a % b < b
  {
  }

  /** The quotient of a natural number by a positive one is natural. */
  lemma DivNonneg(a: int, b: int)
    requires a >= 0 && b > 0
    ensures a / b >= 0
  {
    DivMod(a, b);
    if a / b < 0 {
      MulMono(a / b, -1, b);
    }
  }

  /** Multiplying by a natural number keeps the order. */
  lemma MulMono(x: int, y: int, c: nat)
    requires x <= y
    ensures x * c <= y * c
  {
    assert y * c - x * c == (y - x) * c;
  }

  /** Quotient and remainder are the only pair with 0 <= r < n and i == q * n + r. */
  lemma ModUnique(i: int, n: int, q: int, r: int)
    requires n > 0 && 0 <= r < n && i == q * n + r
    ensures i % n == r && i / n == q
  {
    DivMod(i, n);
    var d := q - i / n;
    assert d * n == i % n - r by {
      assert q * n - (i / n) * n == (q - i / n) * n;
    }
    if d > 0 {
      MulMono(1, d, n);
    } else if d < 0 {
      MulMono(1, -d, n);
    }
  }

  /** `2^64`: `size_t` and `ptrdiff_t` are 64 bits wide. */
  const Modulus: int := 0x1_0000_0000_0000_0000

  /** Reduction of an unsigned 64-bit result: the representative of x in [0, 2^64). */
  function WrapSize(x: int): (r: nat)
    ensures r < Modulus && (r - x) % Modulus == 0
  {
    DivMod(x, Modulus);
    ModUnique(x % Modulus - x, Modulus, -(x / Modulus), 0);
    x % Modulus
  }

  /** Integer division as C++ performs it: the quotient truncated toward zero. */
  function TruncDiv(a: int, b: int): (q: int)
    requires b != 0
    ensures Abs(q) == Abs(a) / Abs(b)
    ensures q == 0 || (q < 0 <==> (a < 0) != (b < 0))
  {
    DivNonneg(Abs(a), Abs(b));
    var q0 := Abs(a) / Abs(b);
    if (a < 0) == (b < 0) then q0 else -q0
  }

  /**
    `index(i, n)`: the cyclic 0-based index in [0, n). Non-negative i is
    reduced modulo n (both operands are non-negative there, so C++'s
    truncating `%` is the Euclidean one); negative i counts back from the end.
  */
  function Index(i: int, n: int): (r: int)
    requires n > 0
    ensures 0 <= r < n
  {
    if i >= 0 then i % n else n - 1 - (-i - 1) % n
  }

  /** Index agrees with the Euclidean remainder for every integer, negative ones included. */
  lemma IndexIsMod(i: int, n: int)
    requires n > 0
    ensures Index(i, n) == i % n
  {
    if i < 0 {
      var k := (-i - 1) % n;
      DivMod(-i - 1, n);
      var q := -((-i - 1) / n) - 1;
      assert i == q * n + (n - 1 - k) by {
        assert -i - 1 == ((-i - 1) / n) * n + k;
      }
      ModUnique(i, n, q, n - 1 - k);
    }
  }

  /** Index is n-periodic. */
  lemma IndexPeriodic(i: int, n: int)
    requires n > 0
    ensures Index(i + n, n) == Index(i, n)
    ensures Index(i - n, n) == Index(i, n)
  {
    IndexIsMod(i, n);
    IndexIsMod(i + n, n);
    IndexIsMod(i - n, n);
    DivMod(i, n);
    ModUnique(i + n, n, i / n + 1, i % n);
    ModUnique(i - n, n, i / n - 1, i % n);
  }

  /** Index is the identity on [0, n) and counts back from the end for -n <= i < 0. */
  lemma IndexInRange(i: int, n: int)
    requires n > 0
    ensures 0 <= i < n ==> Index(i, n) == i
    ensures -n <= i < 0 ==> Index(i, n) == n + i
  {
  }

  /** The values the tests of `index` check on a three-element range. */
  lemma IndexExamples()
    ensures Index(0, 3) == 0 && Index(-1, 3) == 2 && Index(3, 3) == 0
    ensures Index(-3, 3) == 0 && Index(100, 3) == 1
    ensures Index(-2, 3) == 1 && Index(-1 - 3, 3) == 2
  {
  }

  // ---------------------------------------------------------------------
  // One-dimensional views

  /** `wrapper<T>`: `size` elements starting at offset `base` of the storage. */
  datatype Wrapper = Wrapper(size: nat, base: int)

  /** The view lies inside the storage. */
  ghost predicate Inside<T>(s: seq<T>, w: Wrapper)
  {
    0 <= w.base && w.base + w.size <= |s|
  }

  /** The elements the view covers, from `begin()` to `end()`. */
  function Contents<T>(s: seq<T>, w: Wrapper): seq<T>
    requires Inside(s, w)
  {
    s[w.base .. w.base + w.size]
  }

  /** `wrapper::operator[]`: element i, taken cyclically. */
  function At<T>(s: seq<T>, w: Wrapper, i: int): (r: T)
    requires Inside(s, w) && w.size > 0
    ensures r == Contents(s, w)[i % w.size]
  {
    IndexIsMod(i, w.size);
    s[w.base + Index(i, w.size)]
  }

  /** Within [0, size) element access is plain offsetting. */
  lemma AtInRange<T>(s: seq<T>, w: Wrapper, j: int)
    requires Inside(s, w) && 0 <= j < w.size
    ensures At(s, w, j) == s[w.base + j]
  {
    IndexInRange(j, w.size);
  }

  /**
    `take(n, a)`: the first n elements when n >= 0, the last -n when n < 0;
    fails unless |n| <= size.
  */
  function Take(n: int, w: Wrapper): (r: Result<Wrapper>)
    ensures r.Success? <==> Abs(n) <= w.size
    ensures r.Success? ==> r.value.size == Abs(n)
  {
    if !(n <= w.size) then Failure("ensure (n <= a.size())")
    else if !(-n <= w.size) then Failure("ensure (-n <= a.size())")
    else if n >= 0 then Success(Wrapper(n, w.base))
    else Success(Wrapper(-n, w.base + w.size + n))
  }

  /** `drop(n, a)`: without the first n elements when n >= 0, without the last -n when n < 0. */
  function Drop(n: int, w: Wrapper): (r: Wrapper)
    requires Abs(n) <= w.size
    ensures r.size == w.size - Abs(n)
  {
    if n >= 0 then Wrapper(w.size - n, w.base + n) else Wrapper(w.size + n, w.base)
  }

  /** The contents of `take`: a prefix for n >= 0, a suffix for n < 0. */
  lemma TakeContents<T>(s: seq<T>, w: Wrapper, n: int)
    requires Inside(s, w)
    requires Abs(n) <= w.size
    ensures Take(n, w).Success? && Inside(s, Take(n, w).value)
    ensures n >= 0 ==> Contents(s, Take(n, w).value) == Contents(s, w)[..n]
    ensures n < 0 ==> Contents(s, Take(n, w).value) == Contents(s, w)[w.size + n..]
  {
  }

  /** The contents of `drop`: a suffix for n >= 0, a prefix for n < 0. */
  lemma DropContents<T>(s: seq<T>, w: Wrapper, n: int)
    requires Inside(s, w)
    requires Abs(n) <= w.size
    ensures Inside(s, Drop(n, w))
    ensures n >= 0 ==> Contents(s, Drop(n, w)) == Contents(s, w)[n..]
    ensures n < 0 ==> Contents(s, Drop(n, w)) == Contents(s, w)[..w.size + n]
  {
  }

  /** `take(k)` followed by `drop(k)` is the whole view, and `drop(-k)` followed by `take(-k)` too. */
  lemma TakeDropSplit<T>(s: seq<T>, w: Wrapper, k: int)
    requires Inside(s, w)
    requires 0 <= k <= w.size
    ensures Contents(s, Take(k, w).value) + Contents(s, Drop(k, w)) == Contents(s, w)
    ensures Contents(s, Drop(-k, w)) + Contents(s, Take(-k, w).value) == Contents(s, w)
  {
    hide Take, Drop;
    TakeThenDrop(s, w, k);
    DropThenTake(s, w, k);
  }

  /** `take(k)` followed by `drop(k)` is the whole view. */
  lemma TakeThenDrop<T>(s: seq<T>, w: Wrapper, k: int)
    requires Inside(s, w)
    requires 0 <= k <= w.size
    ensures Take(k, w).Success? && Inside(s, Take(k, w).value) && Inside(s, Drop(k, w))
    ensures Contents(s, Take(k, w).value) + Contents(s, Drop(k, w)) == Contents(s, w)
  {
    hide Take, Drop;
    TakeContents(s, w, k);
    DropContents(s, w, k);
    var c := Contents(s, w);
    assert c[..k] + c[k..] == c;
  }

  /** `drop(-k)` followed by `take(-k)` is the whole view. */
  lemma DropThenTake<T>(s: seq<T>, w: Wrapper, k: int)
    requires Inside(s, w)
    requires 0 <= k <= w.size
    ensures Take(-k, w).Success? && Inside(s, Take(-k, w).value) && Inside(s, Drop(-k, w))
    ensures Contents(s, Drop(-k, w)) + Contents(s, Take(-k, w).value) == Contents(s, w)
  {
    hide Take, Drop;
    TakeContents(s, w, -k);
    DropContents(s, w, -k);
    var c := Contents(s, w);
    if k == 0 {
      assert c[0..] + c[..0] == c;
    } else {
      assert c[..w.size - k] + c[w.size - k..] == c;
    }
  }

  /** The checks of the `take` and `drop` tests on {1, 2, 3}, cyclic indexing included. */
  lemma TakeDropExamples()
    ensures var s, w := [1, 2, 3], Wrapper(3, 0);
      && At(s, Take(2, w).value, 0) == 1 && At(s, Take(2, w).value, 1) == 2
      && At(s, Take(2, w).value, 2) == 1 && At(s, Take(2, w).value, -1) == 2
      && At(s, Take(-2, w).value, 0) == 2 && At(s, Take(-2, w).value, 1) == 3
      && At(s, Take(-2, w).value, 2) == 2 && At(s, Take(-2, w).value, -1) == 3
      && At(s, Drop(1, w), 0) == 2 && At(s, Drop(1, w), 1) == 3
      && At(s, Drop(1, w), 2) == 2 && At(s, Drop(1, w), -1) == 3
      && At(s, Drop(-1, w), 0) == 1 && At(s, Drop(-1, w), 1) == 2
      && At(s, Drop(-1, w), 2) == 1 && At(s, Drop(-1, w), -1) == 2
  {
  }

  /** `stride(s, o)(i)`: every s-th position starting at o. */
  function Stride(s: int, o: int, i: int): (r: int)
    ensures i == 0 ==> r == o
  {
    i * s + o
  }

  /** Consecutive stride positions are s apart; the `stride` test picks t[0] and t[2] with s = 2. */
  lemma StrideSteps(s: int, o: int, i: int)
    ensures Stride(s, o, i + 1) - Stride(s, o, i) == s
  {
    assert Stride(s, o, i + 1) - Stride(s, o, i) == (i + 1) * s - i * s;
  }

  /** The `stride` test: stride 2 from 0 over {1, 2, 3} picks the first and third elements. */
  lemma StrideExample()
    ensures var s, w := [1, 2, 3], Wrapper(3, 0);
      At(s, w, Stride(2, 0, 0)) == 1 && At(s, w, Stride(2, 0, 1)) == 3
  {
    var s, w := [1, 2, 3], Wrapper(3, 0);
    var i0, i1 := Stride(2, 0, 0), Stride(2, 0, 1);
    assert i0 == 0 && i1 == 2;
    AtInRange(s, w, i0);
    AtInRange(s, w, i1);
    assert At(s, w, i0) == 1 && At(s, w, i1) == 3;
  }

  // ---------------------------------------------------------------------
  // Arithmetic sequences

  /** The element count `1 + (stop - start)/step` of `sequence(start, stop, step)`. */
  function SequenceCount(start: int, stop: int, step: int): int
    requires step != 0
  {
    1 + TruncDiv(stop - start, step)
  }

  /**
    `sequence(start, stop, step)`: start, start + step, ..., up to stop
    inclusive. A negative count would be an allocation of a wrapped-around
    size, so the count must not be negative.
  */
  function Sequence(start: int, stop: int, step: int): (r: seq<int>)
    requires step != 0
    requires SequenceCount(start, stop, step) >= 0
    ensures |r| == SequenceCount(start, stop, step)
    ensures forall i :: 0 <= i < |r| ==> r[i] == start + i * step
  {
    seq(SequenceCount(start, stop, step), i => start + i * step)
  }

  /**
    `sequence` as the header computes it: `i` is a `size_t`, so `start + i*step`
    is evaluated in unsigned 64-bit arithmetic before the conversion to T.
    Element i is the value in [0, 2^64) congruent to start + i step, which is
    what a floating or unsigned T receives.
  */
  function SequenceAsWritten(start: int, stop: int, step: int): (r: seq<nat>)
    requires step != 0
    requires SequenceCount(start, stop, step) >= 0
    ensures |r| == SequenceCount(start, stop, step)
    ensures forall i :: 0 <= i < |r| ==> r[i] < Modulus && (r[i] - (start + i * step)) % Modulus == 0
  {
    seq(SequenceCount(start, stop, step), i => WrapSize(start + i * step))
  }

  /** An element as written agrees with the intended one exactly when the intended one is in [0, 2^64). */
  lemma SequenceAsWrittenAgrees(start: int, stop: int, step: int, i: int)
    requires step != 0
    requires SequenceCount(start, stop, step) >= 0
    requires 0 <= i < SequenceCount(start, stop, step)
    ensures SequenceAsWritten(start, stop, step)[i] == Sequence(start, stop, step)[i]
      <==> 0 <= Sequence(start, stop, step)[i] < Modulus
  {
    var x := start + i * step;
    if 0 <= x < Modulus {
      ModUnique(x, Modulus, 0, x);
    }
  }

  /**
    Read back as a signed 64-bit integer (T = `ptrdiff_t`), an element as
    written is the intended one whenever that fits in 64 bits.
  */
  lemma SequenceSignedReading(start: int, stop: int, step: int, i: int)
    requires step != 0
    requires SequenceCount(start, stop, step) >= 0
    requires 0 <= i < SequenceCount(start, stop, step)
    requires -Modulus / 2 <= Sequence(start, stop, step)[i] < Modulus / 2
    ensures var u := SequenceAsWritten(start, stop, step)[i];
      (if u >= Modulus / 2 then u - Modulus else u) == Sequence(start, stop, step)[i]
  {
    var x := start + i * step;
    if x >= 0 {
      ModUnique(x, Modulus, 0, x);
    } else {
      ModUnique(x, Modulus, -1, x + Modulus);
    }
  }

  /**
    `sequence(0, -2, -1)` for a floating T: as written the negative elements
    wrap to 2^64 - 1 and 2^64 - 2, where 0, -1, -2 is meant.
  */
  lemma SequenceWrapExample()
    ensures SequenceAsWritten(0, -2, -1) == [0, Modulus - 1, Modulus - 2]
    ensures Sequence(0, -2, -1) == [0, -1, -2]
  {
    assert SequenceCount(0, -2, -1) == 3;
    ModUnique(-1, Modulus, -1, Modulus - 1);
    ModUnique(-2, Modulus, -1, Modulus - 2);
  }

  /** With a positive step the elements stay within [start, stop] and the next one would pass stop. */
  lemma SequenceCoversAscending(start: int, stop: int, step: int)
    requires step > 0 && start <= stop
    ensures SequenceCount(start, stop, step) >= 1
    ensures var r := Sequence(start, stop, step);
      (forall i :: 0 <= i < |r| ==> start <= r[i] <= stop) && stop < r[|r| - 1] + step
  {
    var q := TruncDiv(stop - start, step);
    assert q == (stop - start) / step;
    DivMod(stop - start, step);
    var r := Sequence(start, stop, step);
    assert r[|r| - 1] == start + q * step;
    assert stop < r[|r| - 1] + step by {
      assert q * step + step == (q + 1) * step;
    }
    forall i | 0 <= i < |r|
      ensures start <= r[i] <= stop
    {
      MulMono(0, i, step);
      MulMono(i, q, step);
    }
  }

  /** With a negative step the elements stay within [stop, start] and the next one would pass stop. */
  lemma SequenceCoversDescending(start: int, stop: int, step: int)
    requires step < 0 && stop <= start
    ensures SequenceCount(start, stop, step) >= 1
    ensures var r := Sequence(start, stop, step);
      (forall i :: 0 <= i < |r| ==> stop <= r[i] <= start) && r[|r| - 1] + step < stop
  {
    var q := TruncDiv(stop - start, step);
    assert q == (start - stop) / (-step);
    DivMod(start - stop, -step);
    var r := Sequence(start, stop, step);
    assert r[|r| - 1] == start + q * step;
    assert r[|r| - 1] + step < stop by {
      assert q * step + step == -((q + 1) * (-step));
    }
    forall i | 0 <= i < |r|
      ensures stop <= r[i] <= start
    {
      MulMono(0, i, -step);
      MulMono(i, q, -step);
    }
  }

  // ---------------------------------------------------------------------
  // Two-dimensional views

  /** `wrapper2<T>`: `rows` rows of `cols` elements, row-major from offset `base`. */
  datatype Wrapper2 = Wrapper2(rows: nat, cols: nat, base: int)
  {
    /** The flat view of all rows * cols elements. */
    function Flat(): Wrapper { Wrapper(rows * cols, base) }
  }

  /**
    `wrapper2(n1, a)`: n1 rows over the flat view a, with a.size / n1
    columns; fails unless the rows divide the size exactly.
  */
  function FromFlat(n1: nat, w: Wrapper): (r: Result<Wrapper2>)
    requires n1 > 0
    ensures r.Success? <==> w.size % n1 == 0
    ensures r.Success? ==> r.value.rows == n1 && r.value.Flat() == w
  {
    var n2 := w.size / n1;
    assert w.size == n1 * n2 + w.size % n1;
    Ensure(n1 * n2 == w.size, "ensure (n1_*n2_ == n_)", Wrapper2(n1, n2, w.base))
  }

  /**
    `wrapper2::operator[]` as written: row `index(i, n_)`, where n_ is the
    total element count rows * cols rather than the row count.
  */
  function RowAsWritten(a: Wrapper2, i: int): (r: Wrapper)
    requires a.rows * a.cols > 0
    ensures r.size == a.cols
  {
    Wrapper(a.cols, a.base + Index(i, a.rows * a.cols) * a.cols)
  }

  /** `wrapper2::operator[]` with the row index taken cyclically over the rows. */
  function Row(a: Wrapper2, i: int): (r: Wrapper)
    requires a.rows > 0
    ensures r.size == a.cols
    ensures 0 <= i < a.rows ==> r.base == a.base + i * a.cols
  {
    Wrapper(a.cols, a.base + Index(i, a.rows) * a.cols)
  }

  /** Row k of a rows x cols block ends no later than the block does. */
  lemma RowEnd(k: int, rows: nat, cols: nat)
    requires 0 <= k < rows
    ensures 0 <= k * cols && k * cols + cols <= rows * cols
  {
    MulMono(0, k, cols);
    MulMono(k + 1, rows, cols);
    assert (k + 1) * cols == k * cols + cols;
  }

  /** Every row, for any integer i, lies inside the storage of the whole view. */
  lemma RowInside<T>(s: seq<T>, a: Wrapper2, i: int)
    requires a.rows > 0
    requires Inside(s, a.Flat())
    ensures Inside(s, Row(a, i))
  {
    RowEnd(Index(i, a.rows), a.rows, a.cols);
  }

  /** Row-major layout: a[i][j] is element i * cols + j of the flat view. */
  lemma RowMajor<T>(s: seq<T>, a: Wrapper2, i: int, j: int)
    requires a.rows > 0 && a.cols > 0
    requires Inside(s, a.Flat())
    requires 0 <= i < a.rows && 0 <= j < a.cols
    ensures Inside(s, Row(a, i))
    ensures i * a.cols + j < a.rows * a.cols
      && At(s, Row(a, i), j) == Contents(s, a.Flat())[i * a.cols + j]
  {
    RowInside(s, a, i);
    IndexInRange(i, a.rows);
    AtInRange(s, Row(a, i), j);
    RowEnd(i, a.rows, a.cols);
  }

  /** For row numbers below `rows` the written form selects the same row. */
  lemma RowAsWrittenAgrees(a: Wrapper2, i: int)
    requires a.rows > 0 && a.cols > 0
    requires 0 <= i < a.rows
    ensures RowAsWritten(a, i) == Row(a, i)
  {
    var n := a.rows * a.cols;
    MulMono(1, a.cols, a.rows);
    assert a.cols * a.rows == n;
    IndexInRange(i, n);
    IndexInRange(i, a.rows);
  }

  /** Row -1 of a 2 x 3 view, as written, starts 15 elements in: outside the 6 elements. */
  lemma RowAsWrittenOutside()
    ensures RowAsWritten(Wrapper2(2, 3, 0), -1).base == 15
    ensures !Inside([1, 2, 3, 4, 5, 6], RowAsWritten(Wrapper2(2, 3, 0), -1))
    ensures Row(Wrapper2(2, 3, 0), -1) == Wrapper(3, 3)
  {
  }

  /** The `wrapper2` test: rows of {1..6} as 2 x 3, built directly and from the flat view. */
  lemma Wrapper2Examples()
    ensures var s, a := [1, 2, 3, 4, 5, 6], Wrapper2(2, 3, 0);
      At(s, Row(a, 0), 0) == 1 && At(s, Row(a, 1), 2) == 6
    ensures FromFlat(2, Wrapper(6, 0)) == Success(Wrapper2(2, 3, 0))
  {
    assert Row(Wrapper2(2, 3, 0), 1) == Wrapper(3, 3);
  }
}

=== FILE: range_grade.dfy ===
/**
  `grade(a, n)` of functional/range.h: the indices 0 .. size-1 rearranged
  so that the leading ones select the elements of `a` in order, ascending
  for n >= 0 and descending for n < 0. For n of 0 or -1 every position is
  ordered (`std::sort`), otherwise only the first |n| (`std::partial_sort`).
*/
module Grade {
  import opened Range

  /** The indices 0 .. n-1 that `sequence<size_t>(0, n - 1)` produces. */
  function Iota(n: nat): (r: seq<nat>)
    ensures |r| == n && forall i :: 0 <= i < n ==> r[i] == i
  {
    seq(n, i => i)
  }

  /** Iota is the range `sequence<size_t>(0, n - 1)` builds, with its count 1 + (n - 1)/1. */
  lemma IotaIsSequence(n: nat)
    ensures SequenceCount(0, n - 1, 1) == n
    ensures Sequence(0, n - 1, 1) == Iota(n)
  {
  }

  /** b rearranges 0 .. n-1. */
  ghost predicate IsPermutation(b: seq<nat>, n: nat)
  {
    multiset(b) == multiset(Iota(n))
  }

  /** The comparison `grade` sorts by: `a[i] < a[j]` for n >= 0, `a[i] > a[j]` for n < 0. */
  function Precedes(a: seq<int>, n: int, i: nat, j: nat): bool
    requires i < |a| && j < |a|
  {
    if n >= 0 then a[i] < a[j] else a[i] > a[j]
  }

  /** The number of leading positions put in order. */
  function SortedCount(n: int, size: nat): (k: nat)
    requires n == 0 || n == -1 || Abs(n) <= size
    ensures k <= size
  {
    if n == 0 || n == -1 then size else Abs(n)
  }

  /** All indices lie inside a. */
  ghost predicate Indices(a: seq<int>, b: seq<nat>)
  {
    forall i :: 0 <= i < |b| ==> b[i] < |a|
  }

  /** The first p positions are in order among themselves and ahead of all the rest. */
  ghost predicate OrderedPrefix(a: seq<int>, n: int, b: seq<nat>, p: nat)
    requires Indices(a, b)
  {
    && (forall i, j :: 0 <= i < j < p && j < |b| ==> !Precedes(a, n, b[j], b[i]))
    && (forall i, j :: 0 <= i < p <= j < |b| ==> !Precedes(a, n, b[j], b[i]))
  }

  /** Exchange of positions i and j. */
  function Swap(b: seq<nat>, i: nat, j: nat): (r: seq<nat>)
    requires i < |b| && j < |b|
    ensures |r| == |b| && r[i] == b[j] && r[j] == b[i]
    ensures forall k :: 0 <= k < |b| && k != i && k != j ==> r[k] == b[k]
    ensures multiset(r) == multiset(b)
  {
    b[i := b[j]][j := b[i]]
  }

  /** The position from p on whose element no later element precedes. */
  method SelectFirst(a: seq<int>, n: int, b: seq<nat>, p: nat) returns (m: nat)
    requires Indices(a, b) && p < |b|
    ensures p <= m < |b|
    ensures forall j :: p <= j < |b| ==> !Precedes(a, n, b[j], b[m])
  {
    m := p;
    var q := p + 1;
    while q < |b|
      invariant p <= m < |b| && p + 1 <= q <= |b|
      invariant forall j :: p <= j < q ==> !Precedes(a, n, b[j], b[m])
    {
      if Precedes(a, n, b[q], b[m]) {
        m := q;
      }
      q := q + 1;
    }
  }

  /** Bringing the selected element to position p extends the ordered prefix by one. */
  lemma SwapExtends(a: seq<int>, n: int, b: seq<nat>, p: nat, m: nat)
    requires Indices(a, b) && p <= m < |b|
    requires OrderedPrefix(a, n, b, p)
    requires forall j :: p <= j < |b| ==> !Precedes(a, n, b[j], b[m])
    ensures Indices(a, Swap(b, p, m)) && OrderedPrefix(a, n, Swap(b, p, m), p + 1)
  {
    var r := Swap(b, p, m);
    forall i, j | 0 <= i < p + 1 <= j < |r|
      ensures !Precedes(a, n, r[j], r[i])
    {
      var x := if j == m then p else j;
      assert r[j] == b[x] && p <= x;
    }
  }

  /**
    `grade(a, n)`, by selection of the first remaining index at each of
    the first SortedCount positions. The order among equal elements is
    whatever the selection yields: the contract promises only what the
    standard sorts promise.
  */
  method GradeOf(a: seq<int>, n: int) returns (b: seq<nat>)
    requires |a| > 0
    requires n == 0 || n == -1 || Abs(n) <= |a|
    ensures |b| == |a| && IsPermutation(b, |a|)
    ensures forall i :: 0 <= i < |b| ==> b[i] < |a|
    ensures forall i, j :: 0 <= i < j < SortedCount(n, |a|) ==> !Precedes(a, n, b[j], b[i])
    ensures forall i, j :: 0 <= i < SortedCount(n, |a|) <= j < |a| ==> !Precedes(a, n, b[j], b[i])
  {
    b := Iota(|a|);
    var k := SortedCount(n, |a|);
    var p := 0;
    while p < k
      invariant 0 <= p <= k
      invariant |b| == |a| && IsPermutation(b, |a|)
      invariant Indices(a, b) && OrderedPrefix(a, n, b, p)
    {
      var m := SelectFirst(a, n, b, p);
      SwapExtends(a, n, b, p, m);
      b := Swap(b, p, m);
      p := p + 1;
    }
  }

  /** Every index occurs at most once in 0 .. n-1. */
  lemma {:induction false} IotaOnce(n: nat, v: nat)
    ensures multiset(Iota(n))[v] <= 1
  {
    if n > 0 {
      assert Iota(n) == Iota(n - 1) + [n - 1];
      IotaOnce(n - 1, v);
      if v == n - 1 {
        assert v !in Iota(n - 1);
      }
    }
  }

  /** An index at two positions is counted twice. */
  lemma CountedTwice(b: seq<nat>, i: nat, j: nat)
    requires i < j < |b| && b[i] == b[j]
    ensures multiset(b)[b[i]] >= 2
  {
    assert b == b[..j] + b[j..];
    assert b[i] in b[..j];
    assert b[j..][0] == b[j];
  }

  /** A rearrangement of 0 .. n-1 holds distinct indices. */
  lemma PermutationDistinct(b: seq<nat>, n: nat)
    requires IsPermutation(b, n)
    ensures forall i, j :: 0 <= i < j < |b| ==> b[i] != b[j]
  {
    forall i, j | 0 <= i < j < |b|
      ensures b[i] != b[j]
    {
      if b[i] == b[j] {
        CountedTwice(b, i, j);
        IotaOnce(n, b[i]);
        assert false;
      }
    }
  }

  /** A rearrangement of 0 .. n-1 holds every index below n. */
  lemma PermutationCovers(b: seq<nat>, n: nat)
    requires IsPermutation(b, n)
    ensures forall k :: 0 <= k < n ==> k in b
  {
    forall k | 0 <= k < n
      ensures k in b
    {
      assert Iota(n)[k] == k;
      assert k in multiset(Iota(n));
    }
  }

  /** The first |v| positions of b select the values v of a. */
  predicate Selects(a: seq<int>, b: seq<nat>, v: seq<int>)
  {
    && |v| <= |b|
    && (forall i :: 0 <= i < |b| ==> b[i] < |a|)
    && (forall i :: 0 <= i < |v| ==> a[b[i]] == v[i])
  }

  /** Position j does not precede position i of a grade of {3, 1, 4, 2} whose first two positions are ordered. */
  lemma ExampleStep(b: seq<nat>, n: int, i: nat, j: nat)
    requires n == 0 || n == -1 || n == 2 || n == -2
    requires |b| == 4 && IsPermutation(b, 4) && (forall i :: 0 <= i < 4 ==> b[i] < 4)
    requires forall i, j :: 0 <= i < j < SortedCount(n, 4) ==> !Precedes([3, 1, 4, 2], n, b[j], b[i])
    requires forall i, j :: 0 <= i < SortedCount(n, 4) <= j < 4 ==> !Precedes([3, 1, 4, 2], n, b[j], b[i])
    requires i < j < 4 && i < 2
    ensures !Precedes([3, 1, 4, 2], n, b[j], b[i])
  {
  }

  /** The two leading positions of a grade of {3, 1, 4, 2}. */
  lemma ExampleLeading(b: seq<nat>, n: int)
    requires n == 0 || n == -1 || n == 2 || n == -2
    requires |b| == 4 && IsPermutation(b, 4) && (forall i :: 0 <= i < 4 ==> b[i] < 4)
    requires forall i, j :: 0 <= i < j < SortedCount(n, 4) ==> !Precedes([3, 1, 4, 2], n, b[j], b[i])
    requires forall i, j :: 0 <= i < SortedCount(n, 4) <= j < 4 ==> !Precedes([3, 1, 4, 2], n, b[j], b[i])
    ensures n >= 0 ==> b[0] == 1 && b[1] == 3
    ensures n < 0 ==> b[0] == 2 && b[1] == 0
  {
    PermutationDistinct(b, 4);
    PermutationCovers(b, 4);
    var want0, want1 := if n >= 0 then 1 else 2, if n >= 0 then 3 else 0;
    assert want0 in b && want1 in b;
    var p :| 0 <= p < 4 && b[p] == want0;
    if p != 0 {
      ExampleStep(b, n, 0, p);
    }
    assert b[0] == want0;
    var q :| 0 <= q < 4 && b[q] == want1;
    if q != 1 {
      assert q > 1;
      ExampleStep(b, n, 1, q);
    }
  }

  /**
    The only grades of {3, 1, 4, 2} a rearrangement with an ordered,
    leading prefix of at least two positions can be.
  */
  lemma ExampleOrder(b: seq<nat>, n: int)
    requires n == 0 || n == -1 || n == 2 || n == -2
    requires |b| == 4 && IsPermutation(b, 4) && (forall i :: 0 <= i < 4 ==> b[i] < 4)
    requires forall i, j :: 0 <= i < j < SortedCount(n, 4) ==> !Precedes([3, 1, 4, 2], n, b[j], b[i])
    requires forall i, j :: 0 <= i < SortedCount(n, 4) <= j < 4 ==> !Precedes([3, 1, 4, 2], n, b[j], b[i])
    ensures n == 0 ==> Selects([3, 1, 4, 2], b, [1, 2, 3, 4])
    ensures n == 2 ==> Selects([3, 1, 4, 2], b, [1, 2])
    ensures n == -1 ==> Selects([3, 1, 4, 2], b, [4, 3, 2, 1])
    ensures n == -2 ==> Selects([3, 1, 4, 2], b, [4, 3])
  {
    ExampleLeading(b, n);
    if n == 0 || n == -1 {
      PermutationDistinct(b, 4);
      PermutationCovers(b, 4);
      var want2 := if n == 0 then 0 else 3;
      assert want2 in b;
      assert b[2] == want2;
    }
  }

  /**
    The checks of the `grade` test on {3, 1, 4, 2}: a full ascending grade,
    the two smallest, a full descending grade and the two largest.
  */
  method GradeExamples() returns (up: seq<nat>, low2: seq<nat>, down: seq<nat>, high2: seq<nat>)
    ensures Selects([3, 1, 4, 2], up, [1, 2, 3, 4])
    ensures Selects([3, 1, 4, 2], low2, [1, 2])
    ensures Selects([3, 1, 4, 2], down, [4, 3, 2, 1])
    ensures Selects([3, 1, 4, 2], high2, [4, 3])
  {
    var a: seq<int> := [3, 1, 4, 2];
    assert |a| == 4;
    up := GradeOf(a, 0);
    ExampleOrder(up, 0);
    low2 := GradeOf(a, 2);
    ExampleOrder(low2, 2);
    down := GradeOf(a, -1);
    ExampleOrder(down, -1);
    high2 := GradeOf(a, -2);
    ExampleOrder(high2, -2);
  }
}

=== FILE: range_mask.dfy ===
/**
  `mask(m)(i)` of functional/range.h: the position of the i-th set flag of
  a boolean range, or `size_t(-1)` when there are not that many.
*/
module Mask {
  /** `static_cast<size_t>(-1)` with a 64-bit `size_t`. */
  const NotFound: nat := 0xFFFF_FFFF_FFFF_FFFF

  /** Number of set flags among the first j. */
  function CountTrue(m: seq<bool>, j: nat): (c: nat)
    requires j <= |m|
    ensures c <= j
  {
    if j == 0 then 0 else CountTrue(m, j - 1) + (if m[j - 1] then 1 else 0)
  }

  /**
    The scan of `mask`, from position j with i more set flags to skip: the
    first set flag met with nothing left to skip is the answer.
  */
  function MaskFrom(m: seq<bool>, i: nat, j: nat): (r: nat)
    requires j <= |m|
    decreases |m| - j
  {
    if j == |m| then NotFound
    else if m[j] then (if i == 0 then j else MaskFrom(m, i - 1, j + 1))
    else MaskFrom(m, i, j + 1)
  }

  /** `mask(m)(i)`. */
  function MaskAt(m: seq<bool>, i: nat): nat
  {
    MaskFrom(m, i, 0)
  }

  /** The scan from j finds the set flag preceded by i set flags from j on. */
  lemma {:induction false} MaskFromSpec(m: seq<bool>, i: nat, j: nat)
    requires j <= |m| < NotFound
    ensures MaskFrom(m, i, j) == NotFound <==> CountTrue(m, |m|) - CountTrue(m, j) <= i
    ensures MaskFrom(m, i, j) != NotFound ==>
      j <= MaskFrom(m, i, j) < |m| && m[MaskFrom(m, i, j)] && CountTrue(m, MaskFrom(m, i, j)) - CountTrue(m, j) == i
    decreases |m| - j
  {
    if j < |m| {
      if m[j] && i == 0 {
        CountTrueMono(m, j + 1, |m|);
      } else if m[j] {
        MaskFromSpec(m, i - 1, j + 1);
      } else {
        MaskFromSpec(m, i, j + 1);
      }
    }
  }

  lemma {:induction false} CountTrueMono(m: seq<bool>, j: nat, k: nat)
    requires j <= k <= |m|
    ensures CountTrue(m, j) <= CountTrue(m, k)
    decreases k - j
  {
    if j < k {
      CountTrueMono(m, j, k - 1);
    }
  }

  /**
    `mask(m)(i)` is the position of the set flag with exactly i set flags
    before it, and the sentinel exactly when there are at most i set flags.
  */
  lemma MaskSpec(m: seq<bool>, i: nat)
    requires |m| < NotFound
    ensures MaskAt(m, i) == NotFound <==> CountTrue(m, |m|) <= i
    ensures MaskAt(m, i) != NotFound ==>
      MaskAt(m, i) < |m| && m[MaskAt(m, i)] && CountTrue(m, MaskAt(m, i)) == i
  {
    MaskFromSpec(m, i, 0);
  }

  /**
    The loop of `mask`: the counter i is decremented on every set flag and
    the position is returned when the flag is met with the counter at zero.
  */
  method Scan(m: seq<bool>, i: nat) returns (r: nat)
    ensures r == MaskAt(m, i)
  {
    var k := i;
    var j := 0;
    while j < |m|
      invariant 0 <= j <= |m|
      invariant MaskFrom(m, k, j) == MaskAt(m, i)
    {
      if m[j] {
        if k == 0 {
          return j;
        }
        k := k - 1;
      }
      j := j + 1;
    }
    return NotFound;
  }

  /** The `mask` test on {true, false, true}. */
  lemma MaskExamples()
    ensures MaskAt([true, false, true], 0) == 0
    ensures MaskAt([true, false, true], 1) == 2
    ensures MaskAt([true, false, true], 2) == NotFound
  {
  }
}

=== FILE: rows.dfy ===
/**
  `row<T>` of functional/row_iterator.h: a view of `c` consecutive elements
  of a flat array, kept as a width and a `wrapper` whose position moves in
  steps of c. The `wrap<T>` the header names is the `wrapper<T>` of
  functional/range.h. Storage is a sequence of reals, positions are offsets.
*/
module Rows {
  import opened Wrappers
  import opened Range

  /** `row<T>`: width `c` and the wrapped range `r`. */
  datatype Row = Row(c: nat, r: Wrapper)
  {
    /** The offset of the row's first element. */
    function Start(): int { r.base }
  }

  /** The first c elements from the row's start lie in the storage. */
  ghost predicate InStorage(s: seq<real>, x: Row)
  {
    0 <= x.Start() && x.Start() + x.c <= |s|
  }

  /** The c elements `[t_, t_ + c_)` that comparison and `swap` act on. */
  function Elements(s: seq<real>, x: Row): seq<real>
    requires InStorage(s, x)
  {
    s[x.Start() .. x.Start() + x.c]
  }

  /** `row(r, c)`. */
  function Make(r: Wrapper, c: nat): (x: Row)
    ensures x.c == c && x.r == r
  {
    Row(c, r)
  }

  /** `operator[](i)`: element i of the wrapped range, indexed cyclically over its length. */
  function Get(s: seq<real>, x: Row, i: int): (v: real)
    requires x.r.size > 0
    requires 0 <= x.Start() + Index(i, x.r.size) < |s|
    ensures 0 <= i < x.r.size ==> v == s[x.Start() + i]
  {
    IndexInRange(i, x.r.size);
    s[x.Start() + Index(i, x.r.size)]
  }

  /** Prefix `++`: the start moves c elements on; the wrapped length is kept. */
  function Inc(x: Row): (y: Row)
    ensures y.c == x.c && y.r.size == x.r.size && y.Start() == x.Start() + x.c
  {
    x.(r := Wrapper(x.r.size, x.r.base + x.c))
  }

  /** Prefix `--`: the start moves c elements back; the wrapped length is kept. */
  function Dec(x: Row): (y: Row)
    ensures y.c == x.c && y.r.size == x.r.size && y.Start() == x.Start() - x.c
  {
    x.(r := Wrapper(x.r.size, x.r.base - x.c))
  }

  /** Postfix `++`: the row before the step, and the row after it. */
  function PostInc(x: Row): (p: (Row, Row))
    ensures p.0 == x && p.1 == Inc(x)
  {
    (x, Inc(x))
  }

  /** Postfix `--`, taken as the step back its body evidently means. */
  function PostDec(x: Row): (p: (Row, Row))
    ensures p.0 == x && p.1 == Dec(x)
  {
    (x, Dec(x))
  }

  /** `+=` and `+`: the start moves n rows on and the wrapped length shrinks by as many elements, modulo 2^64. */
  function Plus(x: Row, n: nat): (y: Row)
    ensures y.c == x.c && y.Start() == x.Start() + n * x.c
    ensures n * x.c <= x.r.size < Modulus ==> y.r.size == x.r.size - n * x.c
    ensures y.r.size < Modulus && (y.r.size - (x.r.size - n * x.c)) % Modulus == 0
  {
    Row(x.c, Wrapper(WrapSize(x.r.size - n * x.c), x.r.base + n * x.c))
  }

  /** `-=` and `-`: the start moves n rows back; the wrapped length shrinks by n * c as well. */
  function Minus(x: Row, n: nat): (y: Row)
    ensures y.c == x.c && y.Start() == x.Start() - n * x.c
    ensures n * x.c <= x.r.size < Modulus ==> y.r.size == x.r.size - n * x.c
    ensures y.r.size < Modulus && (y.r.size - (x.r.size - n * x.c)) % Modulus == 0
  {
    Row(x.c, Wrapper(WrapSize(x.r.size - n * x.c), x.r.base - n * x.c))
  }

  /** n single steps and one `+= n` reach the same start. */
  lemma {:induction false} PlusIsRepeatedInc(x: Row, n: nat)
    ensures Plus(x, n).Start() == StepOn(x, n).Start()
  {
    if n > 0 {
      PlusIsRepeatedInc(x, n - 1);
      assert n * x.c == (n - 1) * x.c + x.c;
    }
  }

  /** The row reached by n prefix increments. */
  function StepOn(x: Row, n: nat): (y: Row)
    ensures y.c == x.c && y.r.size == x.r.size
  {
    if n == 0 then x else Inc(StepOn(x, n - 1))
  }

  /** `--` undoes `++`, and `-` undoes `+` on the start. */
  lemma StepsUndo(x: Row, n: nat)
    ensures Dec(Inc(x)) == x
    ensures Minus(Plus(x, n), n).Start() == x.Start()
  {
  }

  // ---------------------------------------------------------------------
  // Row difference

  /**
    `r1 - r2` as written: the signed element offset divided by the unsigned
    width, so the offset is first taken modulo 2^64 and the unsigned
    quotient read back as a signed 64-bit value.
  */
  function DiffAsWritten(x: Row, y: Row): (d: Result<int>)
    requires x.c > 0
    requires -Modulus / 2 <= x.Start() - y.Start() < Modulus / 2
    ensures d.Success? <==> x.c == y.c
  {
    if x.c != y.c then Failure("ensure (c_ == r.c_)")
    else
      var q := WrapSize(x.Start() - y.Start()) / x.c;
      Success(if q >= Modulus / 2 then q - Modulus else q)
  }

  /** `r1 - r2` with signed division: the number of rows between the two starts. */
  function Diff(x: Row, y: Row): (d: Result<int>)
    requires x.c > 0
    ensures d.Success? <==> x.c == y.c
  {
    if x.c != y.c then Failure("ensure (c_ == r.c_)")
    else Success(TruncDiv(x.Start() - y.Start(), x.c))
  }

  /** Two rows of one width n * c elements apart are n rows apart, either way round. */
  lemma DiffOfOffset(x: Row, y: Row, n: nat)
    requires x.c > 0 && y.c == x.c
    requires y.Start() - x.Start() == n * x.c
    ensures Diff(y, x) == Success(n)
    ensures Diff(x, y) == Success(-(n as int))
  {
    var k := n * x.c;
    ModUnique(k, x.c, n, 0);
    assert TruncDiv(k, x.c) == n;
    var m: int := n;
    assert TruncDiv(-k, x.c) == -m;
  }

  /** Row difference inverts `+`: n rows on is n ahead and the original is n behind. */
  lemma DiffInvertsPlus(x: Row, n: nat)
    requires x.c > 0
    ensures Diff(Plus(x, n), x) == Success(n)
    ensures Diff(x, Plus(x, n)) == Success(-(n as int))
  {
    DiffOfOffset(x, Plus(x, n), n);
  }

  /** Rows 0 and 2 of width 2, as written: 2^63 - 2 rows apart instead of -2. */
  lemma DiffAsWrittenNegative()
    ensures var r0 := Make(Wrapper(6, 0), 2);
      DiffAsWritten(r0, Plus(r0, 2)) == Success(Modulus / 2 - 2)
      && Diff(r0, Plus(r0, 2)) == Success(-2)
  {
  }

  // ---------------------------------------------------------------------
  // Comparison

  /** `std::lexicographical_compare` on two sequences. */
  function LexLess(a: seq<real>, b: seq<real>): bool
  {
    if |a| == 0 then |b| > 0
    else if |b| == 0 then false
    else if a[0] < b[0] then true
    else if b[0] < a[0] then false
    else LexLess(a[1..], b[1..])
  }

  /** `==`: equal widths and equal elements. */
  function Eq(s: seq<real>, x: Row, y: Row): bool
    requires InStorage(s, x) && InStorage(s, y)
  {
    x.c == y.c && Elements(s, x) == Elements(s, y)
  }

  /** `<`: narrower first, then lexicographic order of the elements. */
  function Less(s: seq<real>, x: Row, y: Row): bool
    requires InStorage(s, x) && InStorage(s, y)
  {
    x.c < y.c || (x.c == y.c && LexLess(Elements(s, x), Elements(s, y)))
  }

  lemma {:induction false} LexLessIrreflexive(a: seq<real>)
    ensures !LexLess(a, a)
  {
    if |a| > 0 {
      LexLessIrreflexive(a[1..]);
    }
  }

  lemma {:induction false} LexLessTransitive(a: seq<real>, b: seq<real>, c: seq<real>)
    requires LexLess(a, b) && LexLess(b, c)
    ensures LexLess(a, c)
  {
    if |a| > 0 && |b| > 0 && |c| > 0 && a[0] == b[0] && b[0] == c[0] {
      LexLessTransitive(a[1..], b[1..], c[1..]);
    }
  }

  /** On sequences of one length exactly one of a < b, a == b, b < a holds. */
  lemma {:induction false} LexLessTrichotomy(a: seq<real>, b: seq<real>)
    requires |a| == |b|
    ensures (LexLess(a, b) || a == b || LexLess(b, a))
    ensures !(LexLess(a, b) && LexLess(b, a))
    ensures a == b ==> !LexLess(a, b)
  {
    if |a| > 0 {
      LexLessTrichotomy(a[1..], b[1..]);
      if a[0] == b[0] && a[1..] == b[1..] {
        assert a == [a[0]] + a[1..] && b == [b[0]] + b[1..];
      }
    }
  }

  /** Row `<` is a strict total order on rows up to `==`. */
  lemma LessTotal(s: seq<real>, x: Row, y: Row, z: Row)
    requires InStorage(s, x) && InStorage(s, y) && InStorage(s, z)
    ensures !Less(s, x, x)
    ensures Less(s, x, y) && Less(s, y, z) ==> Less(s, x, z)
    ensures Less(s, x, y) || Eq(s, x, y) || Less(s, y, x)
    ensures !(Less(s, x, y) && Eq(s, x, y)) && !(Less(s, x, y) && Less(s, y, x))
  {
    LexLessIrreflexive(Elements(s, x));
    if x.c == y.c {
      LexLessTrichotomy(Elements(s, x), Elements(s, y));
    }
    if x.c == y.c && y.c == z.c && LexLess(Elements(s, x), Elements(s, y)) && LexLess(Elements(s, y), Elements(s, z)) {
      LexLessTransitive(Elements(s, x), Elements(s, y), Elements(s, z));
    }
  }

  // ---------------------------------------------------------------------
  // Content swap

  /** The storage after exchanging the c elements at offsets p and q. */
  function Exchanged(s: seq<real>, p: int, q: int, c: nat): (t: seq<real>)
    requires 0 <= p && p + c <= |s| && 0 <= q && q + c <= |s|
    ensures |t| == |s|
  {
    seq(|s|, k requires 0 <= k < |s| =>
      if p <= k < p + c then s[k - p + q]
      else if q <= k < q + c then s[k - q + p]
      else s[k])
  }

  /** The two element ranges of `std::swap_ranges` do not overlap. */
  ghost predicate Disjoint(p: int, q: int, c: nat)
  {
    p + c <= q || q + c <= p
  }

  /**
    `swap`: for equal widths, the elements of the two rows are exchanged
    with `std::swap_ranges`, or nothing happens when they start together.
  */
  method Swap(s: seq<real>, x: Row, y: Row) returns (res: Result<seq<real>>)
    requires InStorage(s, x) && InStorage(s, y)
    requires x.c == y.c && x.Start() != y.Start() ==> Disjoint(x.Start(), y.Start(), x.c)
    ensures res.Success? <==> x.c == y.c
    ensures res.Success? ==> res.value == Exchanged(s, x.Start(), y.Start(), x.c)
  {
    if x.c != y.c {
      return Failure("ensure (c_ == r.c_)");
    }
    var t := s;
    if x.Start() != y.Start() {
      var p, q := x.Start(), y.Start();
      assert Disjoint(p, q, x.c);
      var k := 0;
      while k < x.c
        invariant 0 <= k <= x.c && |t| == |s|
        invariant forall j :: 0 <= j < |s| ==> t[j] == Exchanged(s, p, q, k)[j]
      {
        var a, b := t[p + k], t[q + k];
        assert a == s[p + k] && b == s[q + k];
        t := t[p + k := b][q + k := a];
        k := k + 1;
      }
      assert t == Exchanged(s, p, q, x.c);
    }
    return Success(t);
  }

  /** Swapping makes each row hold the other's former elements and leaves all else in place. */
  lemma SwapExchanges(s: seq<real>, x: Row, y: Row)
    requires InStorage(s, x) && InStorage(s, y) && x.c == y.c
    requires x.Start() != y.Start() ==> Disjoint(x.Start(), y.Start(), x.c)
    ensures var t := Exchanged(s, x.Start(), y.Start(), x.c);
      && InStorage(t, x) && InStorage(t, y)
      && Elements(t, x) == Elements(s, y) && Elements(t, y) == Elements(s, x)
      && (forall k :: 0 <= k < |s| && !(x.Start() <= k < x.Start() + x.c) && !(y.Start() <= k < y.Start() + y.c)
            ==> t[k] == s[k])
      && (x.Start() == y.Start() ==> t == s)
  {
    var p, q, c := x.Start(), y.Start(), x.c;
    var t := Exchanged(s, p, q, c);
    forall k | 0 <= k < c
      ensures Elements(t, x)[k] == Elements(s, y)[k] && Elements(t, y)[k] == Elements(s, x)[k]
    {
      assert Elements(t, x)[k] == t[p + k] && Elements(t, y)[k] == t[q + k];
    }
    assert Elements(t, x) == Elements(s, y);
    assert Elements(t, y) == Elements(s, x);
  }

  /** Swapping twice restores the storage. */
  lemma SwapTwice(s: seq<real>, p: int, q: int, c: nat)
    requires 0 <= p && p + c <= |s| && 0 <= q && q + c <= |s|
    requires p != q ==> Disjoint(p, q, c)
    ensures Exchanged(Exchanged(s, p, q, c), p, q, c) == s
  {
  }

  // ---------------------------------------------------------------------
  // The row test

  /**
    Over {1, ..., 6} with width 2: element access, `++` reaching r0 + 1,
    postfix `++` returning that row and landing on r0 + 2, and `std::swap`
    of the two row views.
  */
  lemma RowScenario()
    ensures var s, r0 := [1.0, 2.0, 3.0, 4.0, 5.0, 6.0], Make(Wrapper(6, 0), 2);
      var r1, r2 := Plus(r0, 1), Plus(r0, 2);
      && Get(s, r0, 0) == 1.0 && Get(s, r2, 1) == 6.0
      && Eq(s, Inc(r0), r1)
      && Eq(s, PostInc(Inc(r0)).0, r1) && Eq(s, PostInc(Inc(r0)).1, r2)
      && Get(s, r2, 0) == 5.0 && Get(s, r1, 0) == 3.0
  {
  }
}

=== FILE: series.dfy ===
/** Finite sums and products over the reals shared by the polynomial and curve models. */
module Series {

  /** x to the power i. */
  function Pow(x: real, i: nat): real
  {
    if i == 0 then 1.0 else x * Pow(x, i - 1)
  }

  /** i factorial, as a real. */
  function Fact(i: nat): (r: real)
    ensures r >= 1.0
  {
    if i == 0 then 1.0 else (i as real) * Fact(i - 1)
  }

  /** The rising factorial f (f + 1) ... (f + i - 1). */
  function Rising(f: real, i: nat): (r: real)
    requires f > 0.0
    ensures r > 0.0
  {
    if i == 0 then 1.0 else Rising(f, i - 1) * (f + (i - 1) as real)
  }

  /** Sum over i < n of p[i] x^i. */
  function PolySum(p: seq<real>, n: nat, x: real): real
    requires n <= |p|
  {
    if n == 0 then 0.0 else PolySum(p, n - 1, x) + p[n - 1] * Pow(x, n - 1)
  }

  /** The term c x^i / (f (f + 1) ... (f + i - 1)). */
  function RisingTerm(c: real, x: real, f: real, i: nat): real
    requires f > 0.0
  {
    c * Pow(x, i) / Rising(f, i)
  }

  /** Sum over i < n of p[i] x^i / (f (f + 1) ... (f + i - 1)). */
  function RisingSum(p: seq<real>, n: nat, x: real, f: real): real
    requires n <= |p|
    requires f > 0.0
  {
    if n == 0 then 0.0 else RisingSum(p, n - 1, x, f) + RisingTerm(p[n - 1], x, f, n - 1)
  }

  /** Sum over i < n of p[i] x^i / i!. */
  function TaylorSum(p: seq<real>, n: nat, x: real): real
    requires n <= |p|
  {
    if n == 0 then 0.0 else TaylorSum(p, n - 1, x) + p[n - 1] * Pow(x, n - 1) / Fact(n - 1)
  }

  /** Factoring x out of the tail of a sum. */
  lemma Distrib(a: real, x: real, s: real, c: real, q: real)
    ensures a + x * s + c * (x * q) == a + x * (s + c * q)
  {
  }

  /** Moving one factor of x and one of f out of a quotient. */
  lemma FracShift(c: real, x: real, q: real, f: real, r: real)
    requires f != 0.0 && r != 0.0
    ensures c * (x * q) / (f * r) == (x / f) * (c * q / r)
  {
    assert (x / f) * (c * q / r) * (f * r) == c * (x * q);
  }

  /** The rising factorial starting at 1 is the factorial. */
  lemma {:induction false} RisingOneIsFact(i: nat)
    ensures Rising(1.0, i) == Fact(i)
  {
    hide Rising, Fact;
    if i > 0 {
      var c := i as real;
      RisingStep(1.0, i - 1, i, c);
      FactStep(i - 1, i, c);
      RisingOneIsFact(i - 1);
    } else {
      RisingZero(1.0);
      FactZero();
    }
  }

  /** One more factor of a factorial, with c standing for j. */
  lemma FactStep(i: nat, j: nat, c: real)
    requires j == i + 1 && c == j as real
    ensures Fact(j) == c * Fact(i)
  {
  }

  lemma FactZero()
    ensures Fact(0) == 1.0
  {
  }

  /** Peeling the first factor off a rising factorial. */
  lemma {:induction false} RisingShift(f: real, i: nat)
    requires f > 0.0
    ensures Rising(f, i + 1) == f * Rising(f + 1.0, i)
  {
    hide Rising;
    var c := f + i as real;
    RisingStep(f, i, i + 1, c);
    if i > 0 {
      RisingStep(f + 1.0, i - 1, i, c);
      RisingShift(f, i - 1);
      Regroup(Rising(f, i), f, Rising(f + 1.0, i - 1), c);
    } else {
      RisingZero(f);
      RisingZero(f + 1.0);
    }
  }

  lemma RisingZero(f: real)
    requires f > 0.0
    ensures Rising(f, 0) == 1.0
  {
  }

  /** One more factor of a rising factorial, with c standing for f + i. */
  lemma RisingStep(f: real, i: nat, j: nat, c: real)
    requires f > 0.0
    requires j == i + 1 && c == f + i as real
    ensures Rising(f, j) == Rising(f, i) * c
  {
  }

  /** (f r) c == f (r c), with q standing for f r. */
  lemma Regroup(q: real, f: real, r: real, c: real)
    requires q == f * r
    ensures q * c == f * (r * c)
  {
  }

  /** With f = 1 the rising-factorial sum is the Taylor sum. */
  lemma {:induction false} RisingSumOneIsTaylor(p: seq<real>, n: nat, x: real)
    requires n <= |p|
    ensures RisingSum(p, n, x, 1.0) == TaylorSum(p, n, x)
  {
    if n > 0 {
      RisingSumOneIsTaylor(p, n - 1, x);
      RisingOneIsFact(n - 1);
    }
  }
}

=== FILE: spline_struct.dfy ===
/**
  `basis_spline_struct<U,K>` and its order-0 specialisation from
  functional/basis_spline.h. The struct holds n and a knot pointer; here it
  is its knot sequence t, so `size()`, `knots()` and `knot(i)` are |t|, t
  and t[i]. Unlike `basis_spline_func`, its `operator()` applies the
  Cox-de Boor recursion without first testing the support.
*/
module SplineStruct {
  import opened Wrappers
  import BasisSpline

  /** `basis_spline_struct<U,K>(n, t)(i, x)` once its range check has passed. */
  function S(t: seq<real>, k: nat, i: nat, x: real): real
    requires i + k + 1 < |t|
    decreases k
  {
    if k == 0 then (if t[i] <= x < t[i + 1] then 1.0 else 0.0)
    else
      BasisSpline.Term(x - t[i], S(t, k - 1, i, x), t[i + k] - t[i])
      + BasisSpline.Term(t[i + k + 1] - x, S(t, k - 1, i + 1, x), t[i + k + 1] - t[i + 1])
  }

  /** `operator()(i, x)`, with the range check of each order. */
  function Value(t: seq<real>, k: nat, i: nat, x: real): (r: Result<real>)
    ensures r.Success? <==> i + k + 1 < |t|
    ensures r.Failure? ==> r.error == BasisSpline.RangeMessage(k)
    ensures r.Success? && BasisSpline.Nondecreasing(t) ==> r == BasisSpline.Value(t, k, i, x)
  {
    if i + k + 1 < |t| then
      Agrees(t, k, i, x);
      Success(S(t, k, i, x))
    else Failure(BasisSpline.RangeMessage(k))
  }

  /**
    With knots that do not decrease, leaving out the support test changes
    nothing: the struct and `basis_spline_func` agree.
  */
  lemma {:induction false} Agrees(t: seq<real>, k: nat, i: nat, x: real)
    requires i + k + 1 < |t|
    ensures BasisSpline.Nondecreasing(t) ==> S(t, k, i, x) == BasisSpline.B(t, k, i, x)
    decreases k
  {
    if k > 0 && BasisSpline.Nondecreasing(t) {
      Agrees(t, k - 1, i, x);
      Agrees(t, k - 1, i + 1, x);
      if x < t[i] || x >= t[i + k + 1] {
        assert t[i] <= t[i + 1] && t[i + k] <= t[i + k + 1];
        OutsideStep(t, k, i, x);
      } else {
        InsideStep(t, k, i, x);
      }
    }
  }

  /** Outside [t[i], t[i+k+1]) the struct recursion gives 0 when both lower-order values are 0. */
  lemma OutsideStep(t: seq<real>, k: nat, i: nat, x: real)
    requires 0 < k && i + k + 1 < |t|
    requires x < t[i] || x >= t[i + k + 1]
    requires t[i] <= t[i + 1] && t[i + k] <= t[i + k + 1]
    requires S(t, k - 1, i, x) == BasisSpline.B(t, k - 1, i, x)
    requires S(t, k - 1, i + 1, x) == BasisSpline.B(t, k - 1, i + 1, x)
    ensures S(t, k, i, x) == 0.0 == BasisSpline.B(t, k, i, x)
  {
    assert BasisSpline.B(t, k - 1, i, x) == 0.0 && BasisSpline.B(t, k - 1, i + 1, x) == 0.0;
    assert BasisSpline.B(t, k, i, x) == 0.0;
    SUnfold(t, k, i, x);
    hide *;
    TermOfZero(x - t[i], t[i + k] - t[i]);
    TermOfZero(t[i + k + 1] - x, t[i + k + 1] - t[i + 1]);
  }

  /** A Cox-de Boor term of a vanishing lower-order value vanishes. */
  lemma TermOfZero(a: real, d: real)
    ensures BasisSpline.Term(a, 0.0, d) == 0.0
  {
  }

  /** Inside the support both recursions combine equal lower-order values the same way. */
  lemma InsideStep(t: seq<real>, k: nat, i: nat, x: real)
    requires 0 < k && i + k + 1 < |t|
    requires t[i] <= x < t[i + k + 1]
    requires S(t, k - 1, i, x) == BasisSpline.B(t, k - 1, i, x)
    requires S(t, k - 1, i + 1, x) == BasisSpline.B(t, k - 1, i + 1, x)
    ensures S(t, k, i, x) == BasisSpline.B(t, k, i, x)
  {
    SUnfold(t, k, i, x);
    BasisSpline.Unfold(t, k, i, x);
  }

  /** The struct recursion at order k > 0. */
  lemma SUnfold(t: seq<real>, k: nat, i: nat, x: real)
    requires 0 < k && i + k + 1 < |t|
    ensures S(t, k, i, x) == BasisSpline.Term(x - t[i], S(t, k - 1, i, x), t[i + k] - t[i])
                           + BasisSpline.Term(t[i + k + 1] - x, S(t, k - 1, i + 1, x), t[i + k + 1] - t[i + 1])
  {
  }

  /** Equal lower-order values give equal derivatives. */
  lemma DerivStep(t: seq<real>, k: nat, i: nat, x: real)
    requires 1 <= k && i + k + 1 < |t|
    requires BasisSpline.GapsNonzero(t, k, i)
    ensures S(t, k - 1, i, x) == BasisSpline.B(t, k - 1, i, x) && S(t, k - 1, i + 1, x) == BasisSpline.B(t, k - 1, i + 1, x)
            ==> Deriv(t, k, i, x) == BasisSpline.Deriv(t, k, i, x)
  {
    hide S, BasisSpline.B, BasisSpline.DerivFormula;
  }

  /** Without ordered knots the two disagree: t = 0, 2, 1 at x = 1.5. */
  lemma AgreementNeedsOrderedKnots()
    ensures S([0.0, 2.0, 1.0], 1, 0, 1.5) == 0.75
    ensures BasisSpline.B([0.0, 2.0, 1.0], 1, 0, 1.5) == 0.0
  {
    var t := [0.0, 2.0, 1.0];
    assert S(t, 0, 0, 1.5) == 1.0;
    assert S(t, 0, 1, 1.5) == 0.0;
  }

  /** `derivative(i, x)` for K >= 1 once the range checks have passed. */
  function Deriv(t: seq<real>, k: nat, i: nat, x: real): real
    requires 1 <= k
    requires i + k + 1 < |t|
    requires BasisSpline.GapsNonzero(t, k, i)
  {
    BasisSpline.DerivFormula(k as real, S(t, k - 1, i, x), t[i + k] - t[i], S(t, k - 1, i + 1, x), t[i + k + 1] - t[i + 1])
  }

  /** `derivative(i, x)` for K >= 1: the range checks of order K - 1 at i and i + 1. */
  function Derivative(t: seq<real>, k: nat, i: nat, x: real): (r: Result<real>)
    requires 1 <= k
    requires i + k + 1 < |t| ==> BasisSpline.GapsNonzero(t, k, i)
    ensures r.Success? <==> i + k + 1 < |t|
    ensures r.Failure? ==> r.error == BasisSpline.RangeMessage(k - 1)
    ensures BasisSpline.Nondecreasing(t) ==> r == BasisSpline.Derivative(t, k, i, x)
  {
    if i + k + 1 < |t| then
      Agrees(t, k - 1, i, x);
      Agrees(t, k - 1, i + 1, x);
      DerivStep(t, k, i, x);
      Success(Deriv(t, k, i, x))
    else Failure(BasisSpline.RangeMessage(k - 1))
  }

  /** Sum of S(t, k, m, x) over m from j while m + k + 1 < n. */
  function Sum(t: seq<real>, k: nat, j: nat, x: real): real
    decreases |t| - j
  {
    if j + k + 1 < |t| then S(t, k, j, x) + Sum(t, k, j + 1, x) else 0.0
  }

  /** With ordered knots the struct's sums are those of `basis_spline_func`. */
  lemma {:induction false} SumAgrees(t: seq<real>, k: nat, j: nat, x: real)
    ensures BasisSpline.Nondecreasing(t) ==> Sum(t, k, j, x) == BasisSpline.BasisSum(t, k, j, x)
    decreases |t| - j
  {
    if j + k + 1 < |t| && BasisSpline.Nondecreasing(t) {
      Agrees(t, k, j, x);
      SumAgrees(t, k, j + 1, x);
    }
  }

  /** `integral(i, x)` for K >= 1: (t[i+K+1] - t[i])/(K+1) times the order K + 1 sum. */
  function Integral(t: seq<real>, k: nat, i: nat, x: real): (r: real)
    requires 1 <= k
    requires i + k + 1 < |t|
    ensures BasisSpline.Nondecreasing(t) ==> r == BasisSpline.Integral(t, k, i, x)
  {
    var r := Sum(t, k + 1, i, x) * BasisSpline.Weight(t, k, i);
    IntegralAgrees(t, k, i, x);
    r
  }

  /** The struct's order-k integral formula is that of `basis_spline_func` for ordered knots. */
  lemma IntegralAgrees(t: seq<real>, k: nat, i: nat, x: real)
    requires i + k + 1 < |t|
    ensures BasisSpline.Nondecreasing(t) ==> Sum(t, k + 1, i, x) * BasisSpline.Weight(t, k, i) == BasisSpline.Integral(t, k, i, x)
  {
    hide Sum, BasisSpline.BasisSum, BasisSpline.Weight, S, BasisSpline.B;
    SumAgrees(t, k + 1, i, x);
  }

  /**
    The order-0 `integral(i, x)`: the sum of order-1 splines from i times
    t[i+1] - t[i], which is the general formula at K = 0.
  */
  function IntegralOrderZero(t: seq<real>, i: nat, x: real): (r: real)
    requires i + 1 < |t|
    ensures BasisSpline.Nondecreasing(t) ==> r == BasisSpline.Integral(t, 0, i, x)
  {
    SumAgrees(t, 1, i, x);
    assert BasisSpline.Weight(t, 0, i) == t[i + 1] - t[i];
    Sum(t, 1, i, x) * (t[i + 1] - t[i])
  }

  /** The accumulation loop shared by both `integral`s, order k + 1 summed from i. */
  method SumLoop(t: seq<real>, k: nat, i: nat, x: real) returns (r: real)
    ensures r == Sum(t, k, i, x)
  {
    r := 0.0;
    var j := i;
    while j + k + 1 < |t|
      invariant i <= j
      invariant r + Sum(t, k, j, x) == Sum(t, k, i, x)
      decreases |t| - j
    {
      r := r + S(t, k, j, x);
      j := j + 1;
    }
  }
}

=== FILE: srng.dfy ===
/**
  The multiply-with-carry generator `srng` of numerical/srng.h: two 32-bit
  state words, each stepped by a 16-bit multiply-with-carry, and a 32-bit
  output combining the two. Bit operations on `uint32_t` are written as
  arithmetic: `x & 0xFFFF` is x % 2^16, `x >> 16` is x / 2^16, and `x << 16`
  is x * 2^16 reduced modulo 2^32.
*/
module Srng {
  import opened Range

  const Half: nat := 0x1_0000
  const Word32: nat := 0x1_0000_0000

  /** A `uint32_t`. */
  type Word = x: nat | x < 0x1_0000_0000

  /** The state `s_[0]`, `s_[1]`. */
  datatype Srng = Srng(s0: Word, s1: Word)

  /** `srng(s0, s1)`; copy construction and assignment copy both words. */
  function Make(s0: Word, s1: Word): Srng
  {
    Srng(s0, s1)
  }

  /** `seed(s0, s1)`: the previous state is replaced. */
  function Seed(g: Srng, s0: Word, s1: Word): (h: Srng)
    ensures Eq(h, Make(s0, s1))
  {
    Srng(s0, s1)
  }

  /** `seed(s[2])`. */
  function SeedArray(g: Srng, s: seq<Word>): (h: Srng)
    requires |s| >= 2
    ensures Eq(h, Make(s[0], s[1]))
  {
    Srng(s[0], s[1])
  }

  /** `==`: both words equal. */
  function Eq(g: Srng, h: Srng): bool
  {
    g.s0 == h.s0 && g.s1 == h.s1
  }

  /** `<`: lexicographic on (s0, s1). */
  function Less(g: Srng, h: Srng): bool
  {
    g.s0 < h.s0 || (g.s0 == h.s0 && g.s1 < h.s1)
  }

  /** The operators the test derives from `==` and `<`. */
  function NotEq(g: Srng, h: Srng): bool { !Eq(g, h) }
  function LessEq(g: Srng, h: Srng): bool { !Less(h, g) }
  function Greater(g: Srng, h: Srng): bool { Less(h, g) }
  function GreaterEq(g: Srng, h: Srng): bool { !Less(g, h) }

  /** `==` is equality of the state, and `<` a strict total order consistent with it. */
  lemma OrderConsistent(g: Srng, h: Srng, k: Srng)
    ensures Eq(g, h) <==> g == h
    ensures !Less(g, g)
    ensures Less(g, h) && Less(h, k) ==> Less(g, k)
    ensures Less(g, h) || Eq(g, h) || Less(h, g)
    ensures !(Less(g, h) && Less(h, g)) && !(Less(g, h) && Eq(g, h))
    ensures LessEq(g, h) <==> Less(g, h) || Eq(g, h)
    ensures GreaterEq(g, h) <==> Greater(g, h) || Eq(g, h)
  {
  }

  /**
    The checks of the seed test. r1 and r2 are loaded with the same state g,
    which the source reads from outside. Both then take 1000 `uint()` steps
    with equal outputs, so r3 differs from r2 exactly when the stepped state
    is not (12345678, 87654321). After `r2 = r3` the two are equal, and so
    is the copy `r4` of r3.
  */
  lemma SeedScenario(g: Srng)
    ensures var r1, r2 := g, g;
      Eq(r1, r2) && !Less(r1, r2) && !NotEq(r1, r2) && LessEq(r1, r2) && !Greater(r1, r2) && GreaterEq(r1, r2)
    ensures var r1, r2 := g, g;
      Stream(r1, 1000) == Stream(r2, 1000) && Eq(After(r1, 1000), After(r2, 1000))
    ensures var r2, r3 := After(g, 1000), Make(12345678, 87654321);
      NotEq(r3, r2) <==> r2 != r3
    ensures var r3 := Make(12345678, 87654321); var r2 := r3; var r4 := r3;
      Eq(r3, r2) && Eq(r4, r3) && Eq(r3, Seed(g, 12345678, 87654321))
  {
    Deterministic(g, g, 1000);
  }

  /** One multiply-with-carry step of a word: `a * (s & 0xFFFF) + (s >> 16)` in 32 bits. */
  function Mwc(a: nat, s: Word): Word
  {
    (a * (s % Half) + s / Half) % Word32
  }

  /** `uint()`: the stepped state and the output `(s1 << 16) + s0`, all in 32 bits. */
  function Next(g: Srng): (p: (Srng, Word))
    ensures p.0 == Srng(Mwc(18000, g.s0), Mwc(36969, g.s1))
    ensures p.1 % Half == p.0.s0 % Half && p.1 / Half == (p.0.s1 + p.0.s0 / Half) % Half
  {
    var s1 := Mwc(36969, g.s1);
    var s0 := Mwc(18000, g.s0);
    OutputHalves(s0, s1);
    (Srng(s0, s1), ((s1 * Half) % Word32 + s0) % Word32)
  }

  /** With multipliers below 2^16 the 32-bit step never wraps: at most 36970 * 65535 < 2^32. */
  lemma MwcFits(a: nat, s: Word)
    requires a < Half
    ensures Mwc(a, s) == a * (s % Half) + s / Half
  {
    var lo, hi := s % 0x1_0000, s / 0x1_0000;
    assert lo <= 0xFFFF && hi <= 0xFFFF;
    MulMono(a, 0xFFFF, lo);
    assert lo * 0xFFFF <= 0xFFFF * 0xFFFF;
    assert a * lo + hi < 0x1_0000_0000;
    ModUnique(a * lo + hi, 0x1_0000_0000, 0, a * lo + hi);
  }

  /**
    `(s1 << 16) + s0` in 32 bits: its low half is the low half of s0, and
    its high half s1 plus the carry from s0's high half, modulo 2^16.
  */
  lemma OutputHalves(s0: Word, s1: Word)
    ensures var out := ((s1 * Half) % Word32 + s0) % Word32;
      out % Half == s0 % Half && out / Half == (s1 + s0 / Half) % Half
  {
    var out := ((s1 * Half) % Word32 + s0) % Word32;
    DivMod(s1, Half);
    DivMod(s0, Half);
    var q, r := s1 / Half, s1 % Half;
    var hi, lo := s0 / Half, s0 % Half;
    assert hi < Half;
    assert s1 * Half == q * Word32 + r * Half;
    MulMono(r, Half - 1, Half);
    ModUnique(s1 * Half, Word32, q, r * Half);
    var e, f := (r + hi) / Half, (r + hi) % Half;
    DivMod(r + hi, Half);
    MulMono(f, Half - 1, Half);
    assert r * Half + s0 == e * Word32 + (f * Half + lo);
    ModUnique(r * Half + s0, Word32, e, f * Half + lo);
    assert out == f * Half + lo;
    ModUnique(out, Half, f, lo);
    ModUnique(s1 + hi, Half, q + e, f);
  }

  /** The first k outputs of `uint()` from state g. */
  function Stream(g: Srng, k: nat): (r: seq<Word>)
    ensures |r| == k
    decreases k
  {
    if k == 0 then [] else [Next(g).1] + Stream(Next(g).0, k - 1)
  }

  /** The state after k calls of `uint()`. */
  function After(g: Srng, k: nat): Srng
    decreases k
  {
    if k == 0 then g else After(Next(g).0, k - 1)
  }

  /** Generators with equal state produce the same outputs and stay equal. */
  lemma {:induction false} Deterministic(g: Srng, h: Srng, k: nat)
    requires Eq(g, h)
    ensures Stream(g, k) == Stream(h, k) && Eq(After(g, k), After(h, k))
    decreases k
  {
    if k > 0 {
      Deterministic(Next(g).0, Next(h).0, k - 1);
    }
  }

  /** Stepping k then j times is stepping k + j times, and the outputs concatenate. */
  lemma {:induction false} StreamSplits(g: Srng, k: nat, j: nat)
    ensures Stream(g, k + j) == Stream(g, k) + Stream(After(g, k), j)
    ensures After(g, k + j) == After(After(g, k), j)
    decreases k
  {
    if k > 0 {
      StreamSplits(Next(g).0, k - 1, j);
    }
  }
}

=== FILE: wrappers.dfy ===
/** Failure-carrying results used wherever the library throws from `ensure`. */
module Wrappers {

  /** The outcome of an operation whose precondition check may throw. */
  datatype Result<+T> = Success(value: T) | Failure(error: string) {

    predicate IsFailure() {
      Failure?
    }

    function PropagateFailure<U>(): Result<U>
      requires Failure?
    {
      Failure(error)
    }

    function Extract(): T
      requires Success?
    {
      value
    }
  }

  /** Succeeds with `v` when `cond` holds, and fails with `msg` otherwise. */
  function Ensure<T>(cond: bool, msg: string, v: T): (r: Result<T>)
    ensures r.Success? <==> cond
    ensures r.Success? ==> r.value == v
  {
    if cond then Success(v) else Failure(msg)
  }
}

=== FILE: yield_curve.dfy ===
/**
  The append-only aggregate `pwflat::yield_curve` of curves/yield_curve.h:
  knot and rate vectors kept in lock-step, one knot and one rate appended
  per successful `add`.

  `add` evaluates the new rate before either `push_back`, so when the rate
  computation throws nothing is appended; a `Failure` result stands for
  that exception, and the caller keeps its curve unchanged.
*/
module YieldCurve {
  import opened Wrappers
  import opened PwFlat
  import opened Bootstrap

  /** The knot vector `t_` and the rate vector `f_`. */
  datatype Curve = Curve(t: seq<real>, f: seq<real>)

  /** Knot and rate vectors have equal length. */
  ghost predicate Valid(yc: Curve)
  {
    |yc.t| == |yc.f|
  }

  /** Valid, with strictly increasing knots. */
  ghost predicate Ordered(yc: Curve)
  {
    Valid(yc) && StrictlyIncreasing(yc.t)
  }

  /** The constructor `yield_curve(n, t, f)`: copies of the first n knots and rates. */
  function Make(n: nat, t: seq<real>, f: seq<real>): (yc: Curve)
    requires n <= |t| && n <= |f|
    ensures Valid(yc) && |yc.t| == n
    ensures forall i :: 0 <= i < n ==> yc.t[i] == t[i] && yc.f[i] == f[i]
  {
    Curve(t[..n], f[..n])
  }

  /** `forward()`: a view over the committed knots, with a zero extrapolated rate. */
  function View(yc: Curve): (c: Forward)
    requires Valid(yc)
    ensures |c.t| == |c.f| && c.Size() == |yc.t|
    ensures |yc.t| == 0 ==> c == Empty
    ensures c.t == yc.t && c.f == yc.f && c.extrap == 0.0
  {
    if |yc.t| > 0 then Forward(yc.t, yc.f, 0.0) else Empty
  }

  /** The view of an ordered curve is a well-formed forward curve. */
  lemma ViewWellFormed(yc: Curve)
    requires Ordered(yc)
    ensures WellFormed(View(yc))
  {
  }

  /** The two `push_back`s: the rate to `f_`, the knot to `t_`. */
  function Append(yc: Curve, knot: real, rate: real): Curve
  {
    Curve(yc.t + [knot], yc.f + [rate])
  }

  // ---------------------------------------------------------------------
  // The three `add` overloads as written

  /**
    `add(t, c)` as written: only `bootstrap1`'s checks u > 0 and c > 0 are
    made, so a deposit maturing at or before the last knot is appended.
  */
  function AddDepositAsWritten(yc: Curve, t: real, c: real, solve: Solver): (r: Result<Curve>)
    requires Valid(yc)
    ensures r.Success? <==> t > 0.0 && c > 0.0
    ensures r.Success? ==> r.value.t == yc.t + [t] && |r.value.f| == |yc.f| + 1 && r.value.f[..|yc.f|] == yc.f
  {
    var plan :- DepositPlan(View(yc), t, c);
    Success(Append(yc, t, solve(View(yc), plan)))
  }

  /** `add(t0, c0, t1, c1)` as written: `bootstrap2` checks nothing, so every FRA is appended. */
  function AddFraAsWritten(yc: Curve, t0: real, c0: real, t1: real, c1: real, solve: Solver): (r: Curve)
    requires Valid(yc)
    ensures r.t == yc.t + [t1] && |r.f| == |yc.f| + 1 && r.f[..|yc.f|] == yc.f
  {
    Append(yc, t1, solve(View(yc), FraPlan(View(yc), t0, c0, t1, c1)))
  }

  /** A deposit earlier than the last knot is accepted as written and breaks the knot order. */
  lemma AsWrittenDepositBreaksOrder(solve: Solver)
    ensures Ordered(Curve([2.0], [0.05]))
    ensures AddDepositAsWritten(Curve([2.0], [0.05]), 1.0, 1.05, solve).Success?
    ensures !Ordered(AddDepositAsWritten(Curve([2.0], [0.05]), 1.0, 1.05, solve).value)
  {
    var r := AddDepositAsWritten(Curve([2.0], [0.05]), 1.0, 1.05, solve).value;
    assert r.t[0] == 2.0 && r.t[1] == 1.0;
  }

  /** The same holds for an FRA ending before the last knot. */
  lemma AsWrittenFraBreaksOrder(solve: Solver)
    ensures !Ordered(AddFraAsWritten(Curve([2.0], [0.05]), 0.5, -1.0, 1.0, 1.05, solve))
  {
    var r := AddFraAsWritten(Curve([2.0], [0.05]), 0.5, -1.0, 1.0, 1.05, solve);
    assert r.t[0] == 2.0 && r.t[1] == 1.0;
  }

  // ---------------------------------------------------------------------
  // The three `add` overloads with the maturity check of `bootstrap`

  /**
    `add(m, u, c, p)`: the rate from `bootstrap` (whose precondition rejects
    a last flow not beyond the last knot), then u[m-1] as the new knot.
  */
  function AddFlows(yc: Curve, u: seq<real>, c: seq<real>, p: real, solve: Solver): (r: Result<Curve>)
    requires Valid(yc)
    requires |u| == |c|
    ensures r.Success? <==> Plan(View(yc), u, c, p, 0.0).Success?
    ensures r.Success? ==> |u| > 0 && Valid(r.value)
    ensures r.Success? ==> r.value.t == yc.t + [u[|u| - 1]]
    ensures r.Success? ==> r.value.f == yc.f + [solve(View(yc), Plan(View(yc), u, c, p, 0.0).value)]
    ensures |u| == 0 ==> r.Failure?
  {
    var rate :- Rate(View(yc), u, c, p, 0.0, solve);
    Success(Append(yc, u[|u| - 1], rate))
  }

  /** `add(t, c)` routed through `bootstrap`: a one-flow instrument, so the deposit path. */
  function AddDeposit(yc: Curve, t: real, c: real, solve: Solver): (r: Result<Curve>)
    requires Valid(yc)
    ensures r.Success? <==> t > 0.0 && c > 0.0 && (|yc.t| == 0 || t > yc.t[|yc.t| - 1])
    ensures r.Success? ==> r.value.t == yc.t + [t] && |r.value.f| == |yc.f| + 1 && r.value.f[..|yc.f|] == yc.f
    ensures r.Success? ==> r.value.f[|yc.f|] == solve(View(yc), Deposit(t, c, LastKnot(View(yc))))
  {
    AddFlows(yc, [t], [c], 0.0, solve)
  }

  /** `add(t0, c0, t1, c1)` routed through `bootstrap`: two flows at zero price, so the FRA path. */
  function AddFra(yc: Curve, t0: real, c0: real, t1: real, c1: real, solve: Solver): (r: Result<Curve>)
    requires Valid(yc)
    ensures r.Success? <==> |yc.t| == 0 || t1 > yc.t[|yc.t| - 1]
    ensures r.Success? ==> r.value.t == yc.t + [t1] && |r.value.f| == |yc.f| + 1 && r.value.f[..|yc.f|] == yc.f
    ensures r.Success? ==> r.value.f[|yc.f|] == solve(View(yc), FraPlan(View(yc), t0, c0, t1, c1))
  {
    AddFlows(yc, [t0, t1], [c0, c1], 0.0, solve)
  }

  /** A curve built by the constructor from increasing knots is ordered. */
  lemma MakeOrdered(n: nat, t: seq<real>, f: seq<real>)
    requires n <= |t| && n <= |f|
    requires StrictlyIncreasing(t[..n])
    ensures Ordered(Make(n, t, f))
  {
  }

  /** Appending a knot beyond the last one keeps the knots strictly increasing. */
  lemma AppendOrdered(yc: Curve, knot: real, rate: real)
    requires Ordered(yc)
    requires |yc.t| == 0 || yc.t[|yc.t| - 1] < knot
    ensures Ordered(Append(yc, knot, rate))
  {
    var t' := yc.t + [knot];
    forall i, j | 0 <= i < j < |t'|
      ensures t'[i] < t'[j]
    {
      if j == |yc.t| && i < |yc.t| - 1 {
        assert yc.t[i] < yc.t[|yc.t| - 1];
      }
    }
  }

  /** Every successful general `add` keeps the knots strictly increasing. */
  lemma AddFlowsKeepsOrder(yc: Curve, u: seq<real>, c: seq<real>, p: real, solve: Solver)
    requires Ordered(yc)
    requires |u| == |c|
    requires Nondecreasing(u)
    requires AddFlows(yc, u, c, p, solve).Success?
    ensures Ordered(AddFlows(yc, u, c, p, solve).value)
  {
    PlanNewKnotBeyondLast(View(yc), u, c, p, 0.0);
    AppendOrdered(yc, u[|u| - 1], solve(View(yc), Plan(View(yc), u, c, p, 0.0).value));
  }

  /** Every successful deposit `add` keeps the knots strictly increasing. */
  lemma AddDepositKeepsOrder(yc: Curve, t: real, c: real, solve: Solver)
    requires Ordered(yc)
    requires AddDeposit(yc, t, c, solve).Success?
    ensures Ordered(AddDeposit(yc, t, c, solve).value)
  {
    AddFlowsKeepsOrder(yc, [t], [c], 0.0, solve);
  }

  /** Every successful FRA `add` keeps the knots strictly increasing. */
  lemma AddFraKeepsOrder(yc: Curve, t0: real, c0: real, t1: real, c1: real, solve: Solver)
    requires Ordered(yc)
    requires AddFra(yc, t0, c0, t1, c1, solve).Success?
    ensures Ordered(AddFra(yc, t0, c0, t1, c1, solve).value)
  {
    var r := AddFra(yc, t0, c0, t1, c1, solve).value;
    AppendOrdered(yc, t1, r.f[|yc.f|]);
    assert r == Append(yc, t1, r.f[|yc.f|]);
  }

  /**
    The scenario of curves/curves_test/yield_curve_test.cpp: a deposit, an
    FRA and two general instruments build the knots 1, 2, 3, 4.
  */
  lemma BuildScenarioKnots(e: real, solve: Solver)
    requires e > -1.0
    ensures var yc1 := AddDeposit(Curve([], []), 1.0, 1.0 + e, solve);
      && yc1.Success?
      && var yc2 := AddFra(yc1.value, 1.0, -1.0, 2.0, 1.0 + e, solve);
      && yc2.Success?
      && var yc3 := AddFlows(yc2.value, [0.0, 1.0, 2.0, 3.0], [-1.0, e, e, 1.0 + e], 0.0, solve);
      && yc3.Success?
      && var yc4 := AddFlows(yc3.value, [0.0, 1.0, 2.0, 3.0, 4.0], [-1.0, e, e, e, 1.0 + e], 0.0, solve);
      && yc4.Success?
      && yc4.value.t == [1.0, 2.0, 3.0, 4.0]
      && |yc4.value.f| == 4
  {
    var yc1 := AddDeposit(Curve([], []), 1.0, 1.0 + e, solve);
    var yc2 := AddFra(yc1.value, 1.0, -1.0, 2.0, 1.0 + e, solve);
    assert yc2.value.t == [1.0, 2.0];
    var u3 := [0.0, 1.0, 2.0, 3.0];
    PlanAccepts(View(yc2.value), u3, [-1.0, e, e, 1.0 + e], 0.0, 0.0);
    var yc3 := AddFlows(yc2.value, u3, [-1.0, e, e, 1.0 + e], 0.0, solve);
    assert yc3.value.t == [1.0, 2.0, 3.0];
    var u4 := [0.0, 1.0, 2.0, 3.0, 4.0];
    PlanAccepts(View(yc3.value), u4, [-1.0, e, e, e, 1.0 + e], 0.0, 0.0);
  }
}
